=== FILE: README.md ===
# External overlay core, modelled in Dafny

The overlay reads a running game's memory from outside the game's process. Each frame it walks the game's ped list and keeps a per-ped cache of positions, health and network ids. It also keeps caches of bone matrices, head positions and whole skeletons. All remote reads go out in scatter batches. The overlay finds the game build from the date string compiled into the executable, and picks that build's table of memory offsets. Mouse input leaves through one of two serial devices:

- the makcu, whose port thread parses tagged responses and button reports;
- the kmbox.

This project models that core as imperative Dafny.

- **Remote memory** (`remote.dfy`) is an immutable snapshot. It holds typed partial maps: a missing address is a failed read, which leaves the destination buffer as it was. A scatter execution is `Gateway.Execute`, which appends its request list to a log of batches. Every read the caches issue is therefore stated as an exact batch in that log.
- **Caches and objects whose fields change** are classes with `map` or `seq` fields and `modifies` frames:
  - the bone, skeleton and ped caches;
  - the frame state;
  - the serial port;
  - the makcu device;
  - the wrappers.

  Each method is proved against a function of the old state (`FastCached`, `Cleaned`, `HeadWriteBack`, `SkeletonWriteBack`, `Scan`, `MaskAfter`, …), and the properties the code relies on are lemmas about those functions.
- **Time** is a millisecond count, `now`, passed to each call. Durations are computed as signed differences, as the `std::chrono` arithmetic does.
- **Serial writes** succeed or fail according to an oracle `writeOk`, indexed by the number of frames written before. Bytes arriving at the port are a parameter of `ReadBytes` and `Listen`.
- **Matrix transforms** (`XMVector3Transform`) are a parameter of type `Transform`.

When the walk from the replay interface to the ped list meets a null pointer, `collectFrameData` skips the rest of the frame (`src/game/esp_manager.cpp:81-86`). The previous frame's ped list and positions then stay in place; they are not emptied, and `EspManager.FrameState.CollectFrameData` states this.

The build-date pattern scan (`src/game/offsets.cpp:358-384`) behaves exactly as written:

- it tries windows `0 .. chunk_size - 13` of each 1 MiB chunk, so the last window of a chunk is never examined;
- a pattern that straddles two chunks is never found.

## Model

| member | source | states |
|---|---|---|
| BoneCaches.BoneAddr | src/esp/esp.cpp:173-176 | a bone's address lies past the ped's bone matrix |
| BoneCaches.BoneSlotsDisjoint | src/esp/esp.cpp:173-176 | the 16-byte slots of two different bones never overlap |
| BoneCaches.SkeletonBonesAreTheSkeletonSlots | src/esp/esp.cpp:68 | the bones the skeleton reads are exactly bone 0 and bones 3 to 8 |
| BoneCaches.EspStats.constructor | src/esp/esp.h:179-186 | all counters start at zero |
| BoneCaches.EspStats.Reset | src/esp/esp.h:188-191 | zeroes the four counters and stamps the reset time |
| BoneCaches.EspStats.Add | src/esp/esp.cpp:309-310 | adds a tally to the counters, leaving the reset time |
| BoneCaches.EspStats.HitRatio | src/esp/esp.h:193-196 | zero with no lookups; otherwise ratio times lookups equals hits, and the ratio lies in [0, 1] |
| BoneCaches.PrintEspStats | src/esp/esp.cpp:1056-1074 | at least 5 s after the last print the counters are reset and the print time moves to now; otherwise nothing changes |
| BoneCaches.DefaultBoneData | src/esp/esp.h:32-42 | a fresh entry is invalid, with the identity matrix and a zero head |
| BoneCaches.BoneCache.constructor | src/esp/esp.h:73-99 | the cache starts empty |
| BoneCaches.BoneCache.GetBoneMatrix | src/esp/esp.cpp:125-152 | a hit issues no read and returns the cached matrix; a miss issues exactly one read, stamps the entry valid at now and keeps its cached head |
| BoneCaches.BoneCache.GetBonePosition | src/esp/esp.cpp:154-192 | only bone 0 is answered from the cache; any other bone reads the matrix (or hits it) and one bone vector, transforms it, and only a bone-0 miss stores the result |
| BoneCaches.BoneCache.UpdateBoneData | src/esp/esp.cpp:194-202 | stores matrix and head as a valid entry stamped now |
| BoneCaches.BoneCache.CleanupOldEntries | src/esp/esp.cpp:204-222 | runs at most every 2 s; keeps exactly the entries at most 10 s old, unchanged |
| BoneCaches.BoneCache.Clear | src/esp/esp.h:93 | the cache is empty and its size is 0 |
| BoneCaches.GetBonePositionCached | src/esp/esp.cpp:1049-1054 | a valid cached head for bone 0 is returned with no read and counts one hit; anything else reads the bone matrix and the bone in two executions, counts two misses and two reads, returns the transformed bone and stores the matrix stamped now (the new head only for bone 0) |
| BoneCaches.Resize | src/esp/esp.cpp:80 | the bone vector has 9 slots, keeping earlier values and zero-filling new ones |
| BoneCaches.BoneRequests | src/esp/esp.cpp:68-77 | one read per skeleton bone |
| BoneCaches.PosedFromMemory | src/esp/esp.cpp:79-85 | the posed skeleton has 9 slots |
| BoneCaches.PoseFromMemory | src/esp/esp.cpp:79-85 | the loop computes exactly the posed skeleton |
| BoneCaches.SkeletonCache.constructor | src/esp/esp.cpp:46 | the skeleton cache starts empty |
| BoneCaches.SkeletonCache.GetSkeletonBones | src/esp/esp.cpp:49-95 | always succeeds; a hit (valid, under 45 ms) returns the cached bones with no read; a miss poses the skeleton from memory, stores it valid at now and counts 7 reads |
| BoneCaches.SkeletonCache.CleanupSkeletonCache | src/esp/esp.cpp:97-115 | runs at most every 3 s; keeps exactly the entries at most 15 s old, unchanged |
| BoneCaches.SkeletonCache.Clear | src/esp/esp.cpp:117-118 | the skeleton cache is empty |
| BoneCaches.DefaultSkeletonData | src/esp/esp.h:45-55 | an unfilled record is invalid, ped 0, with 9 bone slots |
| BoneCaches.DefaultHeadData | src/esp/esp.h:58-66 | an unfilled record is invalid, ped 0 |
| BoneCaches.SkeletonRecord | src/esp/esp.cpp:282-306 | a filled record is valid, for its ped, with 9 bone slots |
| BoneCaches.HeadRecord | src/esp/esp.cpp:491-510 | a filled record is valid, for its ped |
| BoneCaches.DepositSkeleton | src/esp/esp.cpp:288-306 | depositing reads into a record keeps its ped and 9 slots and marks it valid |
| BoneCaches.BatchReadSkeletonData | src/esp/esp.cpp:267-311 | no peds: nothing read and the output untouched; otherwise one batch, one record per ped, 8 reads per ped counted |
| BoneCaches.BatchReadHeadData | src/esp/esp.cpp:480-515 | no peds: nothing read; otherwise one batch, one head record per ped, 2 reads per ped counted |
| BoneCaches.HeadRecords | src/esp/esp.cpp:480-515 | one head record per ped, in order |
| BoneCaches.HeadWriteBackStamps | src/esp/esp.cpp:522-574 | every valid record leaves its ped with a valid entry stamped now |
| BoneCaches.HeadWriteBackKeeps | src/esp/esp.cpp:522-574 | a ped with no valid record keeps its entry, or its absence |
| BoneCaches.BatchUpdateBoneCache | src/esp/esp.cpp:1010-1036 | no peds: nothing changes; otherwise one batch of 2 reads per ped, then the head write-back of those records |
| BoneCaches.HeadCircleWriteBack | src/esp/esp.cpp:518-575 | the loop leaves exactly the head write-back of the records |
| BoneCaches.PosedFromRecord | src/esp/esp.cpp:426-451 | the skeleton posed from a record has 9 slots |
| BoneCaches.SkeletonWriteBackStamps | src/esp/esp.cpp:426-451 | every valid record leaves its ped with a valid 9-slot skeleton stamped now |
| BoneCaches.SkeletonWriteBackKeeps | src/esp/esp.cpp:426-451 | a ped with no valid record keeps its skeleton entry, or its absence |
| BoneCaches.PoseFromRecord | src/esp/esp.cpp:426-451 | the loop computes exactly the skeleton posed from the record |
| BoneCaches.SkeletonWriteBackLoop | src/esp/esp.cpp:426-451 | the loop leaves exactly the skeleton write-back of the records |
| BoneCaches.BatchAndSingleSkeletonAgree | src/esp/esp.cpp:49-95 | a batch record poses the same skeleton as the single-ped path on a fresh cache |
| BoneCaches.SkeletonRecords | src/esp/esp.cpp:267-311 | one skeleton record per ped, in order |
| BoneCaches.SkeletonPassCovers | src/esp/esp.cpp:1039-1047 | after `get_skeleton_bones` on each ped in turn, every ped has a valid skeleton stamped now unless it was cached before, no skeleton is lost, and executions are only appended |
| BoneCaches.SkeletonPassKeeps | src/esp/esp.cpp:1039-1047 | a ped not in the list keeps its skeleton and bone entries, or their absence |
| BoneCaches.SkeletonPassHits | src/esp/esp.cpp:49-95 | after a pass, every listed ped is answered from the skeleton cache at the same time: a miss stores it stamped now and no later lookup takes a hit away |
| BoneCaches.SkeletonPassAllHits | src/esp/esp.cpp:52-59 | a pass in which every lookup hits changes neither cache nor the executions, and counts one hit per ped |
| BoneCaches.SkeletonRepassHits | src/esp/esp.cpp:1039-1047 | a second `batch_update_skeleton_cache` over the same peds at the same time reads nothing and only counts one hit per ped |
| BoneCaches.BatchUpdateSkeletonCache | src/esp/esp.cpp:1039-1047 | the skeleton cache, the bone cache, the executions and the counters end exactly as the pass of hits and misses over the peds leaves them; every ped ends with a valid skeleton entry |
| EspRender.Col32 | src/esp/esp.cpp:18-19 | a packed colour fits in 32 bits |
| EspRender.Col32Channels | src/esp/esp.cpp:18-19 | each of the four channels can be read back from the packed colour |
| EspRender.ChooseColour | src/esp/esp.cpp:363-373 | grey at or below 0 health, the critical colour below 25, yellow below 50, the configured colour otherwise |
| EspRender.ColourHealth | src/esp/esp.cpp:543-548 | a ped with no valid cache entry is coloured as 100 health, otherwise by its cached health |
| EspRender.UncachedPedIsHealthy | src/esp/esp.cpp:356-361 | an uncached ped gets the configured colour |
| EspRender.EspModeName | src/esp/esp.cpp:243-249 | the name of each mode, "Unknown" for any other value |
| EspRender.EspModeNames | src/esp/esp.cpp:251-256 | two names |
| EspRender.ModeNamesAgree | src/esp/esp.cpp:243-256 | the list and the single-name function agree, and a name is listed exactly for the two modes |
| EspRender.RenderSkeletonEspBatch | src/esp/esp.cpp:455-477 | renders exactly the valid cached peds; with none, nothing is read; otherwise the view matrix and one skeleton batch, and the skeleton cache becomes the write-back of those records, then swept of entries older than 15 s when the 3 s cleanup interval has passed |
| EspRender.RenderHeadCircleEspBatch | src/esp/esp.cpp:578-600 | renders exactly the valid cached peds; the view matrix and one head batch; every such ped leaves with a head entry that is_data_valid accepts, and the bone cache becomes the head write-back of those records, then swept of entries older than 10 s when the 2 s cleanup interval has passed |
| EspManager.RawSlots | src/game/esp_manager.cpp:91-93 | the ped list is read as 110 pointer slots |
| EspManager.SlotInfos | src/game/esp_manager.cpp:96-103 | one player-info read per slot |
| EspManager.KeptIsOrderedSubsequence | src/game/esp_manager.cpp:106-111 | the kept peds are the slots passing the filter, in slot order, each taken once |
| EspManager.KeptMembers | src/game/esp_manager.cpp:106-111 | a ped is kept exactly when some slot holding it passes the filter |
| EspManager.Positions | src/game/esp_manager.cpp:114-123 | one position per kept ped, read at the position offset |
| EspManager.FilterPeds | src/game/esp_manager.cpp:106-111 | the loop keeps exactly the filtered slots, at most as many as there are slots |
| EspManager.SelectPath | src/game/esp_manager.cpp:131-170 | skips exactly when there are no peds or no positions; uses a batch path exactly when batching is on with at least 3 peds; preloads only with the cache on |
| EspManager.FrameState.constructor | src/game/esp_manager.cpp:37-58 | empty lists and a zero frame count |
| EspManager.FrameState.CollectFrameData | src/game/esp_manager.cpp:61-128 | a null replay interface or list base keeps the previous lists; otherwise the slots, the filtered peds and their positions, with the exact batches issued; both as the three-case `Collected` and `CollectionBatches` |
| EspManager.FrameState.ReadPedList | src/game/esp_manager.cpp:86-123 | the slots, the kept peds (at most 110) and their positions are read in three or four batches |
| EspManager.FrameState.RenderEsp | src/game/esp_manager.cpp:131-197 | takes the selected path; both caches, their sweep times, the executions and the counters end exactly as `RenderEffect` of that path says, `print_esp_stats`' reset included; skipping changes nothing; otherwise the view matrix is the first execution, the batch paths leave every valid ped freshly cached, the head preload equals the head write-back and the skeleton preload leaves every ped valid |
| EspManager.FrameState.Draw | src/game/esp_manager.cpp:136-171 | on a drawing path, the state ends as `DrawnEffect`: the view matrix, then the batch renderer or the preload, with the same cache guarantees per path |
| EspManager.FrameState.RenderBatch | src/game/esp_manager.cpp:148-157 | the batch renderer of the mode runs over exactly the valid cached peds and its whole effect is `BatchRenderEffect` |
| EspManager.FrameState.Preload | src/game/esp_manager.cpp:161-170 | the preload of the mode runs over the frame's peds and its whole effect is `PreloadEffect` |
| EspManager.RenderEffectFrames | src/game/esp_manager.cpp:131-197 | a skip leaves the state as it was; a drawing path appends the view matrix first and only appends; each path leaves the caches and sweep times it does not touch unchanged; the counters restart exactly when `print_esp_stats` is due |
| EspManager.FrameState.RunEsp | src/game/esp_manager.cpp:37-58 | counts the frame; the lists are the collected ones; the caches, executions and counters are the collection's reads, then `renderESP`'s effect on the selected path, then the slow refresh's when it runs; with the cache on and peds present, the ped cache becomes the fast update, followed every 5 s by the slow refresh and cleanup |
| EspManager.FrameState.DrawAndMaintain | src/game/esp_manager.cpp:47-55 | `renderESP` on the collected lists, then the ped-cache upkeep; the state is the render effect followed by the slow refresh's when due |
| EspManager.FrameState.MaintainPedCache | src/game/esp_manager.cpp:50-55 | the ped cache becomes the fast update, then every 5 s the cleaned slow refresh over exactly the valid peds; outside the ped cache the effect is `SlowCacheEffect` when due and nothing otherwise |
| EspManager.FrameState.PrintPerformanceStats | src/game/esp_manager.cpp:200-216 | every 5 s the frame count restarts at 0 |
| EspManager.RefreshCache | src/game/esp_manager.cpp:219-221 | the ped cache is empty and the slow timer restarts |
| PedCache.DefaultPed | src/playerInfo/PedData.h:9-21 | a new ped entry is invalid with zero fields |
| PedCache.FrameWriteStamps | src/playerInfo/PedData.cpp:101-108 | every ped of the frame is valid and stamped now, with its own position unless a later duplicate overwrote it |
| PedCache.FrameWriteKeeps | src/playerInfo/PedData.cpp:101-108 | a ped not in the frame keeps its entry, or its absence |
| PedCache.FrameWriteGrows | src/playerInfo/PedData.cpp:101-108 | the keys afterwards are the old keys plus the frame's peds |
| PedCache.AgeOut | src/playerInfo/PedData.cpp:111-127 | ageing out keeps the key set |
| PedCache.FastCacheFrame | src/playerInfo/PedData.cpp:95-128 | the fast update adds exactly the frame's peds, each valid, stamped now and positioned |
| PedCache.FastCacheAbsent | src/playerInfo/PedData.cpp:111-127 | an absent ped is invalidated exactly when it is more than 10 s old, and otherwise untouched |
| PedCache.InfosOf | src/playerInfo/PedData.cpp:57-65 | one player-info pointer per ped |
| PedCache.NetIdOf | src/playerInfo/PedData.cpp:67-74 | 0 without player info; otherwise a 32-bit value |
| PedCache.Refreshed | src/playerInfo/PedData.cpp:78-85 | the refresh writes health, info and net id only, and the net id is 0 without info |
| PedCache.SlowRefresh | src/playerInfo/PedData.cpp:36-93 | the same keys; invalid entries untouched; valid ones stay valid with consistent info and net id |
| PedCache.Cleaned | src/playerInfo/PedData.cpp:192-205 | keeps exactly the entries that are valid and at most 15 s old, unchanged |
| PedCache.CleanedIdempotent | src/playerInfo/PedData.cpp:192-205 | cleaning twice is cleaning once |
| PedCache.PedCacheManager.constructor | src/playerInfo/PedData.cpp:12-15 | an empty cache whose slow timer starts now |
| PedCache.PedCacheManager.Initialize | src/playerInfo/PedData.cpp:21-24 | the slow timer restarts now |
| PedCache.PedCacheManager.GetPedData | src/playerInfo/PedData.cpp:143-150 | an entry exactly when the ped is present and valid, and then that entry |
| PedCache.PedCacheManager.GetValidPedIds | src/playerInfo/PedData.cpp:152-163 | exactly the valid peds, each once |
| PedCache.PedCacheManager.UpdatePedPosition | src/playerInfo/PedData.cpp:169-174 | creates the entry if missing, then sets position, time and validity |
| PedCache.PedCacheManager.UpdatePedHealth | src/playerInfo/PedData.cpp:176-182 | only an existing entry changes, in its health and time |
| PedCache.PedCacheManager.RemovePed | src/playerInfo/PedData.cpp:184-186 | exactly that ped's entry is removed |
| PedCache.PedCacheManager.ClearCache | src/playerInfo/PedData.cpp:188-190 | the cache is empty |
| PedCache.PedCacheManager.ManualCache | src/playerInfo/PedData.cpp:130-141 | the cache is empty and the slow timer restarts |
| PedCache.PedCacheManager.Cleanup | src/playerInfo/PedData.cpp:192-205 | the loop leaves exactly the cleaned cache |
| PedCache.PedCacheManager.FoundInFrame | src/playerInfo/PedData.cpp:112-118 | found exactly when the ped is in the frame list |
| PedCache.PedCacheManager.FastCache | src/playerInfo/PedData.cpp:95-128 | the two loops leave exactly the fast update of the old cache |
| PedCache.PedCacheManager.WriteRefreshed | src/playerInfo/PedData.cpp:78-85 | the listed peds are refreshed, every other entry is unchanged, and the keys are kept |
| PedCache.PedCacheManager.SlowCache | src/playerInfo/PedData.cpp:36-93 | the cache becomes the cleaned slow refresh; exactly the valid peds are read, in two batches, and their heads written back, counting two reads per ped |
| PedCache.PedCacheManager.RefreshValid | src/playerInfo/PedData.cpp:50-85 | the two dependent reads are issued for the listed valid peds and the table becomes the slow refresh of its old contents |
| PedCache.RefreshIsSlowRefresh | src/playerInfo/PedData.cpp:42-85 | refreshing exactly the records valid at the start, and no other, yields the slow refresh |
| PedCache.PedCacheManager.Update | src/playerInfo/PedData.cpp:26-34 | every 5 s the slow path runs, with all of its reads, head write-backs and counters, and the timer moves to now; otherwise nothing changes, counters included |
| Visibility.IsPedVisible | src/game/visibility.h:9-29 | visible when the frame-count address is null or a read fails; otherwise exactly when the two counters agree |
| Visibility.BatchCheckVisibility | src/game/visibility.h:32-62 | one answer per ped; all visible with no read when the counter is missing; otherwise one batch and per-ped comparison |
| Visibility.BatchAgreesWhenReadable | src/game/visibility.h:9-62 | when every read succeeds the batch and single checks agree |
| Visibility.BatchDiffersWhenUnreadable | src/game/visibility.h:9-62 | when the ped's counter cannot be read the single check says visible and the batch comparison does not |
| Remote.BuildRequests | src/game/visibility.h:50-53 | the loop builds exactly the concatenated requests of each element |
| Remote.Gateway.constructor | src/game/visibility.h:32-48 | a gateway with no batches issued |
| Remote.Gateway.Execute | src/game/visibility.h:55 | one execution appends exactly one batch |
| Offsets.TableStepsUp | src/game/offsets.cpp:19-341 | each row's build is below the next row's |
| Offsets.TableAscending | src/game/offsets.cpp:19-341 | the build numbers strictly increase along the table |
| Offsets.GetOffsetsForBuild | src/game/offsets.cpp:541-548 | a row exactly when the table has the build, and then the row with that build |
| Offsets.IsBuildSupported | src/game/offsets.cpp:525-538 | true exactly for builds 2802, 2944, 3095 and 3258 |
| Offsets.VerifiedBuildsHaveOffsets | src/game/offsets.cpp:525-538 | every verified build has a table row |
| Offsets.DateRulesWellFormed | src/game/offsets.cpp:417-511 | each rule compares at most 11 characters of its own date; only two compare 6 |
| Offsets.DateToBuildFrom | src/game/offsets.cpp:417-511 | the result is 0 or the build of a rule |
| Offsets.RuleBuildHasOffsets | src/game/offsets.cpp:417-511 | every build a date rule yields has a table row |
| Offsets.DetectedBuildHasOffsets | src/game/offsets.cpp:417-518 | a detected build is 0 or has a table row |
| Offsets.WindowAtMeans | src/game/offsets.cpp:367-374 | a window matches exactly when its 12 bytes are the pattern |
| Offsets.FirstMatchIn | src/game/offsets.cpp:367-381 | the first matching window among those tried, or none when no window tried matches |
| Offsets.ChunkReads | src/game/offsets.cpp:358-364 | one read per chunk of the 80 MiB region |
| Offsets.ChunkMatchIsFirst | src/game/offsets.cpp:362-381 | a chunk's match is its first matching window; a failed read matches nothing |
| Offsets.FirstMatchingChunk | src/game/offsets.cpp:358-384 | the first chunk with a match, or none when no chunk from here has one |
| Offsets.NoMatchBeforeFirstChunk | src/game/offsets.cpp:358-384 | chunks before the first matching one match nothing |
| Offsets.ScanFindsFirst | src/game/offsets.cpp:358-384 | the scan returns the address of the first match of the first matching chunk, and 0 when there is none |
| Offsets.ScanMissesOnlyWithoutMatch | src/game/offsets.cpp:358-389 | the scan finds nothing exactly when no tried window of any chunk matches |
| Offsets.WindowMatches | src/game/offsets.cpp:368-374 | the inner loop says match exactly when the window is the pattern |
| Offsets.SearchChunk | src/game/offsets.cpp:367-381 | the loop finds exactly the chunk's first match |
| Offsets.FindPattern | src/game/offsets.cpp:353-384 | the nested loops return exactly the scan's result |
| Offsets.StringAddress | src/game/offsets.cpp:403 | the address wraps modulo 2^64 and is exact when it does not overflow |
| Offsets.GetBuildVersion | src/game/offsets.cpp:344-522 | 0 on any failure, otherwise a build that has a table row |
| Offsets.ReadBuildAt | src/game/offsets.cpp:386-521 | a zero match or a failed read gives 0, otherwise the build of the date found at the displaced address; the result is 0 or a build with a table row |
| Offsets.DecodeBuildString | src/game/offsets.cpp:412-521 | the NUL-terminated buffer yields the date's build, which is 0 or a build with a table row |
| Offsets.NulKeepsDate | src/game/offsets.cpp:412 | terminating the 64-byte buffer does not change the detected build |
| Offsets.SameDate | src/game/offsets.cpp:417-511 | the detected build depends only on the first 11 characters |
| SerialPort.Failures | src/makcu/serialport.cpp:100-108 | one failure with the given reason per command, in order |
| SerialPort.Wrap32 | src/makcu/serialport.cpp:383-385 | a 32-bit wrap that keeps 32-bit values |
| SerialPort.CppRem | src/makcu/serialport.cpp:383-385 | the remainder truncates toward zero, so it takes the dividend's sign |
| SerialPort.CommandIdRange | src/makcu/serialport.cpp:383-385 | before the counter wraps, ids lie in 1..10000 |
| SerialPort.WrappedCommandIdRange | src/makcu/serialport.cpp:383-385 | after the counter wraps negative, ids lie in -9998..1 |
| SerialPort.CommandIdsCycle | src/makcu/serialport.cpp:383-385 | fewer than 10000 consecutive calls never repeat an id |
| SerialPort.StripPrompt | src/makcu/serialport.cpp:308-312 | stripping the prompt never lengthens the response |
| SerialPort.TrackedEchoParses | src/makcu/serialport.cpp:307-340 | an echoed tracked command with its id and result parses back to that id and result |
| SerialPort.TaggedParses | src/makcu/serialport.cpp:314-337 | "#id:result" parses to that id and result for every 32-bit id |
| SerialPort.Step | src/makcu/serialport.cpp:241-265 | one byte yields at most one action |
| SerialPort.ScanShapes | src/makcu/serialport.cpp:241-265 | lines are non-empty, printable and at most 255 bytes; button reports are below 32 and neither CR nor LF |
| SerialPort.NoLineWithoutFeed | src/makcu/serialport.cpp:241-265 | without a line feed no response line is produced |
| SerialPort.LineText | src/makcu/serialport.cpp:252 | the line's text has one character per byte |
| SerialPort.ChangedExactly | src/makcu/serialport.cpp:282-305 | an event is reported exactly for each of the 5 buttons whose bit changed, with its new state |
| SerialPort.ChangedAscending | src/makcu/serialport.cpp:293-303 | events come in button order |
| SerialPort.LexIrreflexive | src/makcu/serialport.cpp:629 | no name sorts before itself |
| SerialPort.LexTotal | src/makcu/serialport.cpp:629 | of two different names one sorts first |
| SerialPort.LexTransitive | src/makcu/serialport.cpp:629 | the name order is transitive |
| SerialPort.StrictlySortedIsDistinct | src/makcu/serialport.cpp:629-630 | a sorted, deduplicated list has no repeats |
| SerialPort.Insert | src/makcu/serialport.cpp:629-630 | inserting keeps the list strictly sorted and adds exactly the name |
| SerialPort.FindMakcuPorts | src/makcu/serialport.cpp:579-632 | strictly sorted, and exactly the names of qualifying devices |
| SerialPort.Port.constructor | src/makcu/serialport.cpp:20-33 | closed, counter 0, nothing pending, mask 0 |
| SerialPort.Port.Open | src/makcu/serialport.cpp:39-82 | opens exactly when the device opens, clearing the line buffer; the ledger, writes and responses are unchanged |
| SerialPort.Port.FailAll | src/makcu/serialport.cpp:97-110 | every pending command fails with the reason and the table empties |
| SerialPort.Port.Close | src/makcu/serialport.cpp:84-125 | closed afterwards; an open port lists every pending command once, empties the table and fails each with "Connection closed" in that order; a closed port changes nothing; writes and responses are unchanged |
| SerialPort.Port.GenerateCommandId | src/makcu/serialport.cpp:383-385 | the id of the old counter; the counter advances with 32-bit wrap |
| SerialPort.Port.SendTrackedCommand | src/makcu/serialport.cpp:131-181 | closed: no id and nothing written; open: the next id, one frame written, and the command is pending or failed with "Write failed"; a displaced command is failed as a broken promise; exactly one command is added across pending and completed |
| SerialPort.Port.Submit | src/makcu/serialport.cpp:145-175 | stores and writes one command, failing it when the write fails |
| SerialPort.Port.Register | src/makcu/serialport.cpp:145-149 | the command is stored under its id; a command it displaces is completed as a broken promise, so completions plus pending grow by one |
| SerialPort.Port.Withdraw | src/makcu/serialport.cpp:162-175 | after a failed write the command fails with "Write failed" and leaves the table; completions plus pending are unchanged |
| SerialPort.Port.SendCommand | src/makcu/serialport.cpp:183-203 | closed: false with nothing written; open: one plain frame, and the write's outcome |
| SerialPort.Port.HandleButtonData | src/makcu/serialport.cpp:282-305 | a repeated mask changes nothing; a new mask is stored and each changed button is reported |
| SerialPort.Port.ProcessResponse | src/makcu/serialport.cpp:307-356 | a tagged response completes the command with that id if pending, with the tagged result; an untagged one completes some pending command with the text after the prompt; otherwise nothing changes (`Chooses` and `Respond`); nothing is lost |
| SerialPort.Port.CleanupTimedOutCommands | src/makcu/serialport.cpp:358-381 | exactly the timed-out commands fail with "Command timeout", in the order listed; the rest stay unchanged (`Swept`) |
| SerialPort.Port.Feed | src/makcu/serialport.cpp:241-265 | one byte updates the line buffer, mask, events and responses as the framing step says; a completed line retires exactly what `processResponse` retires for it (`Respond`), and otherwise the ledger is unchanged |
| SerialPort.Port.FeedLine | src/makcu/serialport.cpp:250-256 | a line feed after a non-empty line hands that line to `processResponse`, which retires what `Respond` says, and restarts the buffer |
| SerialPort.Port.FeedOther | src/makcu/serialport.cpp:244-262 | any other byte is a button report, a dropped CR or a buffered character, as the framing step says, and completes no line |
| SerialPort.Port.CompleteLine | src/makcu/serialport.cpp:250-256 | the buffer restarts and the line's completion is exactly `Respond` of the ledger |
| SerialPort.Port.ReadBytes | src/makcu/serialport.cpp:241-265 | the bytes leave exactly the state the framing scan describes, and the ledger is the fold of `Respond` over the completed lines, in order (`RespondAll`) |
| SerialPort.Port.ScanRead | src/makcu/serialport.cpp:241-264 | after the loop over the bytes read, the actions are the framing scan's, the lines' choices are ones `processResponse` can make, and the listener state is the one `ScanState` predicts |
| SerialPort.Port.Listen | src/makcu/serialport.cpp:205-280 | a pass with no bytes read (status query failed, nothing queued, or read failed) changes nothing; otherwise the lines retire commands as `RespondAll` says, and after more than 50 ms the sweep then fails exactly the timed-out survivors with "Command timeout" and keeps the rest unchanged (`Swept`) |
| SerialPort.RespondAllRetires | src/makcu/serialport.cpp:241-265 | a run of lines only retires pending commands, keeps the survivors unchanged, only appends completions, and completes one command per retired one |
| SerialPort.RespondAllSnoc | src/makcu/serialport.cpp:241-265 | processing one more line extends the fold by one `Respond` step |
| SerialPort.SweptLeavesNoTimeout | src/makcu/serialport.cpp:358-381 | after the sweep no timed-out command is left, and completions plus pending are unchanged |
| Makcu.Index | src/makcu/makcu.h:20-26 | each button has an index below 5 |
| Makcu.IndexRoundTrip | src/makcu/makcu.h:20-26 | index and button convert back and forth |
| Makcu.NameRoundTrip | src/makcu/makcu.cpp:978-1001 | parsing a button's name gives back the button |
| Makcu.ParseIgnoresCase | src/makcu/makcu.cpp:989-1001 | parsing is case-insensitive |
| Makcu.UnknownNameIsLeft | src/makcu/makcu.cpp:989-1001 | an unknown name parses as LEFT |
| Makcu.MouseButtonStates.constructor | src/makcu/makcu.h:51 | every button starts up |
| Makcu.MouseButtonStates.Set | src/makcu/makcu.h:64-72 | sets one button and leaves the others |
| Makcu.Wrap64 | src/makcu/makcu.h:278-280 | the counters wrap modulo 2^64 |
| Makcu.Profiler.constructor | src/makcu/makcu.h:263-267 | disabled with no statistics |
| Makcu.Profiler.EnableProfiling | src/makcu/makcu.h:270-272 | sets the flag |
| Makcu.Profiler.LogCommandTiming | src/makcu/makcu.h:274-281 | disabled: nothing; enabled: the command's count and total time grow, with 64-bit wrap |
| Makcu.Profiler.ResetStats | src/makcu/makcu.h:288-291 | the statistics are empty |
| Makcu.PressMask | src/makcu/makcu.cpp:166-175 | only the pressed button's bit changes, to the new state |
| Makcu.ReportsKeepMaskInStep | src/makcu/serialport.cpp:282-305 | a mask that tracks the device's report keeps tracking it after the reported events |
| Makcu.PartialReports | src/makcu/serialport.cpp:293-303 | after the events for the first n buttons those bits follow the new report and the rest keep the old one |
| Makcu.LockBit | src/makcu/makcu.cpp:242-248 | a known lock name maps to a bit below 7 |
| Makcu.LockIndex | src/makcu/makcu.cpp:243-246 | each lock target has a bit below 7 |
| Makcu.LockNameKnown | src/makcu/makcu.cpp:243-246 | each target's name maps to its bit, and distinct targets have distinct bits |
| Makcu.LockUpdate | src/makcu/makcu.cpp:250-257 | only the target's bit changes, to the new state |
| Makcu.LockThenQuery | src/makcu/makcu.cpp:242-277 | after a lock update the cache reports it for that target and leaves the others |
| Makcu.QueryTarget | src/makcu/makcu.cpp:262-277 | a target is reported locked exactly when the cache is valid and its bit is set |
| Makcu.QueryUnknown | src/makcu/makcu.cpp:262-277 | an invalid cache or unknown name reports unlocked |
| Makcu.Frames | src/makcu/serialport.cpp:183-203 | one plain frame per command |
| Makcu.ClickCommands | src/makcu/makcu.cpp:846-861 | two commands per button |
| Makcu.ClickCommandsAt | src/makcu/makcu.cpp:846-861 | the commands of button i are its press and then its release |
| Makcu.PatternCommands | src/makcu/makcu.cpp:863-882 | one move per point, smooth or plain as asked |
| Makcu.Device.constructor | src/makcu/makcu.cpp:113-122 | disconnected with empty mask and an invalid lock cache |
| Makcu.Device.HandleButtonEvent | src/makcu/makcu.cpp:166-187 | the mask gets the event |
| Makcu.Device.DeliverButtonEvents | src/makcu/makcu.cpp:166-187 | the mask gets every event in order |
| Makcu.Device.ExecuteCommand | src/makcu/makcu.cpp:201-224 | disconnected: false with nothing written; connected: one frame and the write's outcome |
| Makcu.Device.UpdateLockStateCache | src/makcu/makcu.cpp:242-260 | an unknown target changes nothing; a known one updates its bit and validates the cache |
| Makcu.Device.LockMouse | src/makcu/makcu.cpp:563-659 | writes the lock command; on success the cache is the old bits with the target's bit set to the new state and is valid, so that target reads back as set and the others are unchanged |
| Makcu.Device.RecordLock | src/makcu/makcu.cpp:563-575 | the cache is the old bits with the target's bit updated, and valid; the target reads back as set and the others are unchanged |
| Makcu.Device.MouseButtonState | src/makcu/makcu.cpp:481-489 | down exactly when connected and the button's mask bit is set |
| Makcu.Device.MouseDown | src/makcu/makcu.cpp:420-430 | connected: the press command is written and its outcome returned |
| Makcu.Device.MouseUp | src/makcu/makcu.cpp:432-442 | connected: the release command is written and its outcome returned |
| Makcu.Device.Click | src/makcu/makcu.cpp:444-461 | connected: press then release written; true exactly when both writes succeed |
| Makcu.Device.MouseMove | src/makcu/makcu.cpp:498-504 | connected: one move frame and its outcome |
| Makcu.Device.MouseMoveSmooth | src/makcu/makcu.cpp:506-514 | connected: one smooth-move frame and its outcome |
| Makcu.Device.MouseWheel | src/makcu/makcu.cpp:547-554 | connected: one wheel frame and its outcome |
| Makcu.Device.SendUntilFailure | src/makcu/makcu.cpp:937-948 | writes commands in order up to and including the first failed one; true exactly when all succeed |
| Makcu.Device.ClickSequence | src/makcu/makcu.cpp:846-861 | clicks in order and stops after the first click that fails; true exactly when all succeed |
| Makcu.Device.MovePattern | src/makcu/makcu.cpp:863-882 | moves in order and stops at the first failure; true exactly when all succeed |
| Makcu.Device.SwitchToHighSpeedMode | src/makcu/makcu.cpp:127-152 | succeeds exactly when the baud command and the reopen succeed; a failed reopen leaves the port closed; once the command goes out, the close fails every pending command with "Connection closed"; a failed command changes nothing; port writes are unchanged |
| Makcu.Device.InitializeDevice | src/makcu/makcu.cpp:154-164 | writes "km.buttons(1)" and returns that write's outcome |
| Makcu.Device.Connect | src/makcu/makcu.cpp:309-356 | already connected: true with nothing done; otherwise connected exactly when a port name exists and opening, switching and initialising all succeed, with the status to match; `km.buttons(1)` is written exactly when the port opened and switched; once the port opened, every pending command fails with "Connection closed", and before that the ledger is unchanged |
| Makcu.Device.Disconnect | src/makcu/makcu.cpp:364-378 | disconnected afterwards; a connected device closes the port, failing every pending command with "Connection closed", clears its button mask and invalidates the lock cache, keeping its bits; a disconnected device changes nothing; port writes are unchanged |
| Makcu.BatchCommandBuilder.constructor | src/makcu/makcu.cpp:893-895 | an empty batch |
| Makcu.BatchCommandBuilder.Move | src/makcu/makcu.cpp:897-900 | appends one move |
| Makcu.BatchCommandBuilder.Click | src/makcu/makcu.cpp:902-912 | appends press and release |
| Makcu.BatchCommandBuilder.Press | src/makcu/makcu.cpp:914-921 | appends one press |
| Makcu.BatchCommandBuilder.Release | src/makcu/makcu.cpp:923-930 | appends one release |
| Makcu.BatchCommandBuilder.Scroll | src/makcu/makcu.cpp:932-935 | appends one wheel command |
| Makcu.BatchCommandBuilder.Execute | src/makcu/makcu.cpp:937-948 | sends in order and stops at the first failure; true exactly when all succeed |
| MakcuWrapper.VirtualKeyToMouseButton | src/makcu/makcu_wrapper.cpp:90-105 | any code other than the five mouse codes maps to LEFT |
| MakcuWrapper.GetMouseButtonKeyCode | src/makcu/makcu_wrapper.cpp:161-168 | a mouse code; the right button for an unlisted name |
| MakcuWrapper.AvailableNamesSelectButtons | src/makcu/makcu_wrapper.cpp:151-168 | the i-th listed name selects the i-th button |
| MakcuWrapper.Clamp127 | src/makcu/makcu_wrapper.cpp:60-73 | clamps to [-127, 127] and keeps values inside |
| MakcuWrapper.Wrapper.constructor | src/makcu/makcu_wrapper.cpp:7-13 | not connected, with empty maps |
| MakcuWrapper.Wrapper.Move | src/makcu/makcu_wrapper.cpp:60-73 | linked: one move with both deltas clamped; otherwise nothing |
| MakcuWrapper.Wrapper.LeftClick | src/makcu/makcu_wrapper.cpp:75-80 | linked: one left press; otherwise nothing |
| MakcuWrapper.Wrapper.LeftClickRelease | src/makcu/makcu_wrapper.cpp:82-87 | linked: one left release; otherwise nothing |
| MakcuWrapper.Wrapper.IsDown | src/makcu/makcu_wrapper.cpp:107-129 | not linked: false; within 10 ms of the last query the stored state; otherwise the device state, stored with the time |
| MakcuWrapper.Wrapper.IsKeyJustPressed | src/makcu/makcu_wrapper.cpp:131-139 | as written: never reports a press |
| MakcuWrapper.Wrapper.IsKeyJustReleased | src/makcu/makcu_wrapper.cpp:141-149 | as written: never reports a release while linked |
| MakcuWrapper.Wrapper.RisingEdge | src/makcu/makcu_wrapper.cpp:131-139 | a press exactly when down now and not down at this detector's previous call |
| MakcuWrapper.Wrapper.FallingEdge | src/makcu/makcu_wrapper.cpp:141-149 | a release exactly when up now and down at this detector's previous call |
| MakcuWrapper.MissedPress | src/makcu/makcu_wrapper.cpp:126-139 | on a press the as-written detector reports nothing and the corrected one reports it |
| MakcuWrapper.MissedRelease | src/makcu/makcu_wrapper.cpp:141-149 | on a release the as-written detector reports nothing and the corrected one reports it |
| Kmbox.Clamp | src/kmbox/Kmbox.cpp:11-19 | clamps to [-128, 127] and keeps values inside |
| Kmbox.ClampIdempotent | src/kmbox/Kmbox.cpp:11-19 | clamping twice is clamping once |
| Kmbox.QueryCommand | src/kmbox/Kmbox.cpp:187-205 | a query exists exactly for the five mouse codes |
| Kmbox.HasOne | src/kmbox/Kmbox.cpp:218-224 | true exactly when a '1' comes before the first NUL |
| Kmbox.GetMouseButtonKeyCode | src/kmbox/Kmbox.cpp:269-277 | always a code that has a query; any name outside the listed five gives the right button's code 2 |
| Kmbox.AvailableNamesSelectCodes | src/kmbox/Kmbox.cpp:257-277 | the five listed names give codes 1, 2, 4, 5, 6 in order, so no two query the same button |
| Kmbox.Box.constructor | src/kmbox/Kmbox.cpp:7-9 | nothing written, empty maps |
| Kmbox.Box.Move | src/kmbox/Kmbox.cpp:142-153 | connected: one move with clamped deltas; otherwise nothing |
| Kmbox.Box.LeftClick | src/kmbox/Kmbox.cpp:155-164 | connected: writes km.left(1) |
| Kmbox.Box.LeftClickRelease | src/kmbox/Kmbox.cpp:166-175 | connected: writes km.left(0) |
| Kmbox.Box.IsDown | src/kmbox/Kmbox.cpp:178-227 | not connected or unknown key: false with nothing written; otherwise the query is written and the answer read |
| Kmbox.Box.IsKeyJustPressed | src/kmbox/Kmbox.cpp:230-241 | a press exactly when down now and not down at this detector's previous call |
| Kmbox.Box.IsKeyJustReleased | src/kmbox/Kmbox.cpp:243-254 | a release exactly when up now and down at this detector's previous call |
| Kmbox.PressThenHold | src/kmbox/Kmbox.cpp:230-241 | a press is reported once and not again while held |
| Text.NatToString | src/makcu/makcu.cpp:227-239 | decimal digits, no leading zero |
| Text.NatToStringRoundTrip | src/makcu/makcu.cpp:227-239 | reading the digits back gives the number |
| Text.Stoi | src/makcu/serialport.cpp:322 | a parsed value always fits 32 bits |
| Text.StoiIntToString | src/makcu/serialport.cpp:322 | parsing a printed 32-bit value gives it back |
| Text.ToUpperChar | src/makcu/makcu.cpp:989-1001 | never a lower-case ASCII letter |
| Text.ToUpper | src/makcu/makcu.cpp:989-1001 | same length, upper-cased character by character |
| Text.ToUpperIdempotent | src/makcu/makcu.cpp:989-1001 | upper-casing twice is upper-casing once |
| Text.Find | src/makcu/serialport.cpp:315-319 | the first position of the character, or -1 when it is absent |

## Left out

- Drawing: the per-ped renderers, `world_to_screen`, ImGui calls and the health bar are not modelled. The batch renderers are modelled up to their cache write-backs.
- EspManager.FrameState.RenderEsp, EspManager.FrameState.Draw, EspManager.FrameState.DrawAndMaintain and EspManager.FrameState.RunEsp: on the per-ped path the model stops after the cache preload. The per-ped renderers that run next also touch the caches, and none of that is modelled:
  - `get_bone_position` stores an entry on a miss and runs `cleanup_old_entries` (`src/esp/esp.cpp:640-664`);
  - `draw_head_circle_cached` counts a cache hit (`src/esp/esp.cpp:675-677`);
  - `draw_skeleton` and `draw_skeleton_cached` look up and store skeletons and run `cleanup_skeleton_cache` (`src/esp/esp.cpp:711-900`).
  The per-ped ensures therefore describe the state after the preload, not after the frame.
- BoneCaches.BoneAddr: addresses are unbounded naturals and the bone index is a natural, so `ped + 0x410 + 0x10 * bone` never wraps modulo 2^64 and negative bone indices do not arise. `BoneSlotsDisjoint` holds under that reading.
- Console output: `std::cout` and the statistics printouts are left out. `PrintEspStats`, which `renderESP` calls, and `PrintPerformanceStats` model only their timers and counter resets; `print_esp_stats`' static timer is the `lastPrint` parameter.
- Threads: the listener thread, futures, promises, mutexes and atomics are sequential here.
  - `Listen` is one pass of the listener loop over the bytes of one read.
  - A future's result is the `completed` log.
  - A promise overwritten in the pending map is recorded as failed with "broken promise".
- Win32 serial I/O: a write's success is the `writeOk` oracle, and the bytes read are a parameter.
  - Baud rates, DCB and timeout settings, flushing and sleeps are left out.
  - The baud-change write in `SwitchToHighSpeedMode` is the `commandOk` oracle and is not appended to `port.writes`. The `writeOk` index of the later `km.buttons(1)` write therefore does not count it.
  - `Open` assumes the port is closed; reopening an open port is not modelled.
- Profiling: `executeCommand`'s call into the profiler is not modelled. The profiler is modelled on its own, and durations are parameters.
- Set-up and enumeration: `MakcuInitialize`, `KmboxInitialize`, `find_port` and `getAvailablePorts` are not modelled, because they enumerate devices through the operating system.
  - `FindMakcuPorts` takes the device list as a parameter.
  - Its `sort` and `unique` become insertion into a strictly sorted list.
- Makcu device extras that only forward to the port or to user code: user callbacks, `DeviceInfo`, monitoring, `catchMouse*`, the mouse serial number, the `*Async` wrappers, `getVersion`, `sendRawCommand` and `getAllLockStates`.
- CommandCache (`src/makcu/makcu.cpp:34-81`) is represented by the command strings it holds (`PressCommand`, `ReleaseCommand`), not by the lookup table itself.
- Floating point: health, positions and matrices are reals or opaque values. NaN health and rounding are not modelled, and `XMVector3Transform` is the parameter `Transform`.
- Offsets the source reads from globals are parameters: the visibility counter offsets and the game offsets record.
- Time is one value, `now`, per call; the source may read its clocks more than once within a call.
- Offsets.ScanFindsFirst: stated for a non-zero module base only. A match at address 0 is indistinguishable from "not found", as in the source.
- Offsets.ScanMissesOnlyWithoutMatch: stated for a non-zero module base only, for the same reason.
- MakcuWrapper.Wrapper: the global device always exists here; the source's null check before it is created is not modelled.
- MakcuWrapper and Kmbox: `GetAvailableMouseButtons` is modelled as the constant `AvailableMouseButtons`, the list it returns.
- `InitializeContainers` and the static container set-up in the ped cache are not modelled, because they only reserve capacity.

## Findings

| source | as written | input that shows it | evidently intended | confidence | as-written member | corrected member |
|---|---|---|---|---|---|---|
| src/makcu/makcu_wrapper.cpp:131-139 | `IsKeyJustPressed` compares `IsDown`'s result with `previous_states[key]`, which `IsDown` has just overwritten with that same result (line 126), so while connected it never reports a press | connected, left button up at the query at t = 100 ms, down at the query at t = 120 ms (`MakcuWrapper.MissedPress`) | report a press when the button is down now and was up at the detector's previous call | not executed | MakcuWrapper.Wrapper.IsKeyJustPressed | MakcuWrapper.Wrapper.RisingEdge |
| src/makcu/makcu_wrapper.cpp:141-149 | `IsKeyJustReleased` reads the same overwritten entry, so while connected it never reports a release | connected, left button down at the query at t = 100 ms, up at the query at t = 120 ms (`MakcuWrapper.MissedRelease`) | report a release when the button is up now and was down at the detector's previous call | not executed | MakcuWrapper.Wrapper.IsKeyJustReleased | MakcuWrapper.Wrapper.FallingEdge |

=== FILE: bone_cache.dfy ===
// The bone/transform caches of the ESP layer: the per-ped head cache
// (`BoneCache`), the 9-slot skeleton cache (`EnhancedBoneCache`), the ESP
// statistics counters, the batch readers that put every ped's reads into a
// single scatter execution, and the write-back that the batch renderers do
// after drawing.

module BoneCaches {
  import opened Remote

  // Bone addressing relative to a ped.
  const BoneMatrixOffset: nat := 0x60
  const BoneArrayBase: nat := 0x410
  const BoneSize: nat := 0x10
  const MatrixBytes: nat := 64

  // Time-to-live and sweep constants, in milliseconds.
  const CacheValidityMs: int := 10
  const CleanupIntervalMs: int := 2000
  const BoneCeilingMs: int := 10000
  const SkeletonValidityMs: int := 45
  const SkeletonCleanupMs: int := 3000
  const SkeletonCeilingMs: int := 15000

  /** The bones a skeleton is drawn from; the other slots of the 9 stay at their default. */
  const SkeletonBones: seq<nat> := [0, 3, 4, 5, 6, 7, 8]
  const SkeletonSlots: nat := 9

  predicate IsSkeletonBone(k: nat) { k == 0 || 3 <= k <= 8 }

  /** Address of bone `bone`'s offset vector. */
  function BoneAddr(ped: Addr, bone: nat): (a: Addr)
    ensures a >= ped + BoneMatrixOffset + MatrixBytes
  {
    ped + BoneArrayBase + BoneSize * bone
  }

  lemma BoneSlotsDisjoint(ped: Addr, b1: nat, b2: nat)
    requires b1 < b2
    ensures BoneAddr(ped, b1) + BoneSize <= BoneAddr(ped, b2)
  {
  }

  lemma SkeletonBonesAreTheSkeletonSlots(k: nat)
    ensures k in SkeletonBones <==> IsSkeletonBone(k)
  {
  }

  // ---------------------------------------------------------------------
  // ESPStats

  /** The four counters of `ESPStats`, as one value. */
  datatype Tally = Tally(hits: int, misses: int, memReads: int, batches: int)
  {
    function Plus(d: Tally): Tally
    {
      Tally(hits + d.hits, misses + d.misses, memReads + d.memReads, batches + d.batches)
    }
  }

  const NoTally := Tally(0, 0, 0, 0)

  class EspStats {
    var cacheHits: int
    var cacheMisses: int
    var memoryReads: int
    var batchReads: int
    var lastReset: nat

    function Counters(): Tally
      reads this
    {
      Tally(cacheHits, cacheMisses, memoryReads, batchReads)
    }

    constructor (now: nat)
      ensures Counters() == NoTally && lastReset == now
    {
      cacheHits, cacheMisses, memoryReads, batchReads := 0, 0, 0, 0;
      lastReset := now;
    }

    method Reset(now: nat)
      modifies this
      ensures cacheHits == 0 && cacheMisses == 0 && memoryReads == 0 && batchReads == 0
      ensures lastReset == now
    {
      cacheHits, cacheMisses, memoryReads, batchReads := 0, 0, 0, 0;
      lastReset := now;
    }

    /** Adds `d` to the counters, as the `esp_stats.x++` / `+=` statements do. */
    method Add(d: Tally)
      modifies this
      ensures Counters() == old(Counters()).Plus(d) && lastReset == old(lastReset)
    {
      cacheHits := cacheHits + d.hits;
      cacheMisses := cacheMisses + d.misses;
      memoryReads := memoryReads + d.memReads;
      batchReads := batchReads + d.batches;
    }

    /** The share of lookups that hit the cache. */
    function HitRatio(): (r: real)
      reads this
      ensures cacheHits + cacheMisses == 0 ==> r == 0.0
      ensures cacheHits + cacheMisses > 0 ==> r * (cacheHits + cacheMisses) as real == cacheHits as real
      ensures cacheHits >= 0 && cacheMisses >= 0 ==> 0.0 <= r <= 1.0
    {
      var total := cacheHits + cacheMisses;
      if total > 0 then
        RatioBounds(cacheHits, total);
        cacheHits as real / total as real
      else 0.0
    }
  }

  lemma RatioBounds(h: int, t: int)
    requires t > 0
    ensures (h as real / t as real) * t as real == h as real
    ensures 0 <= h <= t ==> 0.0 <= h as real / t as real <= 1.0
  {
  }

  /** `print_esp_stats`: the console line aside, it resets the counters once
      every 5 s. `lastPrint` is the function's static timestamp. */
  method PrintEspStats(stats: EspStats, lastPrint: nat, now: nat) returns (newLastPrint: nat)
    modifies stats
    ensures now - lastPrint >= 5000 ==>
      stats.Counters() == NoTally && stats.lastReset == now && newLastPrint == now
    ensures now - lastPrint < 5000 ==>
      stats.Counters() == old(stats.Counters()) && stats.lastReset == old(stats.lastReset) && newLastPrint == lastPrint
  {
    newLastPrint := lastPrint;
    if now - lastPrint >= 5000 {
      stats.Reset(now);
      newLastPrint := now;
    }
  }

  // ---------------------------------------------------------------------
  // BoneCache: matrix and head position per ped

  datatype CachedBoneData = CachedBoneData(matrix: Matrix, head: Vec3, lastUpdate: nat, valid: bool)

  /** A default-constructed entry, stamped with its construction time. */
  function DefaultBoneData(now: nat): (d: CachedBoneData)
    ensures !d.valid && d.matrix == Identity && d.head == ZeroVec && d.lastUpdate == now
  {
    CachedBoneData(Identity, ZeroVec, now, false)
  }

  // The lookups of `get_bone_matrix` on a given table, so that a sequence of
  // them can be followed without the object.

  predicate ValidIn(e: map<Addr, CachedBoneData>, ped: Addr, now: nat)
  {
    ped in e && e[ped].valid && now - e[ped].lastUpdate < CacheValidityMs
  }

  predicate MatrixHitIn(e: map<Addr, CachedBoneData>, ped: Addr, force: bool, now: nat)
  {
    !force && ValidIn(e, ped, now)
  }

  function MatrixIn(e: map<Addr, CachedBoneData>, ped: Addr, force: bool, now: nat, mem: Memory): Matrix
  {
    if MatrixHitIn(e, ped, force, now) then e[ped].matrix
    else mem.MatAt(ped + BoneMatrixOffset, Identity)
  }

  function HeadIn(e: map<Addr, CachedBoneData>, ped: Addr): Vec3
  {
    if ped in e then e[ped].head else ZeroVec
  }

  function AfterMatrixIn(e: map<Addr, CachedBoneData>, ped: Addr, force: bool, now: nat, mem: Memory): map<Addr, CachedBoneData>
  {
    if MatrixHitIn(e, ped, force, now) then e
    else e[ped := CachedBoneData(mem.MatAt(ped + BoneMatrixOffset, Identity), HeadIn(e, ped), now, true)]
  }

  function MatrixBatchesIn(e: map<Addr, CachedBoneData>, ped: Addr, force: bool, now: nat): seq<seq<Request>>
  {
    if MatrixHitIn(e, ped, force, now) then [] else [[MatReq(ped + BoneMatrixOffset)]]
  }

  function MatrixTallyIn(e: map<Addr, CachedBoneData>, ped: Addr, force: bool, now: nat): Tally
  {
    if MatrixHitIn(e, ped, force, now) then Tally(1, 0, 0, 0) else Tally(0, 1, 1, 0)
  }

  /** The entries `cleanup_old_entries` keeps: those at most 10 s old. */
  function BoneSwept(e: map<Addr, CachedBoneData>, now: nat): map<Addr, CachedBoneData>
  {
    map p | p in e && now - e[p].lastUpdate <= BoneCeilingMs :: e[p]
  }

  class BoneCache {
    var entries: map<Addr, CachedBoneData>
    var lastCleanup: nat

    constructor (now: nat)
      ensures entries == map[] && lastCleanup == now
    {
      entries := map[];
      lastCleanup := now;
    }

    /** `is_data_valid`: present, valid and younger than 10 ms. */
    predicate IsDataValid(ped: Addr, now: nat)
      reads this
    {
      ValidIn(entries, ped, now)
    }

    /** Whether `get_bone_matrix` answers from the cache. */
    predicate MatrixHit(ped: Addr, force: bool, now: nat)
      reads this
    {
      MatrixHitIn(entries, ped, force, now)
    }

    /** The matrix `get_bone_matrix` returns. */
    function MatrixFor(ped: Addr, force: bool, now: nat, mem: Memory): Matrix
      reads this
    {
      MatrixIn(entries, ped, force, now, mem)
    }

    /** The head an entry keeps when only its matrix is refreshed. */
    function HeadOf(ped: Addr): Vec3
      reads this
    {
      HeadIn(entries, ped)
    }

    /** The table after `get_bone_matrix`. */
    function EntriesAfterMatrix(ped: Addr, force: bool, now: nat, mem: Memory): map<Addr, CachedBoneData>
      reads this
    {
      AfterMatrixIn(entries, ped, force, now, mem)
    }

    /** The scatter executions `get_bone_matrix` performs. */
    function MatrixBatches(ped: Addr, force: bool, now: nat): seq<seq<Request>>
      reads this
    {
      MatrixBatchesIn(entries, ped, force, now)
    }

    function MatrixTally(ped: Addr, force: bool, now: nat): Tally
      reads this
    {
      MatrixTallyIn(entries, ped, force, now)
    }

    method GetBoneMatrix(ped: Addr, force: bool, now: nat, gw: Gateway, stats: EspStats) returns (m: Matrix)
      modifies this`entries, gw, stats
      ensures m == old(MatrixFor(ped, force, now, gw.mem))
      ensures entries == old(EntriesAfterMatrix(ped, force, now, gw.mem))
      ensures gw.batches == old(gw.batches) + old(MatrixBatches(ped, force, now))
      ensures stats.Counters() == old(stats.Counters()).Plus(old(MatrixTally(ped, force, now)))
      ensures stats.lastReset == old(stats.lastReset)
      // A hit issues no read and changes no entry; a miss issues exactly one
      // read and stamps the entry valid and now without touching its head.
      ensures old(MatrixHit(ped, force, now)) <==> gw.batches == old(gw.batches)
      ensures !old(MatrixHit(ped, force, now)) ==>
        ped in entries && entries[ped].valid && entries[ped].lastUpdate == now
        && entries[ped].head == old(HeadOf(ped)) && entries[ped].matrix == m
    {
      if !force && ped in entries && entries[ped].valid && now - entries[ped].lastUpdate < CacheValidityMs {
        stats.Add(Tally(1, 0, 0, 0));
        return entries[ped].matrix;
      }
      stats.Add(Tally(0, 1, 1, 0));
      gw.Execute([MatReq(ped + BoneMatrixOffset)]);
      m := gw.mem.MatAt(ped + BoneMatrixOffset, Identity);
      var cached := if ped in entries then entries[ped] else DefaultBoneData(now);
      entries := entries[ped := cached.(matrix := m, lastUpdate := now, valid := true)];
    }

    /** `get_bone_position`: only bone 0 is ever answered from, or written to, the cache. */
    method GetBonePosition(ped: Addr, bone: nat, force: bool, now: nat, gw: Gateway, stats: EspStats, xf: Transform)
      returns (p: Vec3)
      modifies this`entries, gw, stats
      ensures bone == 0 && old(MatrixHit(ped, force, now)) ==>
        p == old(entries[ped].head) && entries == old(entries) && gw.batches == old(gw.batches)
        && stats.Counters() == old(stats.Counters()).Plus(Tally(1, 0, 0, 0))
      ensures !(bone == 0 && old(MatrixHit(ped, force, now))) ==>
        var m := old(MatrixFor(ped, force, now, gw.mem));
        p == xf(gw.mem.VecAt(BoneAddr(ped, bone), ZeroVec), m)
        && gw.batches == old(gw.batches) + old(MatrixBatches(ped, force, now)) + [[VecReq(BoneAddr(ped, bone))]]
        && stats.Counters() == old(stats.Counters()).Plus(Tally(0, 1, 1, 0)).Plus(old(MatrixTally(ped, force, now)))
        && entries == (if bone == 0 then old(entries)[ped := CachedBoneData(m, p, now, true)]
                       else old(EntriesAfterMatrix(ped, force, now, gw.mem)))
      ensures stats.lastReset == old(stats.lastReset)
    {
      if bone == 0 && !force && ped in entries && entries[ped].valid && now - entries[ped].lastUpdate < CacheValidityMs {
        stats.Add(Tally(1, 0, 0, 0));
        return entries[ped].head;
      }
      stats.Add(Tally(0, 1, 1, 0));
      var m := GetBoneMatrix(ped, force, now, gw, stats);
      gw.Execute([VecReq(BoneAddr(ped, bone))]);
      var offset := gw.mem.VecAt(BoneAddr(ped, bone), ZeroVec);
      p := xf(offset, m);
      if bone == 0 {
        var cached := if ped in entries then entries[ped] else DefaultBoneData(now);
        entries := entries[ped := cached.(head := p, lastUpdate := now, valid := true)];
      }
    }

    /** `update_bone_data`: overwrite both matrix and head, stamped now and valid. */
    method UpdateBoneData(ped: Addr, m: Matrix, head: Vec3, now: nat)
      modifies this`entries
      ensures entries == old(entries)[ped := CachedBoneData(m, head, now, true)]
    {
      var cached := if ped in entries then entries[ped] else DefaultBoneData(now);
      entries := entries[ped := cached.(matrix := m, head := head, lastUpdate := now, valid := true)];
    }

    /** `cleanup_old_entries`: at most once per 2 s, erase entries older than 10 s. */
    method CleanupOldEntries(now: nat)
      modifies this
      ensures now - old(lastCleanup) < CleanupIntervalMs ==>
        entries == old(entries) && lastCleanup == old(lastCleanup)
      ensures now - old(lastCleanup) >= CleanupIntervalMs ==>
        lastCleanup == now
        && (forall p :: p in entries <==> p in old(entries) && now - old(entries)[p].lastUpdate <= BoneCeilingMs)
        && (forall p :: p in entries ==> entries[p] == old(entries)[p])
    ensures now - old(lastCleanup) >= CleanupIntervalMs ==> entries == BoneSwept(old(entries), now)
    {
      if now - lastCleanup < CleanupIntervalMs {
        return;
      }
      ghost var start := entries;
      var unvisited := entries.Keys;
      while unvisited != {}
        invariant unvisited <= start.Keys
        invariant forall p :: p in entries <==> p in start && (p in unvisited || now - start[p].lastUpdate <= BoneCeilingMs)
        invariant forall p :: p in entries ==> entries[p] == start[p]
        decreases unvisited
      {
        var p :| p in unvisited;
        if now - entries[p].lastUpdate > BoneCeilingMs {
          entries := entries - {p};
        }
        unvisited := unvisited - {p};
      }
      lastCleanup := now;
    }

    method Clear()
      modifies this`entries
      ensures entries == map[] && Size() == 0
    {
      entries := map[];
    }

    function Size(): nat
      reads this
    {
      |entries|
    }
  }

  /** `get_bone_position_cached`: bone 0 with a valid entry is asked without
      forcing; everything else is forced past the cache. */
  method GetBonePositionCached(bc: BoneCache, ped: Addr, bone: nat, now: nat, gw: Gateway, stats: EspStats, xf: Transform)
    returns (p: Vec3)
    modifies bc`entries, gw, stats
    ensures bone == 0 && old(bc.IsDataValid(ped, now)) ==>
      p == old(bc.entries[ped].head) && bc.entries == old(bc.entries) && gw.batches == old(gw.batches)
      && stats.Counters() == old(stats.Counters()).Plus(Tally(1, 0, 0, 0))
    // Forced: the matrix and the bone are both read, each counted as a miss
    // and a read, and the entry is restamped with the matrix just read.
    ensures !(bone == 0 && old(bc.IsDataValid(ped, now))) ==>
      var m := gw.mem.MatAt(ped + BoneMatrixOffset, Identity);
      p == xf(gw.mem.VecAt(BoneAddr(ped, bone), ZeroVec), m)
      && gw.batches == old(gw.batches) + [[MatReq(ped + BoneMatrixOffset)], [VecReq(BoneAddr(ped, bone))]]
      && stats.Counters() == old(stats.Counters()).Plus(Tally(0, 2, 2, 0))
      && bc.entries == old(bc.entries)[ped := CachedBoneData(m, if bone == 0 then p else old(bc.HeadOf(ped)), now, true)]
    ensures stats.lastReset == old(stats.lastReset)
  {
    if bone == 0 && bc.IsDataValid(ped, now) {
      p := bc.GetBonePosition(ped, 0, false, now, gw, stats, xf);
    } else {
      p := bc.GetBonePosition(ped, bone, true, now, gw, stats, xf);
    }
  }

  // ---------------------------------------------------------------------
  // EnhancedBoneCache: the 9 skeleton slots per ped

  datatype CachedSkeleton = CachedSkeleton(bones: seq<Vec3>, lastUpdate: nat, valid: bool)

  /** `std::vector::resize(n)` on a vector of `Vec3`: truncate, or pad with zero vectors. */
  function Resize(s: seq<Vec3>, n: nat): (r: seq<Vec3>)
    ensures |r| == n
    ensures forall k :: 0 <= k < n ==> r[k] == (if k < |s| then s[k] else ZeroVec)
  {
    if |s| >= n then s[..n] else s + seq(n - |s|, _ => ZeroVec)
  }

  /** The 7 offset reads of one skeleton, in bone order. */
  function BoneRequests(ped: Addr): (r: seq<Request>)
    ensures |r| == |SkeletonBones|
  {
    seq(|SkeletonBones|, j requires 0 <= j < |SkeletonBones| => VecReq(BoneAddr(ped, SkeletonBones[j])))
  }

  /** `base` with every skeleton bone replaced by its offset read from memory and
      transformed by `m`. */
  function PosedFromMemory(base: seq<Vec3>, ped: Addr, m: Matrix, mem: Memory, xf: Transform): (r: seq<Vec3>)
    requires |base| == SkeletonSlots
    ensures |r| == SkeletonSlots
  {
    seq(SkeletonSlots, k requires 0 <= k < SkeletonSlots =>
      if IsSkeletonBone(k) then xf(mem.VecAt(BoneAddr(ped, k), ZeroVec), m) else base[k])
  }

  /** The transform loop of `get_skeleton_bones`: each skeleton slot of `base`
      receives its bone's offset transformed by `m`. */
  method PoseFromMemory(base: seq<Vec3>, ped: Addr, m: Matrix, mem: Memory, xf: Transform) returns (bones: seq<Vec3>)
    requires |base| == SkeletonSlots
    ensures bones == PosedFromMemory(base, ped, m, mem, xf)
  {
    bones := base;
    var i := 0;
    while i < |SkeletonBones|
      invariant 0 <= i <= |SkeletonBones| && |bones| == SkeletonSlots
      invariant forall k :: 0 <= k < SkeletonSlots ==>
        bones[k] == (if k in SkeletonBones[..i] then xf(mem.VecAt(BoneAddr(ped, k), ZeroVec), m) else base[k])
    {
      var b := SkeletonBones[i];
      bones := bones[b := xf(mem.VecAt(BoneAddr(ped, b), ZeroVec), m)];
      i := i + 1;
    }
    assert SkeletonBones[..|SkeletonBones|] == SkeletonBones;
    forall k | 0 <= k < SkeletonSlots
      ensures bones[k] == PosedFromMemory(base, ped, m, mem, xf)[k]
    {
      SkeletonBonesAreTheSkeletonSlots(k);
    }
  }

  /** Whether `get_skeleton_bones` answers from the table `e`. */
  predicate SkeletonHitIn(e: map<Addr, CachedSkeleton>, ped: Addr, force: bool, now: nat)
  {
    !force && ped in e && e[ped].valid && now - e[ped].lastUpdate < SkeletonValidityMs
  }

  /** The entries `cleanup_skeleton_cache` keeps: those at most 15 s old. */
  function SkeletonSwept(e: map<Addr, CachedSkeleton>, now: nat): map<Addr, CachedSkeleton>
  {
    map p | p in e && now - e[p].lastUpdate <= SkeletonCeilingMs :: e[p]
  }

  class SkeletonCache {
    var entries: map<Addr, CachedSkeleton>
    var lastCleanup: nat

    constructor (now: nat)
      ensures entries == map[] && lastCleanup == now
    {
      entries := map[];
      lastCleanup := now;
    }

    /** Whether `get_skeleton_bones` answers from the cache. */
    predicate SkeletonHit(ped: Addr, force: bool, now: nat)
      reads this
    {
      SkeletonHitIn(entries, ped, force, now)
    }

    /** `get_skeleton_bones`: a hit copies the cached slots; a miss reads the
        matrix through the bone cache, reads the 7 bone offsets in one execution,
        and caches the result stamped now. It always succeeds. */
    method GetSkeletonBones(ped: Addr, bonesIn: seq<Vec3>, force: bool, now: nat,
                            gw: Gateway, stats: EspStats, bc: BoneCache, xf: Transform)
      returns (ok: bool, bones: seq<Vec3>)
      modifies this`entries, gw, stats, bc`entries
      ensures ok
      ensures old(SkeletonHit(ped, force, now)) ==>
        bones == old(entries[ped].bones) && entries == old(entries) && bc.entries == old(bc.entries)
        && gw.batches == old(gw.batches) && stats.Counters() == old(stats.Counters()).Plus(Tally(1, 0, 0, 0))
      ensures !old(SkeletonHit(ped, force, now)) ==>
        var m := old(bc.MatrixFor(ped, force, now, gw.mem));
        bones == PosedFromMemory(Resize(bonesIn, SkeletonSlots), ped, m, gw.mem, xf)
        && entries == old(entries)[ped := CachedSkeleton(bones, now, true)]
        && bc.entries == old(bc.EntriesAfterMatrix(ped, force, now, gw.mem))
        && gw.batches == old(gw.batches) + old(bc.MatrixBatches(ped, force, now)) + [BoneRequests(ped)]
        && stats.Counters() == old(stats.Counters()).Plus(Tally(0, 1, 0, 0)).Plus(old(bc.MatrixTally(ped, force, now))).Plus(Tally(0, 0, 7, 0))
      ensures stats.lastReset == old(stats.lastReset)
    {
      if !force && ped in entries && entries[ped].valid && now - entries[ped].lastUpdate < SkeletonValidityMs {
        stats.Add(Tally(1, 0, 0, 0));
        return true, entries[ped].bones;
      }
      stats.Add(Tally(0, 1, 0, 0));
      var m := bc.GetBoneMatrix(ped, force, now, gw, stats);

      var reqs: seq<Request> := [];
      var i := 0;
      while i < |SkeletonBones|
        invariant 0 <= i <= |SkeletonBones|
        invariant reqs == BoneRequests(ped)[..i]
      {
        reqs := reqs + [VecReq(BoneAddr(ped, SkeletonBones[i]))];
        i := i + 1;
      }
      assert reqs == BoneRequests(ped);
      gw.Execute(reqs);
      bones := PoseFromMemory(Resize(bonesIn, SkeletonSlots), ped, m, gw.mem, xf);
      entries := entries[ped := CachedSkeleton(bones, now, true)];
      stats.Add(Tally(0, 0, 7, 0));
      ok := true;
    }

    /** `cleanup_skeleton_cache`: at most once per 3 s, erase entries older than 15 s. */
    method CleanupSkeletonCache(now: nat)
      modifies this
      ensures now - old(lastCleanup) < SkeletonCleanupMs ==>
        entries == old(entries) && lastCleanup == old(lastCleanup)
      ensures now - old(lastCleanup) >= SkeletonCleanupMs ==>
        lastCleanup == now
        && (forall p :: p in entries <==> p in old(entries) && now - old(entries)[p].lastUpdate <= SkeletonCeilingMs)
        && (forall p :: p in entries ==> entries[p] == old(entries)[p])
    ensures now - old(lastCleanup) >= SkeletonCleanupMs ==> entries == SkeletonSwept(old(entries), now)
    {
      if now - lastCleanup < SkeletonCleanupMs {
        return;
      }
      ghost var start := entries;
      var unvisited := entries.Keys;
      while unvisited != {}
        invariant unvisited <= start.Keys
        invariant forall p :: p in entries <==> p in start && (p in unvisited || now - start[p].lastUpdate <= SkeletonCeilingMs)
        invariant forall p :: p in entries ==> entries[p] == start[p]
        decreases unvisited
      {
        var p :| p in unvisited;
        if now - entries[p].lastUpdate > SkeletonCeilingMs {
          entries := entries - {p};
        }
        unvisited := unvisited - {p};
      }
      lastCleanup := now;
    }

    method Clear()
      modifies this`entries
      ensures entries == map[] && Size() == 0
    {
      entries := map[];
    }

    function Size(): nat
      reads this
    {
      |entries|
    }
  }

  // ---------------------------------------------------------------------
  // Batch readers

  datatype BatchSkeletonData = BatchSkeletonData(ped: Addr, matrix: Matrix, offsets: seq<Vec3>, valid: bool)
  datatype BatchHeadData = BatchHeadData(ped: Addr, matrix: Matrix, headOffset: Vec3, valid: bool)

  /** Default-constructed batch records: invalid, identity matrix, 9 zero offset slots. */
  function DefaultSkeletonData(): (d: BatchSkeletonData)
    ensures !d.valid && d.ped == 0 && |d.offsets| == SkeletonSlots
  {
    BatchSkeletonData(0, Identity, seq(SkeletonSlots, _ => ZeroVec), false)
  }

  function DefaultHeadData(): (d: BatchHeadData)
    ensures !d.valid && d.ped == 0
  {
    BatchHeadData(0, Identity, ZeroVec, false)
  }

  /** The record `batch_read_skeleton_data` leaves for `ped`: a failed read keeps
      the default, and only the 7 skeleton slots are read. */
  function SkeletonRecord(ped: Addr, mem: Memory): (d: BatchSkeletonData)
    ensures d.valid && d.ped == ped && |d.offsets| == SkeletonSlots
  {
    BatchSkeletonData(ped, mem.MatAt(ped + BoneMatrixOffset, Identity),
      seq(SkeletonSlots, k requires 0 <= k < SkeletonSlots =>
        if IsSkeletonBone(k) then mem.VecAt(BoneAddr(ped, k), ZeroVec) else ZeroVec),
      true)
  }

  function HeadRecord(ped: Addr, mem: Memory): (d: BatchHeadData)
    ensures d.valid && d.ped == ped
  {
    BatchHeadData(ped, mem.MatAt(ped + BoneMatrixOffset, Identity), mem.VecAt(BoneAddr(ped, 0), ZeroVec), true)
  }

  function MatrixRequest(ped: Addr): seq<Request>
  {
    [MatReq(ped + BoneMatrixOffset)]
  }

  function HeadRequests(ped: Addr): seq<Request>
  {
    [MatReq(ped + BoneMatrixOffset), VecReq(BoneAddr(ped, 0))]
  }

  /** The single scatter list of the skeleton batch: every matrix first, then
      every ped's 7 bone offsets. */
  function SkeletonRequests(peds: seq<Addr>): seq<Request>
  {
    Gather(peds, MatrixRequest) + Gather(peds, BoneRequests)
  }

  /** What the execution leaves in a skeleton record: each read that succeeds
      overwrites its destination, then the record is marked valid. */
  function DepositSkeleton(d: BatchSkeletonData, mem: Memory): (r: BatchSkeletonData)
    requires |d.offsets| == SkeletonSlots
    ensures |r.offsets| == SkeletonSlots && r.valid && r.ped == d.ped
  {
    d.(matrix := mem.MatAt(d.ped + BoneMatrixOffset, d.matrix),
       offsets := seq(SkeletonSlots, k requires 0 <= k < SkeletonSlots =>
         if IsSkeletonBone(k) then mem.VecAt(BoneAddr(d.ped, k), d.offsets[k]) else d.offsets[k]),
       valid := true)
  }

  method BatchReadSkeletonData(peds: seq<Addr>, outIn: seq<BatchSkeletonData>, gw: Gateway, stats: EspStats)
    returns (out: seq<BatchSkeletonData>)
    modifies gw, stats
    ensures peds == [] ==>
      out == outIn && gw.batches == old(gw.batches) && stats.Counters() == old(stats.Counters())
    ensures peds != [] ==>
      |out| == |peds|
      && (forall i :: 0 <= i < |peds| ==> out[i] == SkeletonRecord(peds[i], gw.mem))
      && gw.batches == old(gw.batches) + [SkeletonRequests(peds)]
      && stats.Counters() == old(stats.Counters()).Plus(Tally(0, 0, 8 * |peds|, 1))
    ensures stats.lastReset == old(stats.lastReset)
  {
    if peds == [] {
      return outIn;
    }
    out := seq(|peds|, _ => DefaultSkeletonData());
    var i := 0;
    while i < |peds|
      invariant 0 <= i <= |peds| && |out| == |peds|
      invariant forall k :: 0 <= k < |peds| ==>
        out[k] == if k < i then DefaultSkeletonData().(ped := peds[k]) else DefaultSkeletonData()
    {
      out := out[i := out[i].(ped := peds[i])];
      i := i + 1;
    }
    var matrixReqs := BuildRequests(peds, MatrixRequest);
    var boneReqs := BuildRequests(peds, BoneRequests);
    gw.Execute(matrixReqs + boneReqs);
    i := 0;
    while i < |peds|
      invariant 0 <= i <= |peds| && |out| == |peds|
      invariant forall k :: 0 <= k < i ==> out[k] == SkeletonRecord(peds[k], gw.mem)
      invariant forall k :: i <= k < |peds| ==> out[k] == DefaultSkeletonData().(ped := peds[k])
    {
      out := out[i := DepositSkeleton(out[i], gw.mem)];
      i := i + 1;
    }
    stats.Add(Tally(0, 0, |peds| * (1 + |SkeletonBones|), 1));
  }

  method BatchReadHeadData(peds: seq<Addr>, outIn: seq<BatchHeadData>, gw: Gateway, stats: EspStats)
    returns (out: seq<BatchHeadData>)
    modifies gw, stats
    ensures peds == [] ==>
      out == outIn && gw.batches == old(gw.batches) && stats.Counters() == old(stats.Counters())
    ensures peds != [] ==>
      out == HeadRecords(peds, gw.mem)
      && gw.batches == old(gw.batches) + [Gather(peds, HeadRequests)]
      && stats.Counters() == old(stats.Counters()).Plus(Tally(0, 0, 2 * |peds|, 1))
    ensures stats.lastReset == old(stats.lastReset)
  {
    if peds == [] {
      return outIn;
    }
    out := seq(|peds|, _ => DefaultHeadData());
    var i := 0;
    while i < |peds|
      invariant 0 <= i <= |peds| && |out| == |peds|
      invariant forall k :: 0 <= k < |peds| ==>
        out[k] == if k < i then DefaultHeadData().(ped := peds[k]) else DefaultHeadData()
    {
      out := out[i := out[i].(ped := peds[i])];
      i := i + 1;
    }
    var reqs := BuildRequests(peds, HeadRequests);
    gw.Execute(reqs);
    i := 0;
    while i < |peds|
      invariant 0 <= i <= |peds| && |out| == |peds|
      invariant forall k :: 0 <= k < i ==> out[k] == HeadRecord(peds[k], gw.mem)
      invariant forall k :: i <= k < |peds| ==> out[k] == DefaultHeadData().(ped := peds[k])
    {
      var d := out[i];
      out := out[i := d.(matrix := gw.mem.MatAt(d.ped + BoneMatrixOffset, d.matrix),
                         headOffset := gw.mem.VecAt(BoneAddr(d.ped, 0), d.headOffset), valid := true)];
      i := i + 1;
    }
    stats.Add(Tally(0, 0, |peds| * 2, 1));
  }

  /** The records `batch_read_skeleton_data` fills, one per ped. */
  function SkeletonRecords(peds: seq<Addr>, mem: Memory): (r: seq<BatchSkeletonData>)
    ensures |r| == |peds| && forall i :: 0 <= i < |peds| ==> r[i] == SkeletonRecord(peds[i], mem)
  {
    seq(|peds|, i requires 0 <= i < |peds| => SkeletonRecord(peds[i], mem))
  }

  function HeadRecords(peds: seq<Addr>, mem: Memory): (r: seq<BatchHeadData>)
    ensures |r| == |peds| && forall i :: 0 <= i < |peds| ==> r[i] == HeadRecord(peds[i], mem)
  {
    seq(|peds|, i requires 0 <= i < |peds| => HeadRecord(peds[i], mem))
  }

  // ---------------------------------------------------------------------
  // Cache write-back

  /** The entry the head write-back stores for one record. */
  function HeadEntry(d: BatchHeadData, xf: Transform, now: nat): CachedBoneData
  {
    CachedBoneData(d.matrix, xf(d.headOffset, d.matrix), now, true)
  }

  /** The bone table after `update_bone_data` for each valid record, in order. */
  function HeadWriteBack(entries: map<Addr, CachedBoneData>, data: seq<BatchHeadData>, xf: Transform, now: nat): map<Addr, CachedBoneData>
  {
    if data == [] then entries
    else
      var e := HeadWriteBack(entries, data[..|data| - 1], xf, now);
      var d := data[|data| - 1];
      if d.valid then e[d.ped := HeadEntry(d, xf, now)] else e
  }

  lemma {:induction false} HeadWriteBackStamps(entries: map<Addr, CachedBoneData>, data: seq<BatchHeadData>, xf: Transform, now: nat, i: nat)
    requires i < |data| && data[i].valid
    ensures var r := HeadWriteBack(entries, data, xf, now);
      data[i].ped in r && r[data[i].ped].valid && r[data[i].ped].lastUpdate == now
  {
    var last := data[|data| - 1];
    if i < |data| - 1 {
      HeadWriteBackStamps(entries, data[..|data| - 1], xf, now, i);
    }
  }

  lemma {:induction false} HeadWriteBackKeeps(entries: map<Addr, CachedBoneData>, data: seq<BatchHeadData>, xf: Transform, now: nat, p: Addr)
    requires forall i :: 0 <= i < |data| && data[i].valid ==> data[i].ped != p
    ensures var r := HeadWriteBack(entries, data, xf, now);
      (p in r <==> p in entries) && (p in r ==> r[p] == entries[p])
  {
    if data != [] {
      HeadWriteBackKeeps(entries, data[..|data| - 1], xf, now, p);
    }
  }

  /** `batch_update_bone_cache`: one execution for every ped's matrix and head
      offset, then `update_bone_data` per ped. It has the same effect on the
      bone table as `batch_read_head_data` followed by the head renderer's
      write-back. */
  method BatchUpdateBoneCache(peds: seq<Addr>, gw: Gateway, stats: EspStats, bc: BoneCache, xf: Transform, now: nat)
    modifies gw, stats, bc`entries
    ensures peds == [] ==>
      bc.entries == old(bc.entries) && gw.batches == old(gw.batches) && stats.Counters() == old(stats.Counters())
    ensures peds != [] ==>
      bc.entries == HeadWriteBack(old(bc.entries), HeadRecords(peds, gw.mem), xf, now)
      && gw.batches == old(gw.batches) + [Gather(peds, HeadRequests)]
      && stats.Counters() == old(stats.Counters()).Plus(Tally(0, 0, 2 * |peds|, 0))
    ensures stats.lastReset == old(stats.lastReset)
  {
    if peds == [] {
      return;
    }
    var reqs := BuildRequests(peds, HeadRequests);
    gw.Execute(reqs);
    ghost var records := HeadRecords(peds, gw.mem);
    ghost var start := bc.entries;
    var i := 0;
    while i < |peds|
      invariant 0 <= i <= |peds|
      invariant bc.entries == HeadWriteBack(start, records[..i], xf, now)
      invariant gw.batches == old(gw.batches) + [Gather(peds, HeadRequests)]
      invariant stats.Counters() == old(stats.Counters()) && stats.lastReset == old(stats.lastReset)
    {
      var m := gw.mem.MatAt(peds[i] + BoneMatrixOffset, Identity);
      var offset := gw.mem.VecAt(BoneAddr(peds[i], 0), ZeroVec);
      assert records[..i + 1][..i] == records[..i];
      bc.UpdateBoneData(peds[i], m, xf(offset, m), now);
      i := i + 1;
    }
    assert records[..|peds|] == records;
    stats.Add(Tally(0, 0, |peds| * 2, 0));
  }

  /** The write-back at the end of `render_batch_head_circles`: every valid
      record's transformed head goes into the bone cache, whether or not it was
      on screen. */
  method HeadCircleWriteBack(data: seq<BatchHeadData>, bc: BoneCache, xf: Transform, now: nat)
    modifies bc`entries
    ensures bc.entries == HeadWriteBack(old(bc.entries), data, xf, now)
  {
    ghost var start := bc.entries;
    var i := 0;
    while i < |data|
      invariant 0 <= i <= |data|
      invariant bc.entries == HeadWriteBack(start, data[..i], xf, now)
    {
      assert data[..i + 1][..i] == data[..i];
      if data[i].valid {
        var d := data[i];
        bc.UpdateBoneData(d.ped, d.matrix, xf(d.headOffset, d.matrix), now);
      }
      i := i + 1;
    }
    assert data[..|data|] == data;
  }

  /** The 9 slots the skeleton renderer stores for one record: zero except the
      7 skeleton bones, transformed by the record's matrix. */
  function PosedFromRecord(d: BatchSkeletonData, xf: Transform): (r: seq<Vec3>)
    requires |d.offsets| == SkeletonSlots
    ensures |r| == SkeletonSlots
  {
    seq(SkeletonSlots, k requires 0 <= k < SkeletonSlots =>
      if IsSkeletonBone(k) then xf(d.offsets[k], d.matrix) else ZeroVec)
  }

  predicate WellFormed(data: seq<BatchSkeletonData>)
  {
    forall i :: 0 <= i < |data| ==> |data[i].offsets| == SkeletonSlots
  }

  function SkeletonWriteBack(entries: map<Addr, CachedSkeleton>, data: seq<BatchSkeletonData>, xf: Transform, now: nat): map<Addr, CachedSkeleton>
    requires WellFormed(data)
  {
    if data == [] then entries
    else
      var e := SkeletonWriteBack(entries, data[..|data| - 1], xf, now);
      var d := data[|data| - 1];
      if d.valid then e[d.ped := CachedSkeleton(PosedFromRecord(d, xf), now, true)] else e
  }

  lemma {:induction false} SkeletonWriteBackStamps(entries: map<Addr, CachedSkeleton>, data: seq<BatchSkeletonData>, xf: Transform, now: nat, i: nat)
    requires WellFormed(data) && i < |data| && data[i].valid
    ensures var r := SkeletonWriteBack(entries, data, xf, now);
      data[i].ped in r && r[data[i].ped].valid && r[data[i].ped].lastUpdate == now && |r[data[i].ped].bones| == SkeletonSlots
  {
    if i < |data| - 1 {
      SkeletonWriteBackStamps(entries, data[..|data| - 1], xf, now, i);
    }
  }

  lemma {:induction false} SkeletonWriteBackKeeps(entries: map<Addr, CachedSkeleton>, data: seq<BatchSkeletonData>, xf: Transform, now: nat, p: Addr)
    requires WellFormed(data)
    requires forall i :: 0 <= i < |data| && data[i].valid ==> data[i].ped != p
    ensures var r := SkeletonWriteBack(entries, data, xf, now);
      (p in r <==> p in entries) && (p in r ==> r[p] == entries[p])
  {
    if data != [] {
      SkeletonWriteBackKeeps(entries, data[..|data| - 1], xf, now, p);
    }
  }

  /** The transform loop of the skeleton write-back: 9 zero slots, of which
      the 7 skeleton bones receive the record's offsets transformed by its matrix. */
  method PoseFromRecord(d: BatchSkeletonData, xf: Transform) returns (bones: seq<Vec3>)
    requires |d.offsets| == SkeletonSlots
    ensures bones == PosedFromRecord(d, xf)
  {
    bones := seq(SkeletonSlots, _ => ZeroVec);
    var j := 0;
    while j < |SkeletonBones|
      invariant 0 <= j <= |SkeletonBones| && |bones| == SkeletonSlots
      invariant forall k :: 0 <= k < SkeletonSlots ==>
        bones[k] == (if k in SkeletonBones[..j] then xf(d.offsets[k], d.matrix) else ZeroVec)
    {
      var b := SkeletonBones[j];
      bones := bones[b := xf(d.offsets[b], d.matrix)];
      j := j + 1;
    }
    assert SkeletonBones[..|SkeletonBones|] == SkeletonBones;
    forall k | 0 <= k < SkeletonSlots
      ensures bones[k] == PosedFromRecord(d, xf)[k]
    {
      SkeletonBonesAreTheSkeletonSlots(k);
    }
  }

  /** The write-back loop at the end of `render_batch_skeletons`. */
  method SkeletonWriteBackLoop(data: seq<BatchSkeletonData>, sc: SkeletonCache, xf: Transform, now: nat)
    requires WellFormed(data)
    modifies sc`entries
    ensures sc.entries == SkeletonWriteBack(old(sc.entries), data, xf, now)
  {
    ghost var start := sc.entries;
    var i := 0;
    while i < |data|
      invariant 0 <= i <= |data|
      invariant sc.entries == SkeletonWriteBack(start, data[..i], xf, now)
    {
      assert data[..i + 1][..i] == data[..i];
      if data[i].valid {
        var bones := PoseFromRecord(data[i], xf);
        sc.entries := sc.entries[data[i].ped := CachedSkeleton(bones, now, true)];
      }
      i := i + 1;
    }
    assert data[..|data|] == data;
  }

  /** A skeleton refreshed on its own (a forced `get_skeleton_bones` with an
      empty vector) and the same skeleton refreshed through the batch reader and
      the renderer's write-back cache the same 9 slots. */
  lemma BatchAndSingleSkeletonAgree(ped: Addr, mem: Memory, xf: Transform)
    ensures PosedFromMemory(Resize([], SkeletonSlots), ped, mem.MatAt(ped + BoneMatrixOffset, Identity), mem, xf)
         == PosedFromRecord(SkeletonRecord(ped, mem), xf)
  {
  }

  /** The state `batch_update_skeleton_cache` works on: both caches, the
      scatter executions so far, and the statistics counters. */
  datatype SkeletonPass = SkeletonPass(skeletons: map<Addr, CachedSkeleton>, bones: map<Addr, CachedBoneData>,
                                       batches: seq<seq<Request>>, tally: Tally)

  /** One unforced `get_skeleton_bones` with a fresh vector: a hit only counts;
      a miss fetches the matrix through the bone cache, reads the 7 bones and
      stores the posed skeleton stamped `now`. */
  function SkeletonStep(st: SkeletonPass, ped: Addr, now: nat, mem: Memory, xf: Transform): SkeletonPass
  {
    if SkeletonHitIn(st.skeletons, ped, false, now) then st.(tally := st.tally.Plus(Tally(1, 0, 0, 0)))
    else
      var m := MatrixIn(st.bones, ped, false, now, mem);
      SkeletonPass(
        st.skeletons[ped := CachedSkeleton(PosedFromMemory(Resize([], SkeletonSlots), ped, m, mem, xf), now, true)],
        AfterMatrixIn(st.bones, ped, false, now, mem),
        st.batches + MatrixBatchesIn(st.bones, ped, false, now) + [BoneRequests(ped)],
        st.tally.Plus(Tally(0, 1, 0, 0)).Plus(MatrixTallyIn(st.bones, ped, false, now)).Plus(Tally(0, 0, 7, 0)))
  }

  /** The steps for `peds`, in order. */
  function SkeletonPassOver(st: SkeletonPass, peds: seq<Addr>, now: nat, mem: Memory, xf: Transform): SkeletonPass
  {
    if peds == [] then st
    else SkeletonStep(SkeletonPassOver(st, peds[..|peds| - 1], now, mem, xf), peds[|peds| - 1], now, mem, xf)
  }

  /** After the pass every listed ped has a valid skeleton, stamped now unless
      it was already cached before the pass, no skeleton is lost, and the
      executions are only appended to. */
  lemma {:induction false} SkeletonPassCovers(st: SkeletonPass, peds: seq<Addr>, now: nat, mem: Memory, xf: Transform)
    ensures var r := SkeletonPassOver(st, peds, now, mem, xf);
      |r.batches| >= |st.batches| && r.batches[..|st.batches|] == st.batches
      && (forall p :: p in st.skeletons ==> p in r.skeletons)
      && (forall p :: p in r.skeletons ==> p in st.skeletons || r.skeletons[p].lastUpdate == now)
      && forall p :: p in peds ==>
           p in r.skeletons && r.skeletons[p].valid && (r.skeletons[p].lastUpdate == now || p in st.skeletons)
  {
    if peds != [] {
      var init := peds[..|peds| - 1];
      SkeletonPassCovers(st, init, now, mem, xf);
      var q := SkeletonPassOver(st, init, now, mem, xf);
      var last := peds[|peds| - 1];
      var r := SkeletonStep(q, last, now, mem, xf);
      assert r.batches[..|q.batches|] == q.batches;
      assert r.batches[..|st.batches|] == q.batches[..|st.batches|];
      assert forall p :: p in peds ==> p in init || p == last by {
        forall p | p in peds ensures p in init || p == last {
          var k :| 0 <= k < |peds| && peds[k] == p;
          if k < |peds| - 1 {
            assert init[k] == p;
          }
        }
      }
    }
  }

  /** The pass leaves both caches alone at every ped it is not given. */
  lemma {:induction false} SkeletonPassKeeps(st: SkeletonPass, peds: seq<Addr>, now: nat, mem: Memory, xf: Transform, p: Addr)
    requires p !in peds
    ensures var r := SkeletonPassOver(st, peds, now, mem, xf);
      (p in r.skeletons <==> p in st.skeletons) && (p in st.skeletons ==> r.skeletons[p] == st.skeletons[p])
      && (p in r.bones <==> p in st.bones) && (p in st.bones ==> r.bones[p] == st.bones[p])
  {
    if peds != [] {
      var init := peds[..|peds| - 1];
      SkeletonPassKeeps(st, init, now, mem, xf, p);
    }
  }

  /** After a pass, every listed ped is answered from the cache at the same
      `now`: a miss stores its skeleton stamped now, and later steps never
      take a hit away. */
  lemma {:induction false} SkeletonPassHits(st: SkeletonPass, peds: seq<Addr>, now: nat, mem: Memory, xf: Transform)
    ensures var r := SkeletonPassOver(st, peds, now, mem, xf);
      forall p :: p in peds ==> SkeletonHitIn(r.skeletons, p, false, now)
  {
    if peds != [] {
      var init := peds[..|peds| - 1];
      var last := peds[|peds| - 1];
      SkeletonPassHits(st, init, now, mem, xf);
      var q := SkeletonPassOver(st, init, now, mem, xf);
      var r := SkeletonStep(q, last, now, mem, xf);
      assert SkeletonHitIn(r.skeletons, last, false, now);
      forall p | p in peds
        ensures SkeletonHitIn(r.skeletons, p, false, now)
      {
        if p != last {
          var k :| 0 <= k < |peds| && peds[k] == p;
          assert k < |init| && init[k] == p;
          assert p in init;
          assert SkeletonHitIn(q.skeletons, p, false, now);
          assert r.skeletons[p] == q.skeletons[p];
        }
      }
    }
  }

  /** A pass whose every lookup hits changes nothing but the hit counter. */
  lemma {:induction false} SkeletonPassAllHits(st: SkeletonPass, peds: seq<Addr>, now: nat, mem: Memory, xf: Transform)
    requires forall p :: p in peds ==> SkeletonHitIn(st.skeletons, p, false, now)
    ensures SkeletonPassOver(st, peds, now, mem, xf) == st.(tally := st.tally.Plus(Tally(|peds|, 0, 0, 0)))
  {
    if peds != [] {
      var init := peds[..|peds| - 1];
      assert forall p :: p in init ==> p in peds;
      SkeletonPassAllHits(st, init, now, mem, xf);
    }
  }

  /** What the skeleton cache is for: a second pass over the same peds at the
      same time reads nothing and only counts one hit per ped. */
  lemma SkeletonRepassHits(st: SkeletonPass, peds: seq<Addr>, now: nat, mem: Memory, xf: Transform)
    ensures var r := SkeletonPassOver(st, peds, now, mem, xf);
      SkeletonPassOver(r, peds, now, mem, xf) == r.(tally := r.tally.Plus(Tally(|peds|, 0, 0, 0)))
  {
    SkeletonPassHits(st, peds, now, mem, xf);
    SkeletonPassAllHits(SkeletonPassOver(st, peds, now, mem, xf), peds, now, mem, xf);
  }

  /** `batch_update_skeleton_cache`: `get_skeleton_bones` for each ped in turn, with
      a fresh vector and without forcing: both caches, the executions and the
      counters end as the pass over `peds` leaves them. */
  method BatchUpdateSkeletonCache(peds: seq<Addr>, sc: SkeletonCache, gw: Gateway, stats: EspStats, bc: BoneCache, xf: Transform, now: nat)
    modifies sc`entries, gw, stats, bc`entries
    ensures var r := SkeletonPassOver(SkeletonPass(old(sc.entries), old(bc.entries), old(gw.batches), old(stats.Counters())),
                                      peds, now, gw.mem, xf);
      sc.entries == r.skeletons && bc.entries == r.bones && gw.batches == r.batches && stats.Counters() == r.tally
    ensures stats.lastReset == old(stats.lastReset)
    ensures forall p :: p in peds ==> p in sc.entries && sc.entries[p].valid && (sc.entries[p].lastUpdate == now || p in old(sc.entries))
    ensures |gw.batches| >= |old(gw.batches)| && gw.batches[..|old(gw.batches)|] == old(gw.batches)
  {
    ghost var start := SkeletonPass(sc.entries, bc.entries, gw.batches, stats.Counters());
    var i := 0;
    while i < |peds|
      invariant 0 <= i <= |peds|
      invariant stats.lastReset == old(stats.lastReset)
      invariant var r := SkeletonPassOver(start, peds[..i], now, gw.mem, xf);
        sc.entries == r.skeletons && bc.entries == r.bones && gw.batches == r.batches && stats.Counters() == r.tally
    {
      ghost var before := SkeletonPassOver(start, peds[..i], now, gw.mem, xf);
      assert peds[..i + 1][..i] == peds[..i];
      ghost var after := SkeletonStep(before, peds[i], now, gw.mem, xf);
      assert SkeletonPassOver(start, peds[..i + 1], now, gw.mem, xf) == after;
      var _, _ := sc.GetSkeletonBones(peds[i], [], false, now, gw, stats, bc, xf);
      assert sc.entries == after.skeletons && bc.entries == after.bones;
      assert gw.batches == after.batches && stats.Counters() == after.tally;
      i := i + 1;
    }
    assert peds[..|peds|] == peds;
    SkeletonPassCovers(start, peds, now, gw.mem, xf);
  }
}

=== FILE: esp_manager.dfy ===
// The per-frame driver: it walks the replay interface's ped list, keeps the
// slots that are players other than the local one, reads their positions,
// chooses a render path and feeds the ped cache.

module EspManager {
  import opened Remote
  import opened BoneCaches
  import PedCache
  import EspRender

  /** The ped list's capacity. */
  const MaxPeds: nat := 110
  const PointerSize: nat := 8
  /** replay global + 0x18 -> replay interface; interface + 0x100 -> list base. */
  const ReplayInterfaceOffset: nat := 0x18
  const ListBaseOffset: nat := 0x100
  /** Minimum number of peds for the batch render path. */
  const BatchThreshold: nat := 3

  // ---------------------------------------------------------------------
  // The chain walk and the filter, as functions

  /** The first execution of every frame: view matrix, local position, replay interface. */
  function FrameHeader(off: GameOffsets): seq<Request>
  {
    [MatReq(off.viewport + 0x24C), VecReq(off.localPlayer + off.playerPosition), PtrReq(off.replay + ReplayInterfaceOffset)]
  }

  function ReplayInterface(mem: Memory, off: GameOffsets): nat
  {
    mem.PtrAt(off.replay + ReplayInterfaceOffset, 0)
  }

  function ListBase(mem: Memory, off: GameOffsets): nat
  {
    mem.PtrAt(ReplayInterface(mem, off) + ListBaseOffset, 0)
  }

  /** The 110 slots of the list, a slot that cannot be read left at 0. */
  function RawSlots(base: Addr, mem: Memory): (r: seq<nat>)
    ensures |r| == MaxPeds
  {
    seq(MaxPeds, k requires 0 <= k < MaxPeds => mem.PtrAt(base + PointerSize * k, 0))
  }

  /** A slot worth a player-info read: non-null and not the local player. */
  predicate Candidate(p: nat, off: GameOffsets)
  {
    p != 0 && p != off.localPlayer
  }

  function InfoRequest(off: GameOffsets): nat -> seq<Request>
  {
    (p: nat) => if Candidate(p, off) then [PtrReq(p + off.playerInfo)] else []
  }

  /** The player-info pointer left for each slot (0 where none was read). */
  function SlotInfos(raw: seq<nat>, mem: Memory, off: GameOffsets): (r: seq<nat>)
    ensures |r| == |raw|
  {
    seq(|raw|, i requires 0 <= i < |raw| => if Candidate(raw[i], off) then mem.PtrAt(raw[i] + off.playerInfo, 0) else 0)
  }

  predicate KeepSlot(raw: seq<nat>, infos: seq<nat>, i: nat, off: GameOffsets)
    requires i < |raw| && |infos| == |raw|
  {
    Candidate(raw[i], off) && infos[i] != 0
  }

  /** The kept slots among the first `n`, in slot order. */
  function Kept(raw: seq<nat>, infos: seq<nat>, n: nat, off: GameOffsets): seq<Addr>
    requires n <= |raw| && |infos| == |raw|
  {
    if n == 0 then []
    else Kept(raw, infos, n - 1, off) + (if KeepSlot(raw, infos, n - 1, off) then [raw[n - 1]] else [])
  }

  /** The slot index each kept ped came from. */
  function KeptIndices(raw: seq<nat>, infos: seq<nat>, n: nat, off: GameOffsets): seq<nat>
    requires n <= |raw| && |infos| == |raw|
  {
    if n == 0 then []
    else KeptIndices(raw, infos, n - 1, off) + (if KeepSlot(raw, infos, n - 1, off) then [n - 1] else [])
  }

  /** The filter keeps exactly the qualifying slots, in order: the result is the
      subsequence of `raw` at the strictly increasing indices `KeptIndices`, which
      are all the qualifying indices below `n`. */
  lemma {:induction false} KeptIsOrderedSubsequence(raw: seq<nat>, infos: seq<nat>, n: nat, off: GameOffsets)
    requires n <= |raw| && |infos| == |raw|
    ensures var r := Kept(raw, infos, n, off);
      var idx := KeptIndices(raw, infos, n, off);
      |r| == |idx| <= n
      && (forall j :: 0 <= j < |idx| ==> idx[j] < n && KeepSlot(raw, infos, idx[j], off) && r[j] == raw[idx[j]])
      && (forall j, k :: 0 <= j < k < |idx| ==> idx[j] < idx[k])
      && (forall i :: 0 <= i < n && KeepSlot(raw, infos, i, off) ==> i in idx)
  {
    if n > 0 {
      KeptIsOrderedSubsequence(raw, infos, n - 1, off);
    }
  }

  /** A kept ped is a qualifying slot's pointer, and every qualifying slot's pointer is kept. */
  lemma KeptMembers(raw: seq<nat>, infos: seq<nat>, off: GameOffsets, p: nat)
    requires |infos| == |raw|
    ensures p in Kept(raw, infos, |raw|, off) <==>
      exists i :: 0 <= i < |raw| && raw[i] == p && KeepSlot(raw, infos, i, off)
  {
    var r := Kept(raw, infos, |raw|, off);
    var idx := KeptIndices(raw, infos, |raw|, off);
    KeptIsOrderedSubsequence(raw, infos, |raw|, off);
    if p in r {
      var j :| 0 <= j < |r| && r[j] == p;
      assert raw[idx[j]] == p && KeepSlot(raw, infos, idx[j], off);
    }
    if exists i :: 0 <= i < |raw| && raw[i] == p && KeepSlot(raw, infos, i, off) {
      var i :| 0 <= i < |raw| && raw[i] == p && KeepSlot(raw, infos, i, off);
      var j :| 0 <= j < |idx| && idx[j] == i;
      assert r[j] == p;
    }
  }

  function PositionRequest(off: GameOffsets): Addr -> seq<Request>
  {
    (p: Addr) => [VecReq(p + off.playerPosition)]
  }

  function Positions(peds: seq<Addr>, mem: Memory, off: GameOffsets): (r: seq<Vec3>)
    ensures |r| == |peds|
    ensures forall i :: 0 <= i < |peds| ==> r[i] == mem.VecAt(peds[i] + off.playerPosition, ZeroVec)
  {
    seq(|peds|, i requires 0 <= i < |peds| => mem.VecAt(peds[i] + off.playerPosition, ZeroVec))
  }

  /** The filter loop of `collectFrameData`. */
  method FilterPeds(raw: seq<nat>, infos: seq<nat>, off: GameOffsets) returns (valid: seq<Addr>)
    requires |infos| == |raw|
    ensures valid == Kept(raw, infos, |raw|, off)
    ensures |valid| <= |raw|
  {
    valid := [];
    var i := 0;
    while i < |raw|
      invariant 0 <= i <= |raw|
      invariant valid == Kept(raw, infos, i, off)
    {
      if raw[i] != 0 && raw[i] != off.localPlayer && infos[i] != 0 {
        valid := valid + [raw[i]];
      }
      i := i + 1;
    }
    KeptIsOrderedSubsequence(raw, infos, |raw|, off);
  }

  // ---------------------------------------------------------------------
  // Render path selection

  datatype Preload = PreloadHeads | PreloadSkeletons | NoPreload
  datatype RenderPath = Skip | BatchSkeleton | BatchHead | BatchOther | PerPed(preload: Preload)

  /** The path `renderESP` takes. */
  function SelectPath(pedCount: nat, positionCount: nat, useBatch: bool, useCache: bool, mode: int): (path: RenderPath)
    ensures path == Skip <==> pedCount == 0 || positionCount == 0
    ensures path != Skip ==> (path.PerPed? <==> !(useBatch && pedCount >= BatchThreshold))
    ensures path.PerPed? && path.preload != NoPreload ==> useCache
  {
    if pedCount == 0 || positionCount == 0 then Skip
    else if useBatch && pedCount >= BatchThreshold then
      if mode == EspRender.SkeletonBonesMode then BatchSkeleton
      else if mode == EspRender.HeadCircleMode then BatchHead
      else BatchOther
    else if useCache then
      if mode == EspRender.HeadCircleMode then PerPed(PreloadHeads)
      else if mode == EspRender.SkeletonBonesMode then PerPed(PreloadSkeletons)
      else PerPed(NoPreload)
    else PerPed(NoPreload)
  }

  // ---------------------------------------------------------------------
  // The collection and the render paths, as functions

  /** The three lists a frame keeps until the next one. */
  datatype FrameLists = FrameLists(raw: seq<nat>, valid: seq<Addr>, positions: seq<Vec3>)

  /** The lists after `collectFrameData`: a null replay interface or list base
      keeps `prev`; otherwise the slots, the kept peds and, when any ped is
      kept, their positions. */
  function Collected(prev: FrameLists, mem: Memory, off: GameOffsets): FrameLists
  {
    if ReplayInterface(mem, off) == 0 || ListBase(mem, off) == 0 then prev
    else
      var raw := RawSlots(ListBase(mem, off), mem);
      var kept := Kept(raw, SlotInfos(raw, mem, off), MaxPeds, off);
      FrameLists(raw, kept, if kept != [] then Positions(kept, mem, off) else prev.positions)
  }

  /** The executions `collectFrameData` issues, one per level of the walk it reaches. */
  function CollectionBatches(mem: Memory, off: GameOffsets): seq<seq<Request>>
  {
    var ri := ReplayInterface(mem, off);
    if ri == 0 then [FrameHeader(off)]
    else if ListBase(mem, off) == 0 then [FrameHeader(off), [PtrReq(ri + ListBaseOffset)]]
    else
      var base := ListBase(mem, off);
      var raw := RawSlots(base, mem);
      var kept := Kept(raw, SlotInfos(raw, mem, off), MaxPeds, off);
      [FrameHeader(off), [PtrReq(ri + ListBaseOffset)], [PtrArrayReq(base, MaxPeds)], Gather(raw, InfoRequest(off))]
        + (if kept != [] then [Gather(kept, PositionRequest(off))] else [])
  }

  /** What rendering and the ped cache's refresh change besides the frame
      lists: both ESP caches with their sweep times, the executions issued so
      far and the statistics counters. */
  datatype EspState = EspState(bones: map<Addr, CachedBoneData>, boneSweep: nat,
                               skeletons: map<Addr, CachedSkeleton>, skeletonSweep: nat,
                               batches: seq<seq<Request>>, tally: Tally)

  ghost function StateOf(gw: Gateway, stats: EspStats, bc: BoneCache, sc: SkeletonCache): EspState
    reads gw, stats, bc, sc
  {
    EspState(bc.entries, bc.lastCleanup, sc.entries, sc.lastCleanup, gw.batches, stats.Counters())
  }

  /** `render_skeleton_esp_batch` over the ped cache's valid peds `ids`: the
      view matrix and one skeleton batch, the write-back, then the sweep when due. */
  function SkeletonBatchEffect(st: EspState, ids: seq<Addr>, mem: Memory, off: GameOffsets, xf: Transform, now: nat): EspState
  {
    if ids == [] then st
    else
      var w := SkeletonWriteBack(st.skeletons, SkeletonRecords(ids, mem), xf, now);
      var due := now - st.skeletonSweep >= SkeletonCleanupMs;
      st.(skeletons := if due then SkeletonSwept(w, now) else w,
          skeletonSweep := if due then now else st.skeletonSweep,
          batches := st.batches + [EspRender.ViewMatrixRequest(off), SkeletonRequests(ids)],
          tally := st.tally.Plus(Tally(0, 0, 8 * |ids|, 1)))
  }

  /** `render_head_circle_esp_batch` over the ped cache's valid peds `ids`. */
  function HeadBatchEffect(st: EspState, ids: seq<Addr>, mem: Memory, off: GameOffsets, xf: Transform, now: nat): EspState
  {
    if ids == [] then st
    else
      var w := HeadWriteBack(st.bones, HeadRecords(ids, mem), xf, now);
      var due := now - st.boneSweep >= CleanupIntervalMs;
      st.(bones := if due then BoneSwept(w, now) else w,
          boneSweep := if due then now else st.boneSweep,
          batches := st.batches + [EspRender.ViewMatrixRequest(off), Gather(ids, HeadRequests)],
          tally := st.tally.Plus(Tally(0, 0, 2 * |ids|, 1)))
  }

  /** `batch_update_bone_cache` over `peds`. */
  function BoneBatchEffect(st: EspState, peds: seq<Addr>, mem: Memory, xf: Transform, now: nat): EspState
  {
    if peds == [] then st
    else st.(bones := HeadWriteBack(st.bones, HeadRecords(peds, mem), xf, now),
             batches := st.batches + [Gather(peds, HeadRequests)],
             tally := st.tally.Plus(Tally(0, 0, 2 * |peds|, 0)))
  }

  /** `batch_update_skeleton_cache` over `peds`: the pass of hits and misses. */
  function SkeletonPreloadEffect(st: EspState, peds: seq<Addr>, mem: Memory, xf: Transform, now: nat): EspState
  {
    var r := SkeletonPassOver(SkeletonPass(st.skeletons, st.bones, st.batches, st.tally), peds, now, mem, xf);
    st.(skeletons := r.skeletons, bones := r.bones, batches := r.batches, tally := r.tally)
  }

  /** The batch renderer of a mode, over the ped cache's valid peds `ids`;
      a mode without one does nothing. */
  function BatchRenderEffect(mode: int, st: EspState, ids: seq<Addr>, mem: Memory, off: GameOffsets, xf: Transform, now: nat): EspState
  {
    if mode == EspRender.SkeletonBonesMode then SkeletonBatchEffect(st, ids, mem, off, xf, now)
    else if mode == EspRender.HeadCircleMode then HeadBatchEffect(st, ids, mem, off, xf, now)
    else st
  }

  /** The per-ped path's pre-load of a mode, over the frame's peds. */
  function PreloadEffect(mode: int, st: EspState, peds: seq<Addr>, mem: Memory, xf: Transform, now: nat): EspState
  {
    if mode == EspRender.HeadCircleMode then BoneBatchEffect(st, peds, mem, xf, now)
    else if mode == EspRender.SkeletonBonesMode then SkeletonPreloadEffect(st, peds, mem, xf, now)
    else st
  }

  /** `print_esp_stats`' effect on the state: the counters restart once every 5 s. */
  function StatsPrinted(st: EspState, lastPrint: nat, now: nat): EspState
  {
    if now - lastPrint >= 5000 then st.(tally := NoTally) else st
  }

  /** What `renderESP` does on a path that draws, before `print_esp_stats`:
      the view matrix, then the batch renderer or the per-ped path's pre-load.
      `ids` is the ped cache's valid peds, which only the batch renderers use. */
  function DrawnEffect(path: RenderPath, st: EspState, validPeds: seq<Addr>, ids: seq<Addr>,
                       mem: Memory, off: GameOffsets, xf: Transform, now: nat): EspState
  {
    var viewed := st.(batches := st.batches + [EspRender.ViewMatrixRequest(off)]);
    match path
    case BatchSkeleton => SkeletonBatchEffect(viewed, ids, mem, off, xf, now)
    case BatchHead => HeadBatchEffect(viewed, ids, mem, off, xf, now)
    case PerPed(PreloadHeads) => BoneBatchEffect(viewed, validPeds, mem, xf, now)
    case PerPed(PreloadSkeletons) => SkeletonPreloadEffect(viewed, validPeds, mem, xf, now)
    case _ => viewed
  }

  /** `renderESP` on the path it takes: nothing when it skips; otherwise what
      it draws, then `print_esp_stats`, whose timer is `lastPrint`. */
  function RenderEffect(path: RenderPath, st: EspState, validPeds: seq<Addr>, ids: seq<Addr>,
                        mem: Memory, off: GameOffsets, xf: Transform, now: nat, lastPrint: nat): EspState
  {
    if path == Skip then st
    else StatsPrinted(DrawnEffect(path, st, validPeds, ids, mem, off, xf, now), lastPrint, now)
  }

  /** `slowCache`'s effect outside the ped cache: the health/info and network-id
      reads, then `batch_update_bone_cache`, over the valid peds `ids`. */
  function SlowCacheEffect(st: EspState, ids: seq<Addr>, mem: Memory, off: GameOffsets, xf: Transform, now: nat): EspState
  {
    if ids == [] then st
    else
      BoneBatchEffect(st.(batches := st.batches + [Gather(ids, PedCache.HealthInfoRequests(off)),
                                                   Gather(PedCache.InfosOf(ids, mem, off), PedCache.NetIdRequest)]),
                      ids, mem, xf, now)
  }

  /** A skipped frame changes nothing. Every other path appends the view
      matrix first and then only appends; a cache a path does not render from
      keeps its entries; only the batch renderers sweep; and the counters
      change only through a pre-load, a batch renderer or the 5 s restart. */
  lemma RenderEffectFrames(path: RenderPath, st: EspState, validPeds: seq<Addr>, ids: seq<Addr>,
                           mem: Memory, off: GameOffsets, xf: Transform, now: nat, lastPrint: nat)
    ensures var r := RenderEffect(path, st, validPeds, ids, mem, off, xf, now, lastPrint);
      (path == Skip ==> r == st)
      && (path != Skip ==> |r.batches| > |st.batches| && r.batches[..|st.batches| + 1] == st.batches + [EspRender.ViewMatrixRequest(off)])
      && (path != BatchSkeleton && path != PerPed(PreloadSkeletons) ==> r.skeletons == st.skeletons)
      && (path != BatchHead && path != PerPed(PreloadHeads) && path != PerPed(PreloadSkeletons) ==> r.bones == st.bones)
      && (path != BatchSkeleton ==> r.skeletonSweep == st.skeletonSweep)
      && (path != BatchHead ==> r.boneSweep == st.boneSweep)
      && ((path == BatchOther || path == PerPed(NoPreload)) && now - lastPrint < 5000 ==> r.tally == st.tally)
      && (path != Skip && now - lastPrint >= 5000 ==> r.tally == NoTally)
  {
    var r := RenderEffect(path, st, validPeds, ids, mem, off, xf, now, lastPrint);
    if path != Skip {
      var viewed := st.(batches := st.batches + [EspRender.ViewMatrixRequest(off)]);
      var n := |viewed.batches|;
      if path == PerPed(PreloadSkeletons) {
        SkeletonPassCovers(SkeletonPass(viewed.skeletons, viewed.bones, viewed.batches, viewed.tally), validPeds, now, mem, xf);
      }
      assert r.batches[..n] == viewed.batches;
      assert r.batches[..|st.batches| + 1] == viewed.batches[..n];
    }
  }




  // ---------------------------------------------------------------------
  // The frame state

  class FrameState {
    var rawPedPointers: seq<nat>
    var validPeds: seq<Addr>
    var positions: seq<Vec3>
    var frameCount: int

    constructor ()
      ensures rawPedPointers == [] && validPeds == [] && positions == [] && frameCount == 0
    {
      rawPedPointers, validPeds, positions := [], [], [];
      frameCount := 0;
    }

    function Lists(): FrameLists
      reads this
    {
      FrameLists(rawPedPointers, validPeds, positions)
    }

    /** `collectFrameData`: the three-level chain walk. A null replay interface or
        list base leaves the previous frame's lists in place; an empty filter
        result leaves the previous positions in place. */
    method CollectFrameData(off: GameOffsets, gw: Gateway)
      modifies this`rawPedPointers, this`validPeds, this`positions, gw
      ensures var ri := ReplayInterface(gw.mem, off);
        ri == 0 ==>
          rawPedPointers == old(rawPedPointers) && validPeds == old(validPeds) && positions == old(positions)
          && gw.batches == old(gw.batches) + [FrameHeader(off)]
      ensures var ri := ReplayInterface(gw.mem, off);
        ri != 0 && ListBase(gw.mem, off) == 0 ==>
          rawPedPointers == old(rawPedPointers) && validPeds == old(validPeds) && positions == old(positions)
          && gw.batches == old(gw.batches) + [FrameHeader(off), [PtrReq(ri + ListBaseOffset)]]
      ensures var ri := ReplayInterface(gw.mem, off);
        var base := ListBase(gw.mem, off);
        var raw := RawSlots(base, gw.mem);
        ri != 0 && base != 0 ==>
          rawPedPointers == raw
          && validPeds == Kept(raw, SlotInfos(raw, gw.mem, off), MaxPeds, off)
          && positions == (if validPeds != [] then Positions(validPeds, gw.mem, off) else old(positions))
          && gw.batches == old(gw.batches)
               + [FrameHeader(off), [PtrReq(ri + ListBaseOffset)], [PtrArrayReq(base, MaxPeds)], Gather(raw, InfoRequest(off))]
               + (if validPeds != [] then [Gather(validPeds, PositionRequest(off))] else [])
      ensures |validPeds| <= MaxPeds || validPeds == old(validPeds)
      ensures Lists() == Collected(old(Lists()), gw.mem, off)
      ensures gw.batches == old(gw.batches) + CollectionBatches(gw.mem, off)
    {
      gw.Execute(FrameHeader(off));
      var ri := gw.mem.PtrAt(off.replay + ReplayInterfaceOffset, 0);
      if ri != 0 {
        gw.Execute([PtrReq(ri + ListBaseOffset)]);
        var base := gw.mem.PtrAt(ri + ListBaseOffset, 0);
        if base != 0 {
          ReadPedList(base, off, gw);
        }
      }
    }

    /** The part of `collectFrameData` below a non-null list base: the 110 slots
        in one execution, the candidates' player info in a second, and the kept
        peds' positions in a third when any ped is kept. */
    method ReadPedList(base: Addr, off: GameOffsets, gw: Gateway)
      modifies this`rawPedPointers, this`validPeds, this`positions, gw
      ensures var raw := RawSlots(base, gw.mem);
        rawPedPointers == raw
        && validPeds == Kept(raw, SlotInfos(raw, gw.mem, off), MaxPeds, off)
        && |validPeds| <= MaxPeds
        && positions == (if validPeds != [] then Positions(validPeds, gw.mem, off) else old(positions))
        && gw.batches == old(gw.batches) + [[PtrArrayReq(base, MaxPeds)], Gather(raw, InfoRequest(off))]
             + (if validPeds != [] then [Gather(validPeds, PositionRequest(off))] else [])
    {
      ghost var start := gw.batches;
      gw.Execute([PtrArrayReq(base, MaxPeds)]);
      var raw := RawSlots(base, gw.mem);
      rawPedPointers := raw;
      var infoReqs := BuildRequests(raw, InfoRequest(off));
      gw.Execute(infoReqs);
      ghost var listed := gw.batches;
      assert listed == start + [[PtrArrayReq(base, MaxPeds)], Gather(raw, InfoRequest(off))];
      var infos := SlotInfos(raw, gw.mem, off);
      var kept := FilterPeds(raw, infos, off);
      assert kept == Kept(raw, infos, MaxPeds, off);
      validPeds := kept;
      if kept != [] {
        var posReqs := BuildRequests(kept, PositionRequest(off));
        gw.Execute(posReqs);
        assert gw.batches == listed + [Gather(kept, PositionRequest(off))];
        positions := Positions(kept, gw.mem, off);
      }
    }

    /** `renderESP`, reduced to its cache and gateway effects: the view matrix in
        one execution, then the batch renderer of the current mode, or the
        per-ped path's cache pre-load, then `print_esp_stats`. The per-ped
        drawing is not modelled. `lastPrint` is `print_esp_stats`' static
        timer, and `ids` the order the ped cache listed its valid peds in, on
        the batch paths. */
    method RenderEsp(useBatch: bool, useCache: bool, mode: int, pc: PedCache.PedCacheManager, off: GameOffsets,
                     gw: Gateway, stats: EspStats, bc: BoneCache, sc: SkeletonCache, xf: Transform, now: nat, lastPrint: nat)
      returns (path: RenderPath, newLastPrint: nat, ghost ids: seq<Addr>)
      modifies gw, stats, bc, sc
      ensures path == SelectPath(|validPeds|, |positions|, useBatch, useCache, mode)
      ensures path == BatchSkeleton || path == BatchHead ==>
        forall p :: p in ids <==> p in pc.pedCache && pc.pedCache[p].isValid
      // Both caches, their sweep times, the executions and the counters, path by path.
      ensures StateOf(gw, stats, bc, sc)
        == RenderEffect(path, old(StateOf(gw, stats, bc, sc)), validPeds, ids, gw.mem, off, xf, now, lastPrint)
      ensures path != Skip && now - lastPrint >= 5000 ==> newLastPrint == now && stats.lastReset == now
      ensures !(path != Skip && now - lastPrint >= 5000) ==> newLastPrint == lastPrint && stats.lastReset == old(stats.lastReset)
      ensures path == Skip ==>
        gw.batches == old(gw.batches) && bc.entries == old(bc.entries) && sc.entries == old(sc.entries)
      ensures path != Skip ==>
        |gw.batches| > |old(gw.batches)| && gw.batches[|old(gw.batches)|] == EspRender.ViewMatrixRequest(off)
      ensures path == BatchSkeleton ==> forall p :: p in pc.pedCache && pc.pedCache[p].isValid ==>
        p in sc.entries && sc.entries[p].valid && sc.entries[p].lastUpdate == now
      ensures path == BatchHead ==> forall p :: p in pc.pedCache && pc.pedCache[p].isValid ==> bc.IsDataValid(p, now)
      ensures path == PerPed(PreloadHeads) ==>
        bc.entries == HeadWriteBack(old(bc.entries), HeadRecords(validPeds, gw.mem), xf, now)
      ensures path == PerPed(PreloadSkeletons) ==> forall p :: p in validPeds ==> p in sc.entries && sc.entries[p].valid
    {
      path := SelectPath(|validPeds|, |positions|, useBatch, useCache, mode);
      ids := [];
      newLastPrint := lastPrint;
      if validPeds == [] || positions == [] {
        return;
      }
      ids := Draw(path, useBatch, useCache, mode, pc, off, gw, stats, bc, sc, xf, now);
      ghost var drawn := StateOf(gw, stats, bc, sc);
      newLastPrint := PrintEspStats(stats, lastPrint, now);
      assert StateOf(gw, stats, bc, sc) == StatsPrinted(drawn, lastPrint, now);
      RenderEffectFrames(path, old(StateOf(gw, stats, bc, sc)), validPeds, ids, gw.mem, off, xf, now, lastPrint);
      assert gw.batches[..|old(gw.batches)| + 1][|old(gw.batches)|] == EspRender.ViewMatrixRequest(off);
    }

    /** `renderESP` on a path that draws, up to `print_esp_stats`: the view
        matrix in one execution, then the batch renderer of the current mode,
        or the per-ped path's cache pre-load. */
    method Draw(path: RenderPath, useBatch: bool, useCache: bool, mode: int, pc: PedCache.PedCacheManager, off: GameOffsets,
                gw: Gateway, stats: EspStats, bc: BoneCache, sc: SkeletonCache, xf: Transform, now: nat)
      returns (ghost ids: seq<Addr>)
      requires path == SelectPath(|validPeds|, |positions|, useBatch, useCache, mode) && path != Skip
      modifies gw, stats, bc, sc
      ensures path == BatchSkeleton || path == BatchHead ==>
        forall p :: p in ids <==> p in pc.pedCache && pc.pedCache[p].isValid
      ensures StateOf(gw, stats, bc, sc)
        == DrawnEffect(path, old(StateOf(gw, stats, bc, sc)), validPeds, ids, gw.mem, off, xf, now)
      ensures stats.lastReset == old(stats.lastReset)
      ensures path == BatchSkeleton ==> forall p :: p in pc.pedCache && pc.pedCache[p].isValid ==>
        p in sc.entries && sc.entries[p].valid && sc.entries[p].lastUpdate == now
      ensures path == BatchHead ==> forall p :: p in pc.pedCache && pc.pedCache[p].isValid ==> bc.IsDataValid(p, now)
      ensures path == PerPed(PreloadHeads) ==>
        bc.entries == HeadWriteBack(old(bc.entries), HeadRecords(validPeds, gw.mem), xf, now)
      ensures path == PerPed(PreloadSkeletons) ==> forall p :: p in validPeds ==> p in sc.entries && sc.entries[p].valid
    {
      ids := [];
      gw.Execute(EspRender.ViewMatrixRequest(off));
      if useBatch && |validPeds| >= BatchThreshold {
        ids := RenderBatch(mode, pc, off, gw, stats, bc, sc, xf, now);
      } else if useCache {
        Preload(mode, validPeds, gw, stats, bc, sc, xf, now);
      }
    }

    /** The batch branch of `renderESP`: the renderer of the current mode, if it
        has one. */
    static method RenderBatch(mode: int, pc: PedCache.PedCacheManager, off: GameOffsets,
                              gw: Gateway, stats: EspStats, bc: BoneCache, sc: SkeletonCache, xf: Transform, now: nat)
      returns (ghost ids: seq<Addr>)
      modifies gw, stats, bc, sc
      ensures mode == EspRender.SkeletonBonesMode || mode == EspRender.HeadCircleMode ==>
        forall p :: p in ids <==> p in pc.pedCache && pc.pedCache[p].isValid
      ensures StateOf(gw, stats, bc, sc) == BatchRenderEffect(mode, old(StateOf(gw, stats, bc, sc)), ids, gw.mem, off, xf, now)
      ensures stats.lastReset == old(stats.lastReset)
      ensures mode == EspRender.SkeletonBonesMode ==> forall p :: p in pc.pedCache && pc.pedCache[p].isValid ==>
        p in sc.entries && sc.entries[p].valid && sc.entries[p].lastUpdate == now
      ensures mode == EspRender.HeadCircleMode ==> forall p :: p in pc.pedCache && pc.pedCache[p].isValid ==> bc.IsDataValid(p, now)
    {
      ids := [];
      if mode == EspRender.SkeletonBonesMode {
        ids := EspRender.RenderSkeletonEspBatch(pc, off, gw, stats, sc, xf, now);
      } else if mode == EspRender.HeadCircleMode {
        ids := EspRender.RenderHeadCircleEspBatch(pc, off, gw, stats, bc, xf, now);
      }
    }

    /** The cache pre-load of `renderESP`'s per-ped branch, with caching on. */
    static method Preload(mode: int, peds: seq<Addr>, gw: Gateway, stats: EspStats, bc: BoneCache, sc: SkeletonCache,
                          xf: Transform, now: nat)
      modifies gw, stats, bc`entries, sc`entries
      ensures StateOf(gw, stats, bc, sc) == PreloadEffect(mode, old(StateOf(gw, stats, bc, sc)), peds, gw.mem, xf, now)
      ensures stats.lastReset == old(stats.lastReset)
      ensures mode == EspRender.HeadCircleMode ==>
        bc.entries == HeadWriteBack(old(bc.entries), HeadRecords(peds, gw.mem), xf, now)
      ensures mode == EspRender.SkeletonBonesMode ==> forall p :: p in peds ==> p in sc.entries && sc.entries[p].valid
    {
      if mode == EspRender.HeadCircleMode {
        BatchUpdateBoneCache(peds, gw, stats, bc, xf, now);
      } else if mode == EspRender.SkeletonBonesMode {
        BatchUpdateSkeletonCache(peds, sc, gw, stats, bc, xf, now);
      }
    }

    /** `RunESP`: count the frame, collect, render, and only then (with caching on
        and a non-empty frame) feed the ped cache and give it its slow refresh.
        `renderIds` is the ped cache's valid peds as the batch renderers listed
        them, `refreshIds` those the slow refresh listed. */
    method RunEsp(useBatch: bool, useCache: bool, mode: int, pc: PedCache.PedCacheManager, off: GameOffsets,
                  gw: Gateway, stats: EspStats, bc: BoneCache, sc: SkeletonCache, xf: Transform, now: nat, lastPrint: nat)
      returns (path: RenderPath, newLastPrint: nat, ghost renderIds: seq<Addr>, ghost refreshIds: seq<Addr>)
      modifies this`rawPedPointers, this`validPeds, this`positions, this`frameCount, pc, gw, stats, bc, sc
      ensures frameCount == old(frameCount) + 1
      ensures Lists() == Collected(old(Lists()), gw.mem, off)
      ensures path == SelectPath(|validPeds|, |positions|, useBatch, useCache, mode)
      // The batch renderers see the ped cache as it was before this frame's update.
      ensures path == BatchSkeleton || path == BatchHead ==>
        forall p :: p in renderIds <==> p in old(pc.pedCache) && old(pc.pedCache)[p].isValid
      ensures path == BatchSkeleton ==> forall p :: p in old(pc.pedCache) && old(pc.pedCache)[p].isValid ==>
        p in sc.entries && sc.entries[p].valid && sc.entries[p].lastUpdate == now
      ensures !(validPeds != [] && useCache) ==> pc.pedCache == old(pc.pedCache) && pc.lastSlowUpdate == old(pc.lastSlowUpdate)
      ensures validPeds != [] && useCache ==>
        var fast := PedCache.FastCached(old(pc.pedCache), validPeds, positions, now);
        (now - old(pc.lastSlowUpdate) >= PedCache.SlowCacheIntervalMs ==>
           pc.pedCache == PedCache.Cleaned(PedCache.SlowRefresh(fast, gw.mem, off), now) && pc.lastSlowUpdate == now
           && forall p :: p in refreshIds <==> p in fast && fast[p].isValid)
        && (now - old(pc.lastSlowUpdate) < PedCache.SlowCacheIntervalMs ==>
           pc.pedCache == fast && pc.lastSlowUpdate == old(pc.lastSlowUpdate))
      // The caches, executions and counters: the collection's reads, the render
      // path's effect, then the slow refresh's when it runs.
      ensures var s0 := old(StateOf(gw, stats, bc, sc));
        var rendered := RenderEffect(path, s0.(batches := s0.batches + CollectionBatches(gw.mem, off)),
                                     validPeds, renderIds, gw.mem, off, xf, now, lastPrint);
        StateOf(gw, stats, bc, sc)
          == if validPeds != [] && useCache && now - old(pc.lastSlowUpdate) >= PedCache.SlowCacheIntervalMs
             then SlowCacheEffect(rendered, refreshIds, gw.mem, off, xf, now)
             else rendered
      ensures path != Skip && now - lastPrint >= 5000 ==> newLastPrint == now && stats.lastReset == now
      ensures !(path != Skip && now - lastPrint >= 5000) ==> newLastPrint == lastPrint && stats.lastReset == old(stats.lastReset)
    {
      frameCount := frameCount + 1;
      CollectFrameData(off, gw);
      path, newLastPrint, renderIds, refreshIds := DrawAndMaintain(useBatch, useCache, mode, pc, off, gw, stats, bc, sc, xf, now, lastPrint);
    }

    /** What `RunESP` does once the frame's lists are collected: `renderESP`,
        then, with caching on and peds in view, the ped-cache upkeep. */
    method DrawAndMaintain(useBatch: bool, useCache: bool, mode: int, pc: PedCache.PedCacheManager, off: GameOffsets,
                           gw: Gateway, stats: EspStats, bc: BoneCache, sc: SkeletonCache, xf: Transform, now: nat, lastPrint: nat)
      returns (path: RenderPath, newLastPrint: nat, ghost renderIds: seq<Addr>, ghost refreshIds: seq<Addr>)
      modifies pc, gw, stats, bc, sc
      ensures path == SelectPath(|validPeds|, |positions|, useBatch, useCache, mode)
      ensures path == BatchSkeleton || path == BatchHead ==>
        forall p :: p in renderIds <==> p in old(pc.pedCache) && old(pc.pedCache)[p].isValid
      ensures path == BatchSkeleton ==> forall p :: p in old(pc.pedCache) && old(pc.pedCache)[p].isValid ==>
        p in sc.entries && sc.entries[p].valid && sc.entries[p].lastUpdate == now
      ensures !(validPeds != [] && useCache) ==> pc.pedCache == old(pc.pedCache) && pc.lastSlowUpdate == old(pc.lastSlowUpdate)
      ensures validPeds != [] && useCache ==>
        var fast := PedCache.FastCached(old(pc.pedCache), validPeds, positions, now);
        (now - old(pc.lastSlowUpdate) >= PedCache.SlowCacheIntervalMs ==>
           pc.pedCache == PedCache.Cleaned(PedCache.SlowRefresh(fast, gw.mem, off), now) && pc.lastSlowUpdate == now
           && forall p :: p in refreshIds <==> p in fast && fast[p].isValid)
        && (now - old(pc.lastSlowUpdate) < PedCache.SlowCacheIntervalMs ==>
           pc.pedCache == fast && pc.lastSlowUpdate == old(pc.lastSlowUpdate))
      ensures var rendered := RenderEffect(path, old(StateOf(gw, stats, bc, sc)), validPeds, renderIds, gw.mem, off, xf, now, lastPrint);
        StateOf(gw, stats, bc, sc)
          == if validPeds != [] && useCache && now - old(pc.lastSlowUpdate) >= PedCache.SlowCacheIntervalMs
             then SlowCacheEffect(rendered, refreshIds, gw.mem, off, xf, now)
             else rendered
      ensures path != Skip && now - lastPrint >= 5000 ==> newLastPrint == now && stats.lastReset == now
      ensures !(path != Skip && now - lastPrint >= 5000) ==> newLastPrint == lastPrint && stats.lastReset == old(stats.lastReset)
    {
      path, newLastPrint, renderIds := RenderEsp(useBatch, useCache, mode, pc, off, gw, stats, bc, sc, xf, now, lastPrint);
      refreshIds := [];
      if validPeds != [] && useCache {
        refreshIds := MaintainPedCache(pc, validPeds, positions, off, gw, stats, bc, sc, xf, now);
      }
    }

    /** The ped-cache upkeep that closes `RunESP` when caching is on: this
        frame's positions into the fast cache, then the slow refresh when 5 s
        have passed. */
    static method MaintainPedCache(pc: PedCache.PedCacheManager, peds: seq<Addr>, positions: seq<Vec3>, off: GameOffsets,
                                   gw: Gateway, stats: EspStats, bc: BoneCache, sc: SkeletonCache, xf: Transform, now: nat)
      returns (ghost refreshIds: seq<Addr>)
      modifies pc, gw, stats, bc`entries
      ensures var fast := PedCache.FastCached(old(pc.pedCache), peds, positions, now);
        (now - old(pc.lastSlowUpdate) >= PedCache.SlowCacheIntervalMs ==>
           pc.pedCache == PedCache.Cleaned(PedCache.SlowRefresh(fast, gw.mem, off), now) && pc.lastSlowUpdate == now
           && forall p :: p in refreshIds <==> p in fast && fast[p].isValid)
        && (now - old(pc.lastSlowUpdate) < PedCache.SlowCacheIntervalMs ==>
           pc.pedCache == fast && pc.lastSlowUpdate == old(pc.lastSlowUpdate))
      ensures StateOf(gw, stats, bc, sc)
        == if now - old(pc.lastSlowUpdate) >= PedCache.SlowCacheIntervalMs
           then SlowCacheEffect(old(StateOf(gw, stats, bc, sc)), refreshIds, gw.mem, off, xf, now)
           else old(StateOf(gw, stats, bc, sc))
      ensures stats.lastReset == old(stats.lastReset)
    {
      pc.FastCache(peds, positions, now);
      refreshIds := pc.Update(now, off, gw, stats, bc, xf);
    }

    /** `printPerformanceStats`, without its console line: the frame counter
        restarts once every 5 s. */
    method PrintPerformanceStats(lastPrint: nat, now: nat) returns (newLastPrint: nat)
      modifies this`frameCount
      ensures now - lastPrint >= 5000 ==> frameCount == 0 && newLastPrint == now
      ensures now - lastPrint < 5000 ==> frameCount == old(frameCount) && newLastPrint == lastPrint
    {
      newLastPrint := lastPrint;
      if now - lastPrint >= 5000 {
        frameCount := 0;
        newLastPrint := now;
      }
    }
  }

  /** `refreshCache`: empties the ped cache. */
  method RefreshCache(pc: PedCache.PedCacheManager, now: nat)
    modifies pc
    ensures pc.GetCacheSize() == 0 && pc.lastSlowUpdate == now
  {
    pc.ManualCache(now);
  }
}

=== FILE: esp_render.dfy ===
// The pure selections of the ESP layer (health colour tiers, mode names) and
// the two batch render paths, reduced to what they do to the caches and to the
// gateway: the drawing itself is presentation.

module EspRender {
  import opened Remote
  import opened BoneCaches
  import PedCache

  // ---------------------------------------------------------------------
  // Colours

  /** `IM_COL32(r, g, b, a)`: alpha in the top byte, red in the bottom one. */
  function Col32(r: Byte, g: Byte, b: Byte, a: Byte): (c: nat)
    ensures c < 0x1_0000_0000
  {
    r + 0x100 * g + 0x1_0000 * b + 0x100_0000 * a
  }

  function Channel(c: nat, k: nat): Byte
    requires k < 4
  {
    var shifted := if k == 0 then c else if k == 1 then c / 0x100 else if k == 2 then c / 0x1_0000 else c / 0x100_0000;
    shifted % 0x100
  }

  /** Every channel packed by `IM_COL32` can be read back. */
  lemma Col32Channels(r: Byte, g: Byte, b: Byte, a: Byte)
    ensures Channel(Col32(r, g, b, a), 0) == r
    ensures Channel(Col32(r, g, b, a), 1) == g
    ensures Channel(Col32(r, g, b, a), 2) == b
    ensures Channel(Col32(r, g, b, a), 3) == a
  {
    var c := Col32(r, g, b, a);
    assert c == r + 0x100 * (g + 0x100 * (b + 0x100 * a));
    assert c / 0x100 == g + 0x100 * (b + 0x100 * a);
    assert c / 0x1_0000 == (c / 0x100) / 0x100;
    assert c / 0x1_0000 == b + 0x100 * a;
    assert c / 0x100_0000 == (c / 0x1_0000) / 0x100;
  }

  const Yellow: nat := Col32(255, 255, 0, 255)
  const Grey: nat := Col32(100, 100, 100, 255)
  /** The critical colour of the skeleton renderers. */
  const Orange: nat := Col32(255, 100, 0, 255)
  /** The critical colour of the head-circle renderers. */
  const Red: nat := Col32(255, 0, 0, 255)
  /** The configured defaults: green circles, red skeletons. */
  const DefaultCircleColour: nat := Col32(0, 255, 0, 255)
  const DefaultSkeletonColour: nat := Col32(255, 0, 0, 255)

  datatype HealthTier = Dead | Critical | Injured | Healthy

  /** The tier a health value falls in, from the lowest band up. */
  function TierOf(health: real): HealthTier
  {
    if health <= 0.0 then Dead
    else if health < 25.0 then Critical
    else if health < 50.0 then Injured
    else Healthy
  }

  function TierColour(t: HealthTier, configured: nat, critical: nat): nat
  {
    match t
    case Dead => Grey
    case Critical => critical
    case Injured => Yellow
    case Healthy => configured
  }

  /** The renderers' colour choice: three tests in a row, each later one
      overriding the earlier ones. */
  method ChooseColour(health: real, configured: nat, critical: nat) returns (c: nat)
    ensures c == TierColour(TierOf(health), configured, critical)
    ensures health <= 0.0 ==> c == Grey
    ensures 0.0 < health < 25.0 ==> c == critical
    ensures 25.0 <= health < 50.0 ==> c == Yellow
    ensures 50.0 <= health ==> c == configured
  {
    c := configured;
    if health < 50.0 {
      c := Yellow;
    }
    if health < 25.0 {
      c := critical;
    }
    if health <= 0.0 {
      c := Grey;
    }
  }

  /** The health the batch renderers colour a ped by: the cached one, or 100
      when the ped cache has no valid record. */
  function ColourHealth(pc: PedCache.PedCacheManager, ped: Addr): (h: real)
    reads pc
    ensures pc.GetPedData(ped).None? ==> h == 100.0
    ensures pc.GetPedData(ped).Some? ==> h == pc.pedCache[ped].health
  {
    match pc.GetPedData(ped)
    case None => 100.0
    case Some(d) => d.health
  }

  /** A ped without a valid record is drawn in the configured colour. */
  lemma UncachedPedIsHealthy(pc: PedCache.PedCacheManager, ped: Addr, configured: nat, critical: nat)
    requires pc.GetPedData(ped).None?
    ensures TierColour(TierOf(ColourHealth(pc, ped)), configured, critical) == configured
  {
  }

  // ---------------------------------------------------------------------
  // Mode names

  const HeadCircleMode: int := 0
  const SkeletonBonesMode: int := 1

  /** `get_esp_mode_name`, over the mode's underlying integer. */
  function EspModeName(mode: int): (name: string)
    ensures mode == HeadCircleMode ==> name == "Head Circle"
    ensures mode == SkeletonBonesMode ==> name == "Skeleton Bones"
    ensures mode != HeadCircleMode && mode != SkeletonBonesMode ==> name == "Unknown"
  {
    if mode == HeadCircleMode then "Head Circle"
    else if mode == SkeletonBonesMode then "Skeleton Bones"
    else "Unknown"
  }

  /** `get_esp_mode_names`: the menu list, indexed by mode. */
  function EspModeNames(): (names: seq<string>)
    ensures |names| == 2
  {
    ["Head Circle", "Skeleton Bones"]
  }

  /** The menu list and the per-mode name agree: entry i names mode i, and no
      mode outside the list has a listed name. */
  lemma ModeNamesAgree(mode: int)
    ensures 0 <= mode < |EspModeNames()| ==> EspModeName(mode) == EspModeNames()[mode]
    ensures EspModeName(mode) in EspModeNames() <==> 0 <= mode < |EspModeNames()|
  {
    assert "Unknown" != "Head Circle" && "Unknown" != "Skeleton Bones";
  }

  // ---------------------------------------------------------------------
  // Batch render paths

  /** Where the view matrix is read from. */
  function ViewMatrixRequest(off: GameOffsets): seq<Request>
  {
    [MatReq(off.viewport + 0x24C)]
  }

  /** `render_skeleton_esp_batch`: the ped cache's valid peds, the view matrix in
      one execution, every skeleton in a second one, the renderer's write-back
      into the skeleton cache, then the skeleton sweep. `ids` is the order the
      ped cache listed them in. */
  method RenderSkeletonEspBatch(pc: PedCache.PedCacheManager, off: GameOffsets, gw: Gateway, stats: EspStats,
                                sc: SkeletonCache, xf: Transform, now: nat)
    returns (ghost ids: seq<Addr>)
    modifies gw, stats, sc
    ensures forall p :: p in ids <==> p in pc.pedCache && pc.pedCache[p].isValid
    ensures ids == [] ==> gw.batches == old(gw.batches) && sc.entries == old(sc.entries)
    ensures ids != [] ==>
      gw.batches == old(gw.batches) + [ViewMatrixRequest(off), SkeletonRequests(ids)]
      && stats.Counters() == old(stats.Counters()).Plus(Tally(0, 0, 8 * |ids|, 1))
    // The table is the write-back of the records read, then the sweep when it is due.
    ensures ids != [] ==>
      var w := SkeletonWriteBack(old(sc.entries), SkeletonRecords(ids, gw.mem), xf, now);
      (now - old(sc.lastCleanup) < SkeletonCleanupMs ==> sc.entries == w && sc.lastCleanup == old(sc.lastCleanup))
      && (now - old(sc.lastCleanup) >= SkeletonCleanupMs ==>
            sc.lastCleanup == now
            && (forall p :: p in sc.entries <==> p in w && now - w[p].lastUpdate <= SkeletonCeilingMs)
            && (forall p :: p in sc.entries ==> sc.entries[p] == w[p]))
    ensures ids != [] ==> now - old(sc.lastCleanup) >= SkeletonCleanupMs ==>
      sc.entries == SkeletonSwept(SkeletonWriteBack(old(sc.entries), SkeletonRecords(ids, gw.mem), xf, now), now)
    ensures ids == [] ==> stats.Counters() == old(stats.Counters()) && sc.lastCleanup == old(sc.lastCleanup)
    ensures stats.lastReset == old(stats.lastReset)
    // Every valid ped leaves with a fresh skeleton entry.
    ensures forall p :: p in ids ==>
      p in sc.entries && sc.entries[p].valid && sc.entries[p].lastUpdate == now && |sc.entries[p].bones| == SkeletonSlots
  {
    var valid := pc.GetValidPedIds();
    ids := valid;
    if valid == [] {
      return;
    }
    gw.Execute(ViewMatrixRequest(off));
    var data := BatchReadSkeletonData(valid, [], gw, stats);
    assert data == SkeletonRecords(valid, gw.mem);
    SkeletonWriteBackLoop(data, sc, xf, now);
    forall p | p in valid
      ensures p in sc.entries && sc.entries[p].valid && sc.entries[p].lastUpdate == now && |sc.entries[p].bones| == SkeletonSlots
    {
      var i :| 0 <= i < |valid| && valid[i] == p;
      SkeletonWriteBackStamps(old(sc.entries), data, xf, now, i);
    }
    sc.CleanupSkeletonCache(now);
  }

  /** `render_head_circle_esp_batch`: the same pipeline over heads, writing into
      the bone cache and sweeping it. */
  method RenderHeadCircleEspBatch(pc: PedCache.PedCacheManager, off: GameOffsets, gw: Gateway, stats: EspStats,
                                  bc: BoneCache, xf: Transform, now: nat)
    returns (ghost ids: seq<Addr>)
    modifies gw, stats, bc
    ensures forall p :: p in ids <==> p in pc.pedCache && pc.pedCache[p].isValid
    ensures ids == [] ==> gw.batches == old(gw.batches) && bc.entries == old(bc.entries)
    ensures ids != [] ==>
      gw.batches == old(gw.batches) + [ViewMatrixRequest(off), Gather(ids, HeadRequests)]
      && stats.Counters() == old(stats.Counters()).Plus(Tally(0, 0, 2 * |ids|, 1))
    // Every valid ped leaves with a fresh head entry, which `is_data_valid` accepts.
    ensures forall p :: p in ids ==> p in bc.entries && bc.entries[p].valid && bc.entries[p].lastUpdate == now
    ensures forall p :: p in ids ==> bc.IsDataValid(p, now)
    // The table is the write-back of the records read, then the sweep when it is due.
    ensures ids != [] ==>
      var w := HeadWriteBack(old(bc.entries), HeadRecords(ids, gw.mem), xf, now);
      (now - old(bc.lastCleanup) < CleanupIntervalMs ==> bc.entries == w && bc.lastCleanup == old(bc.lastCleanup))
      && (now - old(bc.lastCleanup) >= CleanupIntervalMs ==>
            bc.lastCleanup == now
            && (forall p :: p in bc.entries <==> p in w && now - w[p].lastUpdate <= BoneCeilingMs)
            && (forall p :: p in bc.entries ==> bc.entries[p] == w[p]))
    ensures ids != [] ==> now - old(bc.lastCleanup) >= CleanupIntervalMs ==>
      bc.entries == BoneSwept(HeadWriteBack(old(bc.entries), HeadRecords(ids, gw.mem), xf, now), now)
    ensures ids == [] ==> stats.Counters() == old(stats.Counters()) && bc.lastCleanup == old(bc.lastCleanup)
    ensures stats.lastReset == old(stats.lastReset)
  {
    var valid := pc.GetValidPedIds();
    ids := valid;
    if valid == [] {
      return;
    }
    gw.Execute(ViewMatrixRequest(off));
    var data := BatchReadHeadData(valid, [], gw, stats);
    HeadCircleWriteBack(data, bc, xf, now);
    forall p | p in valid
      ensures p in bc.entries && bc.entries[p].valid && bc.entries[p].lastUpdate == now
    {
      var i :| 0 <= i < |valid| && valid[i] == p;
      HeadWriteBackStamps(old(bc.entries), data, xf, now, i);
    }
    bc.CleanupOldEntries(now);
  }
}

=== FILE: kmbox.dfy ===
// The kmbox serial mouse: its clamp, the commands it writes, the button
// query that reads the box's answer back, and the two edge detectors with
// their own static maps. Writes go into a log; what `ReadFile` returns is a
// parameter (None when the read fails). Finding the port and opening it
// (`find_port`, `KmboxInitialize`) are not part of this model.

module Kmbox {
  import opened Text
  import SP = SerialPort

  /** `clamp`: a signed byte's range. */
  function Clamp(i: int): (c: int)
    ensures -128 <= c <= 127
    ensures -128 <= i <= 127 ==> c == i
    ensures i > 127 ==> c == 127
    ensures i < -128 ==> c == -128
  {
    var c := if i > 127 then 127 else i;
    if c < -128 then -128 else c
  }

  /** Clamping twice is clamping once. */
  lemma ClampIdempotent(i: int)
    ensures Clamp(Clamp(i)) == Clamp(i)
  {
  }

  function MoveCommand(x: int, y: int): string
  {
    "km.move(" + IntToString(Clamp(x)) + "," + IntToString(Clamp(y)) + ")\r\n"
  }

  /** The query command `IsDown` sends for a key, for the five mouse-button codes. */
  function QueryCommand(key: int): (cmd: SP.Option<string>)
    ensures cmd.Some? <==> key in {1, 2, 4, 5, 6}
  {
    match key
    case 1 => SP.Some("km.left()\r\n")
    case 2 => SP.Some("km.right()\r\n")
    case 4 => SP.Some("km.middle()\r\n")
    case 5 => SP.Some("km.ms1()\r\n")
    case 6 => SP.Some("km.ms2()\r\n")
    case _ => SP.None
  }

  /** The largest read: the buffer keeps one byte for the terminator. */
  const ReadCapacity := 255

  const One: SP.Byte := 0x31

  /** `strstr(buffer, "1")` on the bytes read: a '1' before the first NUL. */
  function HasOne(bytes: seq<SP.Byte>): (found: bool)
    ensures found <==> exists i :: 0 <= i < |bytes| && bytes[i] == One && forall j :: 0 <= j < i ==> bytes[j] != 0
  {
    if bytes == [] then false
    else if bytes[0] == 0 then false
    else if bytes[0] == One then true
    else
      var found := HasOne(bytes[1..]);
      assert forall i :: 1 <= i < |bytes| ==> bytes[i] == bytes[1..][i - 1];
      if found then
        var i :| 0 <= i < |bytes[1..]| && bytes[1..][i] == One && forall j :: 0 <= j < i ==> bytes[1..][j] != 0;
        assert bytes[i + 1] == One && forall j :: 0 <= j < i + 1 ==> bytes[j] != 0;
        found
      else
        found
  }

  /** The answer the box gave, as `IsDown` reads it: false on a failed read;
      otherwise a '1' among the first 255 bytes, before any NUL. */
  function Answer(read: SP.Option<seq<SP.Byte>>): bool
  {
    match read
    case None => false
    case Some(bytes) => HasOne(if |bytes| <= ReadCapacity then bytes else bytes[..ReadCapacity])
  }

  /** `GetAvailableMouseButtons`. */
  const AvailableMouseButtons: seq<string> := ["Left Mouse", "Right Mouse", "Middle Mouse", "Mouse 4", "Mouse 5"]

  /** `GetMouseButtonKeyCode`, identical to the makcu wrapper's table: the
      code of a listed name, and the right button's code for any other. */
  function GetMouseButtonKeyCode(name: string): (key: int)
    ensures key in {1, 2, 4, 5, 6}
    ensures QueryCommand(key).Some?
    ensures name !in AvailableMouseButtons ==> key == 2
  {
    if name == "Left Mouse" then 1
    else if name == "Right Mouse" then 2
    else if name == "Middle Mouse" then 4
    else if name == "Mouse 4" then 5
    else if name == "Mouse 5" then 6
    else 2
  }

  /** The listed names select the five button codes in order, so each
      queries a different button. */
  lemma AvailableNamesSelectCodes(i: nat)
    requires i < |AvailableMouseButtons|
    ensures GetMouseButtonKeyCode(AvailableMouseButtons[i]) == [1, 2, 4, 5, 6][i]
    ensures forall j :: 0 <= j < |AvailableMouseButtons| && j != i ==>
      QueryCommand(GetMouseButtonKeyCode(AvailableMouseButtons[j])) != QueryCommand(GetMouseButtonKeyCode(AvailableMouseButtons[i]))
  {
  }

  /** A map entry, or false when `operator[]` would insert one. */
  function Seen(m: map<int, bool>, key: int): bool
  {
    if key in m then m[key] else false
  }

  /** The kmbox globals: the connection flag, the written commands, and the
      static maps of `IsKeyJustPressed` and `IsKeyJustReleased`. */
  class Box {
    var connected: bool
    var writes: seq<string>
    var pressedStates: map<int, bool>
    var releasedStates: map<int, bool>

    constructor (connected: bool)
      ensures this.connected == connected && writes == []
      ensures pressedStates == map[] && releasedStates == map[]
    {
      this.connected := connected;
      writes := [];
      pressedStates := map[];
      releasedStates := map[];
    }

    /** `move`: the clamped deltas, or nothing when not connected. */
    method Move(x: int, y: int)
      modifies this`writes
      ensures !connected ==> writes == old(writes)
      ensures connected ==> writes == old(writes) + [MoveCommand(x, y)]
    {
      if !connected {
        return;
      }
      var cx := Clamp(x);
      var cy := Clamp(y);
      writes := writes + ["km.move(" + IntToString(cx) + "," + IntToString(cy) + ")\r\n"];
    }

    method LeftClick()
      modifies this`writes
      ensures !connected ==> writes == old(writes)
      ensures connected ==> writes == old(writes) + ["km.left(1)\r\n"]
    {
      if connected {
        writes := writes + ["km.left(1)\r\n"];
      }
    }

    method LeftClickRelease()
      modifies this`writes
      ensures !connected ==> writes == old(writes)
      ensures connected ==> writes == old(writes) + ["km.left(0)\r\n"]
    {
      if connected {
        writes := writes + ["km.left(0)\r\n"];
      }
    }

    /** `IsDown`: false when not connected or for any other key, with nothing
        written; otherwise the key's query is written and the answer read. */
    method IsDown(key: int, read: SP.Option<seq<SP.Byte>>) returns (down: bool)
      modifies this`writes
      ensures !connected || QueryCommand(key).None? ==> !down && writes == old(writes)
      ensures connected && QueryCommand(key).Some? ==>
        writes == old(writes) + [QueryCommand(key).value] && down == Answer(read)
    {
      if !connected {
        return false;
      }
      var command := QueryCommand(key);
      if command.None? {
        return false;
      }
      writes := writes + [command.value];
      down := Answer(read);
    }

    /** `IsKeyJustPressed`: down now and not down at this detector's previous
        call for the key (never seen counts as up); the current state is kept. */
    method IsKeyJustPressed(key: int, read: SP.Option<seq<SP.Byte>>) returns (pressed: bool)
      modifies this`writes, this`pressedStates
      ensures var current := connected && QueryCommand(key).Some? && Answer(read);
        (pressed <==> current && !old(Seen(pressedStates, key)))
        && pressedStates == old(pressedStates)[key := current]
      ensures connected && QueryCommand(key).Some? ==> writes == old(writes) + [QueryCommand(key).value]
      ensures !connected || QueryCommand(key).None? ==> writes == old(writes)
    {
      var current := IsDown(key, read);
      var previous := Seen(pressedStates, key);
      pressedStates := pressedStates[key := current];
      pressed := current && !previous;
    }

    /** `IsKeyJustReleased`: the mirror image, on its own map. */
    method IsKeyJustReleased(key: int, read: SP.Option<seq<SP.Byte>>) returns (released: bool)
      modifies this`writes, this`releasedStates
      ensures var current := connected && QueryCommand(key).Some? && Answer(read);
        (released <==> !current && old(Seen(releasedStates, key)))
        && releasedStates == old(releasedStates)[key := current]
      ensures connected && QueryCommand(key).Some? ==> writes == old(writes) + [QueryCommand(key).value]
      ensures !connected || QueryCommand(key).None? ==> writes == old(writes)
    {
      var current := IsDown(key, read);
      var previous := Seen(releasedStates, key);
      releasedStates := releasedStates[key := current];
      released := !current && previous;
    }
  }

  /** A press then a hold: the first call with the button down reports the
      press, the next call with it still down does not. */
  method PressThenHold() returns (first: bool, second: bool)
    ensures first && !second
  {
    var box := new Box(true);
    var answer := SP.Some([One]);
    assert HasOne([One]) by {
      assert [One][0] == One;
    }
    first := box.IsKeyJustPressed(1, answer);
    second := box.IsKeyJustPressed(1, answer);
  }
}

=== FILE: makcu.dfy ===
// The makcu mouse device on top of its serial link: the button encoding and
// its names, the button-state record, the command profiler, and the device
// itself with its cached button mask, its lock-state cache, its connection
// state machine and the command sequences built from its cached command
// strings. The port's open, speed switch and writes are oracles of the port
// or parameters of `Connect`.

module Makcu {
  import opened Text
  import SP = SerialPort

  // ---------------------------------------------------------------------
  // Buttons

  datatype MouseButton = Left | Right | Middle | Side1 | Side2

  /** The enum's underlying value, which is also the button's bit. */
  function Index(b: MouseButton): (i: nat)
    ensures i < 5
  {
    match b
    case Left => 0
    case Right => 1
    case Middle => 2
    case Side1 => 3
    case Side2 => 4
  }

  /** `static_cast<MouseButton>(i)` for a bit below 5. */
  function FromIndex(i: nat): MouseButton
    requires i < 5
  {
    if i == 0 then Left else if i == 1 then Right else if i == 2 then Middle else if i == 3 then Side1 else Side2
  }

  /** The encoding is a bijection between the five buttons and 0..4. */
  lemma IndexRoundTrip(b: MouseButton, i: nat)
    requires i < 5
    ensures FromIndex(Index(b)) == b
    ensures Index(FromIndex(i)) == i
  {
  }

  /** `mouseButtonToString`. */
  function ButtonName(b: MouseButton): string
  {
    match b
    case Left => "LEFT"
    case Right => "RIGHT"
    case Middle => "MIDDLE"
    case Side1 => "SIDE1"
    case Side2 => "SIDE2"
  }

  /** `stringToMouseButton`: the upper-cased name, with LEFT for any other. */
  function ParseButton(name: string): MouseButton
  {
    var upper := ToUpper(name);
    if upper == "LEFT" then Left
    else if upper == "RIGHT" then Right
    else if upper == "MIDDLE" then Middle
    else if upper == "SIDE1" then Side1
    else if upper == "SIDE2" then Side2
    else Left
  }

  /** A button's name parses back to the button. */
  lemma NameRoundTrip(b: MouseButton)
    ensures ParseButton(ButtonName(b)) == b
  {
    var name := ButtonName(b);
    assert ToUpper(name) == name;
  }

  /** Parsing ignores case. */
  lemma ParseIgnoresCase(name: string)
    ensures ParseButton(name) == ParseButton(ToUpper(name))
  {
    ToUpperIdempotent(name);
  }

  /** A name that is none of the five, in any case, parses as LEFT. */
  lemma UnknownNameIsLeft(name: string)
    requires forall b :: ToUpper(name) != ButtonName(b)
    ensures ParseButton(name) == Left
  {
    assert ToUpper(name) != ButtonName(Right) && ToUpper(name) != ButtonName(Middle);
    assert ToUpper(name) != ButtonName(Side1) && ToUpper(name) != ButtonName(Side2);
  }

  /** The device commands that press and release a button. */
  function PressCommand(b: MouseButton): string
  {
    match b
    case Left => "km.left(1)"
    case Right => "km.right(1)"
    case Middle => "km.middle(1)"
    case Side1 => "km.ms1(1)"
    case Side2 => "km.ms2(1)"
  }

  function ReleaseCommand(b: MouseButton): string
  {
    match b
    case Left => "km.left(0)"
    case Right => "km.right(0)"
    case Middle => "km.middle(0)"
    case Side1 => "km.ms1(0)"
    case Side2 => "km.ms2(0)"
  }

  // ---------------------------------------------------------------------
  // Button states

  /** `MouseButtonStates`: one flag per button. */
  class MouseButtonStates {
    var left: bool
    var right: bool
    var middle: bool
    var side1: bool
    var side2: bool

    /** A new record reports every button as not pressed. */
    constructor ()
      ensures forall b :: !Get(b)
    {
      left, right, middle, side1, side2 := false, false, false, false, false;
    }

    /** `operator[]`. */
    function Get(b: MouseButton): bool
      reads this
    {
      match b
      case Left => left
      case Right => right
      case Middle => middle
      case Side1 => side1
      case Side2 => side2
    }

    /** `set`: the button's flag becomes `state`, the other four keep theirs. */
    method Set(b: MouseButton, state: bool)
      modifies this
      ensures Get(b) == state
      ensures forall c :: c != b ==> Get(c) == old(Get(c))
    {
      match b
      case Left => left := state;
      case Right => right := state;
      case Middle => middle := state;
      case Side1 => side1 := state;
      case Side2 => side2 := state;
    }
  }

  // ---------------------------------------------------------------------
  // Profiler

  /** A `uint64_t` counter's wrap. */
  function Wrap64(v: nat): (w: nat)
    ensures w < 0x1_0000_0000_0000_0000
    ensures v < 0x1_0000_0000_0000_0000 ==> w == v
  {
    v % 0x1_0000_0000_0000_0000
  }

  /** The per-command call count and total microseconds of `PerformanceProfiler`. */
  class Profiler {
    var enabled: bool
    var stats: map<string, (nat, nat)>

    constructor ()
      ensures !enabled && stats == map[]
    {
      enabled := false;
      stats := map[];
    }

    method EnableProfiling(enable: bool)
      modifies this`enabled
      ensures enabled == enable
    {
      enabled := enable;
    }

    /** `logCommandTiming`: nothing when disabled; otherwise the command's
        entry (created as zero when missing) counts one more call and adds
        the duration, both as 64-bit counters, and no other entry changes. */
    method LogCommandTiming(command: string, durationUs: nat)
      modifies this`stats
      ensures !enabled ==> stats == old(stats)
      ensures enabled ==>
        var (count, total) := if command in old(stats) then old(stats)[command] else (0, 0);
        stats == old(stats)[command := (Wrap64(count + 1), Wrap64(total + durationUs))]
    {
      if !enabled {
        return;
      }
      var (count, total) := if command in stats then stats[command] else (0, 0);
      stats := stats[command := (Wrap64(count + 1), Wrap64(total + durationUs))];
    }

    /** `resetStats`. */
    method ResetStats()
      modifies this`stats
      ensures stats == map[]
    {
      stats := map[];
    }
  }

  // ---------------------------------------------------------------------
  // Button mask

  /** `1 << i` as a byte. */
  function Bit8(i: nat): bv8
    requires i < 8
  {
    1 << i
  }

  predicate MaskHas(mask: bv8, i: nat)
    requires i < 8
  {
    mask & Bit8(i) != 0
  }

  /** Setting or clearing one bit touches that bit only. */
  lemma SetBit8(mask: bv8, b: nat, i: nat)
    requires b < 8 && i < 8
    ensures MaskHas(mask | Bit8(b), i) == (i == b || MaskHas(mask, i))
  {
  }

  lemma ClearBit8(mask: bv8, b: nat, i: nat)
    requires b < 8 && i < 8
    ensures MaskHas(mask & !Bit8(b), i) == (i != b && MaskHas(mask, i))
  {
  }

  /** The mask update of `handleButtonEvent`: bit `button` set on a press and
      cleared on a release. A button of 8 or more shifts its bit out of the
      byte, so the mask keeps its value. */
  function PressMask(mask: bv8, button: nat, pressed: bool): (r: bv8)
    ensures forall i: nat :: i < 8 ==> MaskHas(r, i) == (if i == button then pressed else MaskHas(mask, i))
    ensures button >= 8 ==> r == mask
  {
    if button >= 8 then mask
    else if pressed then
      var r := mask | Bit8(button);
      assert forall i: nat :: i < 8 ==> MaskHas(r, i) == (i == button || MaskHas(mask, i)) by {
        forall i: nat | i < 8 ensures MaskHas(r, i) == (i == button || MaskHas(mask, i)) {
          SetBit8(mask, button, i);
        }
      }
      r
    else
      var r := mask & !Bit8(button);
      assert forall i: nat :: i < 8 ==> MaskHas(r, i) == (i != button && MaskHas(mask, i)) by {
        forall i: nat | i < 8 ensures MaskHas(r, i) == (i != button && MaskHas(mask, i)) {
          ClearBit8(mask, button, i);
        }
      }
      r
  }

  /** The mask after the callback calls of the port, in order. */
  function ApplyEvents(mask: bv8, events: seq<SP.ButtonEvent>): bv8
  {
    if events == [] then mask
    else
      var e := events[|events| - 1];
      PressMask(ApplyEvents(mask, events[..|events| - 1]), e.bit, e.pressed)
  }

  /** The mask agrees with a port byte on the button bits 0-4. */
  predicate Tracks(mask: bv8, data: SP.Byte)
  {
    forall i: nat :: i < 5 ==> MaskHas(mask, i) == SP.BitSet(data, i)
  }

  /** Feeding the device the change reports of `handleButtonData` keeps its
      mask in step with the last byte the port stored. */
  lemma {:induction false} ReportsKeepMaskInStep(mask: bv8, last: SP.Byte, data: SP.Byte)
    requires Tracks(mask, last)
    ensures Tracks(ApplyEvents(mask, SP.Changed(last, data, 5)), data)
  {
    PartialReports(mask, last, data, 5);
  }

  lemma {:induction false} PartialReports(mask: bv8, last: SP.Byte, data: SP.Byte, n: nat)
    requires n <= 5 && Tracks(mask, last)
    ensures forall i: nat :: i < n ==> MaskHas(ApplyEvents(mask, SP.Changed(last, data, n)), i) == SP.BitSet(data, i)
    ensures forall i: nat :: n <= i < 5 ==> MaskHas(ApplyEvents(mask, SP.Changed(last, data, n)), i) == SP.BitSet(last, i)
  {
    if n > 0 {
      PartialReports(mask, last, data, n - 1);
      var before := SP.Changed(last, data, n - 1);
      var now := SP.Changed(last, data, n);
      if SP.Differs(last, data, n - 1) {
        assert now == before + [SP.ButtonEvent(n - 1, SP.BitSet(data, n - 1))];
        assert now[..|now| - 1] == before;
        assert ApplyEvents(mask, now) == PressMask(ApplyEvents(mask, before), n - 1, SP.BitSet(data, n - 1));
      } else {
        assert now == before;
      }
    }
  }

  // ---------------------------------------------------------------------
  // Lock cache

  /** The seven things the device can lock. */
  datatype LockTarget = X | Y | LockLeft | LockRight | LockMiddle | LockSide1 | LockSide2

  function LockName(t: LockTarget): string
  {
    match t
    case X => "X"
    case Y => "Y"
    case LockLeft => "LEFT"
    case LockRight => "RIGHT"
    case LockMiddle => "MIDDLE"
    case LockSide1 => "SIDE1"
    case LockSide2 => "SIDE2"
  }

  /** `lockBitMap`: the bit of a known target name. */
  function LockBit(name: string): (r: SP.Option<nat>)
    ensures r.Some? ==> r.value < 7
  {
    if name == "X" then SP.Some(0)
    else if name == "Y" then SP.Some(1)
    else if name == "LEFT" then SP.Some(2)
    else if name == "RIGHT" then SP.Some(3)
    else if name == "MIDDLE" then SP.Some(4)
    else if name == "SIDE1" then SP.Some(5)
    else if name == "SIDE2" then SP.Some(6)
    else SP.None
  }

  /** The target's position in the bit table. */
  function LockIndex(t: LockTarget): (i: nat)
    ensures i < 7
  {
    match t
    case X => 0
    case Y => 1
    case LockLeft => 2
    case LockRight => 3
    case LockMiddle => 4
    case LockSide1 => 5
    case LockSide2 => 6
  }

  /** Every target's name is in the bit table, at the target's own bit, and
      different targets have different bits. */
  lemma LockNameKnown(t: LockTarget, u: LockTarget)
    ensures LockBit(LockName(t)) == SP.Some(LockIndex(t))
    ensures t != u ==> LockIndex(t) != LockIndex(u)
  {
    match t
    case X =>
    case Y =>
    case LockLeft =>
    case LockRight =>
    case LockMiddle =>
    case LockSide1 =>
    case LockSide2 =>
  }

  /** The command that locks or unlocks a target. */
  function LockCommand(t: LockTarget, lock: bool): string
  {
    var arg := if lock then "(1)" else "(0)";
    match t
    case X => "km.lock_mx" + arg
    case Y => "km.lock_my" + arg
    case LockLeft => "km.lock_ml" + arg
    case LockRight => "km.lock_mr" + arg
    case LockMiddle => "km.lock_mm" + arg
    case LockSide1 => "km.lock_ms1" + arg
    case LockSide2 => "km.lock_ms2" + arg
  }

  /** `1 << i` as a 16-bit word, for the seven lock bits. */
  function Bit16(i: nat): bv16
    requires i < 7
  {
    1 << i
  }

  predicate CacheHas(cache: bv16, i: nat)
    requires i < 7
  {
    cache & Bit16(i) != 0
  }

  lemma SetBit16(cache: bv16, b: nat, i: nat)
    requires b < 7 && i < 7
    ensures CacheHas(cache | Bit16(b), i) == (i == b || CacheHas(cache, i))
  {
  }

  lemma ClearBit16(cache: bv16, b: nat, i: nat)
    requires b < 7 && i < 7
    ensures CacheHas(cache & !Bit16(b), i) == (i != b && CacheHas(cache, i))
  {
  }

  /** The cache update of `updateLockStateCache` for a known bit. */
  function LockUpdate(cache: bv16, bit: nat, locked: bool): (r: bv16)
    requires bit < 7
    ensures forall i: nat :: i < 7 ==> CacheHas(r, i) == (if i == bit then locked else CacheHas(cache, i))
  {
    var r := if locked then cache | Bit16(bit) else cache & !Bit16(bit);
    assert forall i: nat :: i < 7 ==> CacheHas(r, i) == (if i == bit then locked else CacheHas(cache, i)) by {
      forall i: nat | i < 7 ensures CacheHas(r, i) == (if i == bit then locked else CacheHas(cache, i)) {
        if locked { SetBit16(cache, bit, i); } else { ClearBit16(cache, bit, i); }
      }
    }
    r
  }

  /** `getLockStateFromCache` on a cache state. */
  function LockQuery(cache: bv16, valid: bool, name: string): bool
  {
    if !valid then false
    else match LockBit(name)
      case Some(bit) => CacheHas(cache, bit)
      case None => false
  }

  /** After a target's state is recorded, querying it gives that state and
      querying any other target gives what it gave before, if the cache was
      valid, and false otherwise. */
  lemma LockThenQuery(cache: bv16, valid: bool, t: LockTarget, locked: bool, u: LockTarget)
    ensures var after := LockUpdate(cache, LockIndex(t), locked);
      LockQuery(after, true, LockName(t)) == locked
      && (u != t ==> LockQuery(after, true, LockName(u)) == CacheHas(cache, LockIndex(u)))
      && (u != t && valid ==> LockQuery(after, true, LockName(u)) == LockQuery(cache, valid, LockName(u)))
  {
    var after := LockUpdate(cache, LockIndex(t), locked);
    QueryTarget(after, true, t);
    assert CacheHas(after, LockIndex(t)) == locked;
    if u != t {
      LockNameKnown(t, u);
      QueryTarget(after, true, u);
      QueryTarget(cache, valid, u);
      assert CacheHas(after, LockIndex(u)) == CacheHas(cache, LockIndex(u));
    }
  }

  /** A target's query reads its own bit of a valid cache. */
  lemma QueryTarget(cache: bv16, valid: bool, t: LockTarget)
    ensures LockQuery(cache, valid, LockName(t)) == (valid && CacheHas(cache, LockIndex(t)))
  {
    LockNameKnown(t, t);
  }

  /** Any other name, and any name on an invalid cache, queries as unlocked. */
  lemma QueryUnknown(cache: bv16, valid: bool, name: string)
    requires !valid || forall t :: name != LockName(t)
    ensures !LockQuery(cache, valid, name)
  {
    if valid {
      assert name != LockName(X) && name != LockName(Y) && name != LockName(LockLeft);
      assert name != LockName(LockRight) && name != LockName(LockMiddle);
      assert name != LockName(LockSide1) && name != LockName(LockSide2);
    }
  }

  // ---------------------------------------------------------------------
  // Command sequences

  /** The frames the port writes for a sequence of commands. */
  function Frames(commands: seq<string>): (fs: seq<string>)
    ensures |fs| == |commands|
    ensures forall i :: 0 <= i < |commands| ==> fs[i] == SP.PlainFrame(commands[i])
  {
    seq(|commands|, i requires 0 <= i < |commands| => SP.PlainFrame(commands[i]))
  }

  lemma FramesAppend(a: seq<string>, c: string)
    ensures Frames(a + [c]) == Frames(a) + [SP.PlainFrame(c)]
  {
  }

  lemma FramesConcat(a: seq<string>, b: seq<string>)
    ensures Frames(a + b) == Frames(a) + Frames(b)
  {
  }

  /** Every write from `base` up to `base + n` succeeds. */
  ghost predicate AllWritten(writeOk: nat -> bool, base: nat, n: nat)
  {
    forall j: nat :: base <= j < base + n ==> writeOk(j)
  }

  lemma AllWrittenGrow(writeOk: nat -> bool, base: nat, n: nat)
    requires AllWritten(writeOk, base, n) && writeOk(base + n)
    ensures AllWritten(writeOk, base, n + 1)
  {
  }

  function MoveCommand(x: int, y: int): string
  {
    "km.move(" + IntToString(x) + "," + IntToString(y) + ")"
  }

  function MoveSmoothCommand(x: int, y: int, segments: nat): string
  {
    "km.move(" + IntToString(x) + "," + IntToString(y) + "," + IntToString(segments) + ")"
  }

  function WheelCommand(delta: int): string
  {
    "km.wheel(" + IntToString(delta) + ")"
  }

  /** The commands a press-and-release of each button sends, in order. */
  function ClickCommands(buttons: seq<MouseButton>): (cs: seq<string>)
    ensures |cs| == 2 * |buttons|
  {
    if buttons == [] then []
    else ClickCommands(buttons[..|buttons| - 1]) + [PressCommand(buttons[|buttons| - 1]), ReleaseCommand(buttons[|buttons| - 1])]
  }

  lemma ClickCommandsAppend(buttons: seq<MouseButton>, b: MouseButton)
    ensures ClickCommands(buttons + [b]) == ClickCommands(buttons) + [PressCommand(b), ReleaseCommand(b)]
  {
    assert (buttons + [b])[..|buttons|] == buttons;
  }

  /** Click `i` is the press at position `2i` and the release after it. */
  lemma {:induction false} ClickCommandsAt(buttons: seq<MouseButton>, i: nat)
    requires i < |buttons|
    ensures ClickCommands(buttons)[2 * i] == PressCommand(buttons[i])
    ensures ClickCommands(buttons)[2 * i + 1] == ReleaseCommand(buttons[i])
    decreases |buttons|
  {
    var n := |buttons| - 1;
    if i < n {
      ClickCommandsAt(buttons[..n], i);
    }
  }

  /** The frames of the first `k + 1` clicks extend those of the first `k`. */
  lemma ClickFramesStep(buttons: seq<MouseButton>, k: nat)
    requires k < |buttons|
    ensures Frames(ClickCommands(buttons[..k + 1]))
         == Frames(ClickCommands(buttons[..k])) + Frames([PressCommand(buttons[k]), ReleaseCommand(buttons[k])])
  {
    assert buttons[..k + 1] == buttons[..k] + [buttons[k]];
    ClickCommandsAppend(buttons[..k], buttons[k]);
    FramesConcat(ClickCommands(buttons[..k]), [PressCommand(buttons[k]), ReleaseCommand(buttons[k])]);
  }

  /** The commands of a move pattern, one per point. */
  function PatternCommands(points: seq<(int, int)>, smooth: bool, segments: nat): (cs: seq<string>)
    ensures |cs| == |points|
    ensures forall i :: 0 <= i < |points| ==>
      cs[i] == if smooth then MoveSmoothCommand(points[i].0, points[i].1, segments) else MoveCommand(points[i].0, points[i].1)
  {
    seq(|points|, i requires 0 <= i < |points| =>
      if smooth then MoveSmoothCommand(points[i].0, points[i].1, segments) else MoveCommand(points[i].0, points[i].1))
  }

  // ---------------------------------------------------------------------
  // The device

  datatype ConnectionStatus = Disconnected | Connecting | Connected | ConnectionError

  /** `Device` and its `Impl`. */
  class Device {
    const port: SP.Port
    var status: ConnectionStatus
    var connected: bool
    var highPerformanceMode: bool
    var lockStateCache: bv16
    var lockStateCacheValid: bool
    var currentButtonMask: bv8

    /** The device is connected exactly while its port is open. */
    predicate Valid()
      reads this, port
    {
      connected == port.isOpen
    }

    constructor (port: SP.Port)
      requires !port.isOpen
      ensures Valid() && this.port == port
      ensures status == Disconnected && !connected && !highPerformanceMode
      ensures lockStateCache == 0 && !lockStateCacheValid && currentButtonMask == 0
    {
      this.port := port;
      status := Disconnected;
      connected := false;
      highPerformanceMode := false;
      lockStateCache := 0;
      lockStateCacheValid := false;
      currentButtonMask := 0;
    }

    /** `handleButtonEvent`: the callback the port calls for each changed bit. */
    method HandleButtonEvent(button: nat, pressed: bool)
      requires button < 32
      modifies this`currentButtonMask
      ensures currentButtonMask == PressMask(old(currentButtonMask), button, pressed)
    {
      currentButtonMask := PressMask(currentButtonMask, button, pressed);
    }

    /** The callback calls of one listener pass, in order. */
    method DeliverButtonEvents(events: seq<SP.ButtonEvent>)
      requires forall i :: 0 <= i < |events| ==> events[i].bit < 32
      modifies this`currentButtonMask
      ensures currentButtonMask == ApplyEvents(old(currentButtonMask), events)
    {
      var k := 0;
      while k < |events|
        invariant 0 <= k <= |events|
        invariant currentButtonMask == ApplyEvents(old(currentButtonMask), events[..k])
      {
        assert events[..k + 1][..k] == events[..k];
        HandleButtonEvent(events[k].bit, events[k].pressed);
        k := k + 1;
      }
      assert events[..k] == events;
    }

    /** `executeCommand`: false when disconnected; otherwise the command goes
        out through `sendCommand`. The timing sample for the profiler is not
        part of this model. */
    method ExecuteCommand(command: string) returns (ok: bool)
      requires Valid()
      modifies port`writes
      ensures !connected ==> !ok && port.writes == old(port.writes)
      ensures connected ==> port.writes == old(port.writes) + [SP.PlainFrame(command)] && ok == port.writeOk(|old(port.writes)|)
    {
      if !connected {
        return false;
      }
      ok := port.SendCommand(command);
    }

    /** `updateLockStateCache`: a known target's bit is set or cleared and the
        cache becomes valid; an unknown target changes nothing. */
    method UpdateLockStateCache(target: string, locked: bool)
      modifies this`lockStateCache, this`lockStateCacheValid
      ensures LockBit(target).None? ==> lockStateCache == old(lockStateCache) && lockStateCacheValid == old(lockStateCacheValid)
      ensures LockBit(target).Some? ==> lockStateCache == LockUpdate(old(lockStateCache), LockBit(target).value, locked) && lockStateCacheValid
    {
      match LockBit(target)
      case Some(bit) =>
        lockStateCache := LockUpdate(lockStateCache, bit, locked);
        lockStateCacheValid := true;
      case None =>
    }

    /** `getLockStateFromCache`, and through it the `isMouse*Locked` queries. */
    function GetLockStateFromCache(target: string): (locked: bool)
      reads this
    {
      LockQuery(lockStateCache, lockStateCacheValid, target)
    }

    /** `lockMouseX` and its six siblings: the lock or unlock command is sent
        and, only when it went out, the cache records the new state. */
    method LockMouse(t: LockTarget, lock: bool) returns (ok: bool)
      requires Valid()
      modifies this`lockStateCache, this`lockStateCacheValid, port`writes
      ensures !connected ==> !ok && port.writes == old(port.writes)
      ensures connected ==> port.writes == old(port.writes) + [SP.PlainFrame(LockCommand(t, lock))] && ok == port.writeOk(|old(port.writes)|)
      ensures ok ==> lockStateCache == LockUpdate(old(lockStateCache), LockIndex(t), lock) && lockStateCacheValid
      ensures ok ==> GetLockStateFromCache(LockName(t)) == lock
      ensures ok ==> forall u :: u != t && old(lockStateCacheValid) ==> GetLockStateFromCache(LockName(u)) == old(GetLockStateFromCache(LockName(u)))
      ensures !ok ==> lockStateCache == old(lockStateCache) && lockStateCacheValid == old(lockStateCacheValid)
    {
      if !connected {
        return false;
      }
      ok := ExecuteCommand(LockCommand(t, lock));
      if ok {
        RecordLock(t, lock);
      }
    }

    /** The cache update of a lock command that went out. */
    method RecordLock(t: LockTarget, lock: bool)
      modifies this`lockStateCache, this`lockStateCacheValid
      ensures lockStateCache == LockUpdate(old(lockStateCache), LockIndex(t), lock) && lockStateCacheValid
      ensures GetLockStateFromCache(LockName(t)) == lock
      ensures forall u :: u != t && old(lockStateCacheValid) ==> GetLockStateFromCache(LockName(u)) == old(GetLockStateFromCache(LockName(u)))
    {
      LockNameKnown(t, t);
      UpdateLockStateCache(LockName(t), lock);
      forall u | u != t && old(lockStateCacheValid)
        ensures GetLockStateFromCache(LockName(u)) == old(GetLockStateFromCache(LockName(u)))
      {
        LockThenQuery(old(lockStateCache), old(lockStateCacheValid), t, lock, u);
      }
    }

    /** `mouseButtonState`: the cached bit of the button, false when disconnected. */
    function MouseButtonState(b: MouseButton): (down: bool)
      reads this
      ensures !connected ==> !down
      ensures connected ==> (down <==> MaskHas(currentButtonMask, Index(b)))
    {
      connected && currentButtonMask & Bit8(Index(b)) != 0
    }

    /** `mouseDown`. */
    method MouseDown(b: MouseButton) returns (ok: bool)
      requires Valid()
      modifies port`writes
      ensures !connected ==> !ok && port.writes == old(port.writes)
      ensures connected ==> port.writes == old(port.writes) + [SP.PlainFrame(PressCommand(b))] && ok == port.writeOk(|old(port.writes)|)
    {
      if !connected {
        return false;
      }
      ok := ExecuteCommand(PressCommand(b));
    }

    /** `mouseUp`. */
    method MouseUp(b: MouseButton) returns (ok: bool)
      requires Valid()
      modifies port`writes
      ensures !connected ==> !ok && port.writes == old(port.writes)
      ensures connected ==> port.writes == old(port.writes) + [SP.PlainFrame(ReleaseCommand(b))] && ok == port.writeOk(|old(port.writes)|)
    {
      if !connected {
        return false;
      }
      ok := ExecuteCommand(ReleaseCommand(b));
    }

    /** `click`: the press and the release are both sent, whatever becomes of
        the first, and the click succeeds when both went out. */
    method Click(b: MouseButton) returns (ok: bool)
      requires Valid()
      modifies port`writes
      ensures !connected ==> !ok && port.writes == old(port.writes)
      ensures connected ==>
        port.writes == old(port.writes) + Frames([PressCommand(b), ReleaseCommand(b)])
        && ok == (port.writeOk(|old(port.writes)|) && port.writeOk(|old(port.writes)| + 1))
    {
      if !connected {
        return false;
      }
      var pressed := ExecuteCommand(PressCommand(b));
      var released := ExecuteCommand(ReleaseCommand(b));
      ok := pressed && released;
    }

    /** `mouseMove`. */
    method MouseMove(x: int, y: int) returns (ok: bool)
      requires Valid()
      modifies port`writes
      ensures !connected ==> !ok && port.writes == old(port.writes)
      ensures connected ==> port.writes == old(port.writes) + [SP.PlainFrame(MoveCommand(x, y))] && ok == port.writeOk(|old(port.writes)|)
    {
      if !connected {
        return false;
      }
      ok := ExecuteCommand(MoveCommand(x, y));
    }

    /** `mouseMoveSmooth`. */
    method MouseMoveSmooth(x: int, y: int, segments: nat) returns (ok: bool)
      requires Valid()
      modifies port`writes
      ensures !connected ==> !ok && port.writes == old(port.writes)
      ensures connected ==> port.writes == old(port.writes) + [SP.PlainFrame(MoveSmoothCommand(x, y, segments))] && ok == port.writeOk(|old(port.writes)|)
    {
      if !connected {
        return false;
      }
      ok := ExecuteCommand(MoveSmoothCommand(x, y, segments));
    }

    /** `mouseWheel`. */
    method MouseWheel(delta: int) returns (ok: bool)
      requires Valid()
      modifies port`writes
      ensures !connected ==> !ok && port.writes == old(port.writes)
      ensures connected ==> port.writes == old(port.writes) + [SP.PlainFrame(WheelCommand(delta))] && ok == port.writeOk(|old(port.writes)|)
    {
      if !connected {
        return false;
      }
      ok := ExecuteCommand(WheelCommand(delta));
    }

    /** Sends commands one by one, stopping at the first that fails to go out:
        the loop of `BatchCommandBuilder::execute` and of `movePattern`.
        `sent` counts the commands written. */
    method SendUntilFailure(commands: seq<string>) returns (ok: bool, ghost sent: nat)
      requires Valid()
      modifies port`writes
      ensures !connected ==> !ok && sent == 0 && port.writes == old(port.writes)
      ensures connected ==>
        sent <= |commands|
        && port.writes == old(port.writes) + Frames(commands[..sent])
        && (ok <==> sent == |commands| && AllWritten(port.writeOk, |old(port.writes)|, sent))
        && (!ok ==> 0 < sent && AllWritten(port.writeOk, |old(port.writes)|, sent - 1)
                    && !port.writeOk(|old(port.writes)| + sent - 1))
    {
      sent := 0;
      if !connected {
        return false, 0;
      }
      ghost var base := |port.writes|;
      var k := 0;
      while k < |commands|
        invariant 0 <= k <= |commands| && sent == k
        invariant port.writes == old(port.writes) + Frames(commands[..k])
        invariant AllWritten(port.writeOk, base, k)
      {
        var r := ExecuteCommand(commands[k]);
        FramesAppend(commands[..k], commands[k]);
        assert commands[..k + 1] == commands[..k] + [commands[k]];
        sent := k + 1;
        if !r {
          return false, sent;
        }
        k := k + 1;
      }
      assert commands[..k] == commands;
      ok := true;
    }

    /** `clickSequence`: each button is clicked in turn, both halves of a
        click are always sent, and the sequence stops after the first click
        that failed. `clicked` counts the clicks made. */
    method ClickSequence(buttons: seq<MouseButton>) returns (ok: bool, ghost clicked: nat)
      requires Valid()
      modifies port`writes
      ensures !connected ==> !ok && clicked == 0 && port.writes == old(port.writes)
      ensures connected ==>
        clicked <= |buttons|
        && port.writes == old(port.writes) + Frames(ClickCommands(buttons[..clicked]))
        && (ok <==> clicked == |buttons| && AllWritten(port.writeOk, |old(port.writes)|, 2 * clicked))
        && (!ok ==> 0 < clicked && AllWritten(port.writeOk, |old(port.writes)|, 2 * (clicked - 1))
                    && !(port.writeOk(|old(port.writes)| + 2 * clicked - 2) && port.writeOk(|old(port.writes)| + 2 * clicked - 1)))
    {
      clicked := 0;
      if !connected {
        return false, 0;
      }
      ghost var base := |port.writes|;
      var k := 0;
      while k < |buttons|
        invariant 0 <= k <= |buttons| && clicked == k
        invariant port.writes == old(port.writes) + Frames(ClickCommands(buttons[..k]))
        invariant AllWritten(port.writeOk, base, 2 * k)
      {
        var r := ClickNext(buttons, k, old(port.writes));
        clicked := k + 1;
        if !r {
          return false, clicked;
        }
        AllWrittenGrow(port.writeOk, base, 2 * k);
        AllWrittenGrow(port.writeOk, base, 2 * k + 1);
        k := k + 1;
      }
      assert buttons[..k] == buttons;
      ok := true;
    }

    /** The `k`-th click of a sequence, after the first `k` went out. */
    method ClickNext(buttons: seq<MouseButton>, k: nat, ghost start: seq<string>) returns (ok: bool)
      requires Valid() && connected && k < |buttons|
      requires port.writes == start + Frames(ClickCommands(buttons[..k]))
      modifies port`writes
      ensures port.writes == start + Frames(ClickCommands(buttons[..k + 1]))
      ensures ok == (port.writeOk(|start| + 2 * k) && port.writeOk(|start| + 2 * k + 1))
    {
      ghost var before := port.writes;
      ok := Click(buttons[k]);
      ghost var pair := Frames([PressCommand(buttons[k]), ReleaseCommand(buttons[k])]);
      assert port.writes == before + pair;
      ClickFramesStep(buttons, k);
      ghost var done := Frames(ClickCommands(buttons[..k]));
      assert (start + done) + pair == start + (done + pair);
    }

    /** `movePattern`: one move per point, smooth or direct, stopping at the
        first that fails to go out. */
    method MovePattern(points: seq<(int, int)>, smooth: bool, segments: nat) returns (ok: bool, ghost sent: nat)
      requires Valid()
      modifies port`writes
      ensures !connected ==> !ok && port.writes == old(port.writes)
      ensures connected ==>
        var commands := PatternCommands(points, smooth, segments);
        sent <= |points|
        && port.writes == old(port.writes) + Frames(commands[..sent])
        && (ok <==> sent == |points| && AllWritten(port.writeOk, |old(port.writes)|, sent))
        && (!ok ==> 0 < sent && !port.writeOk(|old(port.writes)| + sent - 1))
    {
      ok, sent := SendUntilFailure(PatternCommands(points, smooth, segments));
    }

    /** `switchToHighSpeedMode` on the open port: `commandOk` says whether the
        baud-change bytes were written and flushed, `reopenOk` whether the
        port reopened at the high rate. */
    method SwitchToHighSpeedMode(commandOk: bool, reopenOk: bool, now: nat) returns (ok: bool, ghost ids: seq<int>)
      requires port.isOpen
      modifies port
      ensures ok == (commandOk && reopenOk)
      ensures ok ==> port.isOpen
      ensures commandOk && !reopenOk ==> !port.isOpen
      ensures !commandOk ==> port.isOpen && ids == [] && port.pending == old(port.pending) && port.completed == old(port.completed)
      // Closing before the reopen fails every pending command.
      ensures commandOk ==>
        SP.ClosedLedger(old(port.pending), old(port.completed), ids, port.pending, port.completed)
      ensures port.writes == old(port.writes)
    {
      ids := [];
      if !commandOk {
        return false, ids;
      }
      ids := port.Close();
      ok := port.Open(reopenOk, now);
    }

    /** `initializeDevice`: turns on button reporting. */
    method InitializeDevice() returns (ok: bool)
      requires port.isOpen
      modifies port`writes
      ensures port.writes == old(port.writes) + [SP.PlainFrame("km.buttons(1)")]
      ensures ok == port.writeOk(|old(port.writes)|)
    {
      ok := port.SendCommand("km.buttons(1)");
    }

    /** `connect`: true at once when already connected; otherwise the target
        port (the argument, or the first device found when it is empty) is
        opened, switched to high speed and initialised, and any failure
        leaves the port closed, the device disconnected and the status
        CONNECTION_ERROR. */
    method Connect(target: string, firstDevice: string, openOk: bool, commandOk: bool, reopenOk: bool, now: nat)
      returns (ok: bool, ghost ids: seq<int>)
      requires Valid()
      modifies this, port
      ensures Valid()
      ensures old(connected) ==> ok && status == old(status) && port.writes == old(port.writes)
                                 && ids == [] && port.pending == old(port.pending) && port.completed == old(port.completed)
      ensures !old(connected) ==>
        var portName := if target == "" then firstDevice else target;
        (ok <==> portName != "" && openOk && commandOk && reopenOk && port.writeOk(|old(port.writes)|))
        && (ok ==> connected && status == Connected)
        && (!ok ==> !connected && status == ConnectionError)
        // `km.buttons(1)` goes out exactly when the port opened and switched.
        && port.writes == old(port.writes) + (if portName != "" && openOk && commandOk && reopenOk
                                               then [SP.PlainFrame("km.buttons(1)")] else [])
        // Once the port opened, the close in the switch or after a failure
        // fails every command that was pending; before that nothing changes.
        && (portName != "" && openOk ==>
              SP.ClosedLedger(old(port.pending), old(port.completed), ids, port.pending, port.completed))
        && (!(portName != "" && openOk) ==>
              ids == [] && port.pending == old(port.pending) && port.completed == old(port.completed))
      ensures currentButtonMask == old(currentButtonMask) && lockStateCache == old(lockStateCache)
      ensures lockStateCacheValid == old(lockStateCacheValid)
    {
      ids := [];
      if connected {
        return true, ids;
      }
      var portName := if target == "" then firstDevice else target;
      if portName == "" {
        status := ConnectionError;
        return false, ids;
      }
      status := Connecting;
      var isOpen := port.Open(openOk, now);
      if !isOpen {
        status := ConnectionError;
        return false, ids;
      }
      var switched;
      switched, ids := SwitchToHighSpeedMode(commandOk, reopenOk, now);
      if !switched {
        if !commandOk {
          ids := port.Close();
        } else {
          ghost var none := port.Close();
        }
        status := ConnectionError;
        return false, ids;
      }
      var initialised := InitializeDevice();
      if !initialised {
        ghost var none := port.Close();
        status := ConnectionError;
        return false, ids;
      }
      connected := true;
      status := Connected;
      ok := true;
    }

    /** `disconnect`: on a connected device the port is closed, failing every
        pending command, the button mask cleared, the lock cache invalidated
        and the status set to DISCONNECTED; on a disconnected device nothing
        happens. */
    method Disconnect() returns (ghost ids: seq<int>)
      requires Valid()
      modifies this, port
      ensures Valid() && !connected
      ensures port.writes == old(port.writes)
      ensures old(connected) ==>
        status == Disconnected && currentButtonMask == 0 && !lockStateCacheValid
        && SP.ClosedLedger(old(port.pending), old(port.completed), ids, port.pending, port.completed)
      ensures !old(connected) ==>
        status == old(status) && currentButtonMask == old(currentButtonMask)
        && lockStateCacheValid == old(lockStateCacheValid)
        && ids == [] && port.pending == old(port.pending) && port.completed == old(port.completed)
      ensures lockStateCache == old(lockStateCache)
    {
      ids := [];
      if !connected {
        return;
      }
      ids := port.Close();
      connected := false;
      status := Disconnected;
      currentButtonMask := 0;
      lockStateCacheValid := false;
    }
  }

  /** `BatchCommandBuilder`: a list of commands built up and then sent. */
  class BatchCommandBuilder {
    const device: Device
    var commands: seq<string>

    constructor (device: Device)
      ensures this.device == device && commands == []
    {
      this.device := device;
      commands := [];
    }

    method Move(x: int, y: int)
      modifies this`commands
      ensures commands == old(commands) + [MoveCommand(x, y)]
    {
      commands := commands + [MoveCommand(x, y)];
    }

    /** `click`: the press command, then the release command. */
    method Click(b: MouseButton)
      modifies this`commands
      ensures commands == old(commands) + [PressCommand(b), ReleaseCommand(b)]
    {
      commands := commands + [PressCommand(b), ReleaseCommand(b)];
    }

    method Press(b: MouseButton)
      modifies this`commands
      ensures commands == old(commands) + [PressCommand(b)]
    {
      commands := commands + [PressCommand(b)];
    }

    method Release(b: MouseButton)
      modifies this`commands
      ensures commands == old(commands) + [ReleaseCommand(b)]
    {
      commands := commands + [ReleaseCommand(b)];
    }

    method Scroll(delta: int)
      modifies this`commands
      ensures commands == old(commands) + [WheelCommand(delta)]
    {
      commands := commands + [WheelCommand(delta)];
    }

    /** `execute`: false when the device is disconnected; otherwise the
        commands go out in order until the first that fails. */
    method Execute() returns (ok: bool, ghost sent: nat)
      requires device.Valid()
      modifies device.port`writes
      ensures !device.connected ==> !ok && device.port.writes == old(device.port.writes)
      ensures device.connected ==>
        sent <= |commands|
        && device.port.writes == old(device.port.writes) + Frames(commands[..sent])
        && (ok <==> sent == |commands| && AllWritten(device.port.writeOk, |old(device.port.writes)|, sent))
        && (!ok ==> 0 < sent && !device.port.writeOk(|old(device.port.writes)| + sent - 1))
    {
      ok, sent := device.SendUntilFailure(commands);
    }
  }
}

=== FILE: makcu_wrapper.dfy ===
// The game-facing wrapper around the makcu device: the clamped relative
// move, the virtual-key mapping, the rate-limited button query with its two
// static maps, the edge detectors built on it, and the button-name table.
// The wrapper's global device is a field that always exists; creating it and
// connecting it (`MakcuInitialize`) is not part of this model.

module MakcuWrapper {
  import opened Makcu
  import SP = SerialPort

  /** Queries of the same key closer together than this many milliseconds
      are answered from the stored state. */
  const RateLimitMs := 10

  /** `VirtualKeyToMouseButton`: the Windows codes of the five mouse buttons,
      and LEFT for any other code. */
  function VirtualKeyToMouseButton(key: int): (b: MouseButton)
    ensures key !in {1, 2, 4, 5, 6} ==> b == Left
  {
    match key
    case 1 => Left
    case 2 => Right
    case 4 => Middle
    case 5 => Side1
    case 6 => Side2
    case _ => Left
  }

  /** `GetAvailableMouseButtons`. */
  const AvailableMouseButtons: seq<string> := ["Left Mouse", "Right Mouse", "Middle Mouse", "Mouse 4", "Mouse 5"]

  /** `GetMouseButtonKeyCode`: the code of a listed name, and the right
      button's code for any other name. */
  function GetMouseButtonKeyCode(name: string): (key: int)
    ensures key in {1, 2, 4, 5, 6}
    ensures name !in AvailableMouseButtons ==> key == 2
  {
    if name == "Left Mouse" then 1
    else if name == "Right Mouse" then 2
    else if name == "Middle Mouse" then 4
    else if name == "Mouse 4" then 5
    else if name == "Mouse 5" then 6
    else 2
  }

  /** The listed names select the five buttons, in enum order. */
  lemma AvailableNamesSelectButtons(i: nat)
    requires i < |AvailableMouseButtons|
    ensures Index(VirtualKeyToMouseButton(GetMouseButtonKeyCode(AvailableMouseButtons[i]))) == i
  {
  }

  /** The `move` clamp to a signed 7-bit magnitude. */
  function Clamp127(v: int): (c: int)
    ensures -127 <= c <= 127
    ensures -127 <= v <= 127 ==> c == v
    ensures v < -127 ==> c == -127
    ensures v > 127 ==> c == 127
  {
    if v < -127 then -127 else if v > 127 then 127 else v
  }

  /** A map entry, or the default value `operator[]` inserts. */
  function Lookup<T>(m: map<int, T>, key: int, default: T): T
  {
    if key in m then m[key] else default
  }

  /** `connectionStatusToString` of `GetConnectionStatus`. */
  function StatusText(status: ConnectionStatus): string
  {
    match status
    case Connected => "Connected"
    case Connecting => "Connecting..."
    case Disconnected => "Disconnected"
    case ConnectionError => "Connection Error"
  }

  /** The wrapper's globals: its own `connected` flag, the device, and the
      two static maps of the rate limiter. Times are milliseconds of the
      steady clock; a key never queried has the clock's epoch, 0. */
  class Wrapper {
    const device: Device
    var connected: bool
    var previousStates: map<int, bool>
    var lastCheckTime: map<int, int>
    /** The separate state map of the corrected edge detectors. */
    var edgeStates: map<int, bool>

    constructor (device: Device)
      ensures this.device == device && !connected
      ensures previousStates == map[] && lastCheckTime == map[] && edgeStates == map[]
    {
      this.device := device;
      connected := false;
      previousStates := map[];
      lastCheckTime := map[];
      edgeStates := map[];
    }

    /** `IsConnected`: the wrapper's flag and the device's own. */
    predicate Linked()
      reads this, device
    {
      connected && device.connected
    }

    /** What `IsDown` answers at time `now`: false when not linked; the stored
        state within 10 ms of the key's last query; the device's cached
        button state otherwise. */
    function DownAt(key: int, now: int): bool
      reads this, device
    {
      if !Linked() then false
      else if now - Lookup(lastCheckTime, key, 0) < RateLimitMs then Lookup(previousStates, key, false)
      else device.MouseButtonState(VirtualKeyToMouseButton(key))
    }

    /** The time stamps after an `IsDown` at `now`: untouched when not
        linked; otherwise the key's entry is created at the epoch if missing,
        and set to `now` when the query goes to the device. */
    function StampsAfter(key: int, now: int): map<int, int>
      reads this, device
    {
      var last := Lookup(lastCheckTime, key, 0);
      if !Linked() then lastCheckTime
      else if now - last < RateLimitMs then lastCheckTime[key := last]
      else lastCheckTime[key := now]
    }

    /** `move`: both deltas clamped to [-127, 127], nothing sent when not linked. */
    method Move(x: int, y: int)
      requires device.Valid()
      modifies device.port`writes
      ensures !Linked() ==> device.port.writes == old(device.port.writes)
      ensures Linked() ==> device.port.writes == old(device.port.writes) + [SP.PlainFrame(MoveCommand(Clamp127(x), Clamp127(y)))]
    {
      if !Linked() {
        return;
      }
      var cx, cy := x, y;
      if cx < -127 { cx := -127; }
      if cx > 127 { cx := 127; }
      if cy < -127 { cy := -127; }
      if cy > 127 { cy := 127; }
      var _ := device.MouseMove(cx, cy);
    }

    /** `left_click`: presses the left button. */
    method LeftClick()
      requires device.Valid()
      modifies device.port`writes
      ensures !Linked() ==> device.port.writes == old(device.port.writes)
      ensures Linked() ==> device.port.writes == old(device.port.writes) + [SP.PlainFrame(PressCommand(Left))]
    {
      if !Linked() {
        return;
      }
      var _ := device.MouseDown(Left);
    }

    /** `left_click_release`. */
    method LeftClickRelease()
      requires device.Valid()
      modifies device.port`writes
      ensures !Linked() ==> device.port.writes == old(device.port.writes)
      ensures Linked() ==> device.port.writes == old(device.port.writes) + [SP.PlainFrame(ReleaseCommand(Left))]
    {
      if !Linked() {
        return;
      }
      var _ := device.MouseUp(Left);
    }

    /** `IsDown`. When not linked nothing is touched. Otherwise the key gets a
        time entry (the epoch if new); within 10 ms of it the stored state is
        returned (and gets an entry, false if new); past that the time is
        stamped and the device's state is stored and returned. */
    method IsDown(key: int, now: int) returns (down: bool)
      modifies this`previousStates, this`lastCheckTime
      ensures down == old(DownAt(key, now))
      ensures !old(Linked()) ==> previousStates == old(previousStates)
      ensures old(Linked()) ==> previousStates == old(previousStates)[key := down]
      ensures lastCheckTime == old(StampsAfter(key, now))
    {
      if !Linked() {
        return false;
      }
      var last := Lookup(lastCheckTime, key, 0);
      lastCheckTime := lastCheckTime[key := last];
      if now - last < RateLimitMs {
        down := Lookup(previousStates, key, false);
        previousStates := previousStates[key := down];
        return;
      }
      lastCheckTime := lastCheckTime[key := now];
      down := device.MouseButtonState(VirtualKeyToMouseButton(key));
      previousStates := previousStates[key := down];
    }

    /** `IsKeyJustPressed` as written: it compares the state `IsDown` returned
        with the entry `IsDown` has just overwritten with that same state, so
        while linked it never reports a press. Not linked, it reports nothing
        and stores false. */
    method IsKeyJustPressed(key: int, now: int) returns (pressed: bool)
      modifies this`previousStates, this`lastCheckTime
      ensures old(Linked()) ==> !pressed
      ensures !old(Linked()) ==> !pressed
      ensures previousStates == old(previousStates)[key := old(DownAt(key, now))]
      ensures lastCheckTime == old(StampsAfter(key, now))
    {
      var current := IsDown(key, now);
      var previous := Lookup(previousStates, key, false);
      previousStates := previousStates[key := current];
      pressed := current && !previous;
    }

    /** `IsKeyJustReleased` as written: never a release while linked; not
        linked, a release exactly when the stored state was down. */
    method IsKeyJustReleased(key: int, now: int) returns (released: bool)
      modifies this`previousStates, this`lastCheckTime
      ensures old(Linked()) ==> !released
      ensures !old(Linked()) ==> released == old(Lookup(previousStates, key, false))
      ensures previousStates == old(previousStates)[key := old(DownAt(key, now))]
      ensures lastCheckTime == old(StampsAfter(key, now))
    {
      var current := IsDown(key, now);
      var previous := Lookup(previousStates, key, false);
      previousStates := previousStates[key := current];
      released := !current && previous;
    }

    /** The intended press detector: the edge is taken against the state this
        detector saw on its previous call, kept apart from `IsDown`'s cache. */
    method RisingEdge(key: int, now: int) returns (pressed: bool)
      modifies this`previousStates, this`lastCheckTime, this`edgeStates
      ensures pressed <==> old(DownAt(key, now)) && !old(Lookup(edgeStates, key, false))
      ensures edgeStates == old(edgeStates)[key := old(DownAt(key, now))]
      ensures !old(Linked()) ==> previousStates == old(previousStates)
      ensures old(Linked()) ==> previousStates == old(previousStates)[key := old(DownAt(key, now))]
      ensures lastCheckTime == old(StampsAfter(key, now))
    {
      var current := IsDown(key, now);
      var previous := Lookup(edgeStates, key, false);
      edgeStates := edgeStates[key := current];
      pressed := current && !previous;
    }

    /** The intended release detector, on the same separate state. */
    method FallingEdge(key: int, now: int) returns (released: bool)
      modifies this`previousStates, this`lastCheckTime, this`edgeStates
      ensures released <==> !old(DownAt(key, now)) && old(Lookup(edgeStates, key, false))
      ensures edgeStates == old(edgeStates)[key := old(DownAt(key, now))]
      ensures !old(Linked()) ==> previousStates == old(previousStates)
      ensures old(Linked()) ==> previousStates == old(previousStates)[key := old(DownAt(key, now))]
      ensures lastCheckTime == old(StampsAfter(key, now))
    {
      var current := IsDown(key, now);
      var previous := Lookup(edgeStates, key, false);
      edgeStates := edgeStates[key := current];
      released := !current && previous;
    }
  }

  /** A press the wrapper misses: linked, the left button up at the first
      query and down at one 20 ms later. `IsKeyJustPressed` reports nothing
      on either call, while `RisingEdge` reports the press on the second. */
  method MissedPress() returns (asWritten: bool, corrected: bool)
    ensures !asWritten && corrected
  {
    var port := new SP.Port((i: nat) => true);
    var device := new Device(port);
    var ok, _ := device.Connect("COM3", "", true, true, true, 0);
    var w := new Wrapper(device);
    w.connected := true;
    var _ := w.IsKeyJustPressed(1, 100);
    var _ := w.RisingEdge(1, 100);
    device.HandleButtonEvent(0, true);
    asWritten := w.IsKeyJustPressed(1, 120);
    corrected := w.RisingEdge(1, 140);
  }

  /** A release the wrapper misses: linked, the left button down at the first
      query and up at one 20 ms later. `IsKeyJustReleased` reports nothing,
      while `FallingEdge` reports the release. */
  method MissedRelease() returns (asWritten: bool, corrected: bool)
    ensures !asWritten && corrected
  {
    var port := new SP.Port((i: nat) => true);
    var device := new Device(port);
    var ok, _ := device.Connect("COM3", "", true, true, true, 0);
    var w := new Wrapper(device);
    w.connected := true;
    device.HandleButtonEvent(0, true);
    assert w.Linked() && device.MouseButtonState(Left);
    var _ := w.IsKeyJustReleased(1, 100);
    var _ := w.FallingEdge(1, 100);
    assert w.edgeStates[1] && w.lastCheckTime[1] == 100;
    device.HandleButtonEvent(0, false);
    assert w.Linked() && !device.MouseButtonState(Left);
    asWritten := w.IsKeyJustReleased(1, 120);
    corrected := w.FallingEdge(1, 140);
  }
}

=== FILE: offsets.dfy ===
// Build detection and the per-build offset table: the game's build-date
// string is found through a code pattern and a RIP-relative displacement, the
// date is mapped to a build number, and the build number selects a row of
// offsets.

module Offsets {
  import opened Remote

  datatype BuildOffsets = BuildOffsets(
    build: int,
    world: nat,
    replay: nat,
    viewport: nat,
    camera: nat,
    playerInfo: nat,
    boneList: nat,
    boneMatrix: nat,
    playerHealth: nat,
    playerPosition: nat)

  /** A row whose globals are the old placeholder ones. */
  function Placeholder(build: int): BuildOffsets
  {
    BuildOffsets(build, 0x1F5B820, 0x1F5B820, 0x1FBC100, 0x0, 0x10A8, 0x0, 0x60, 0x280, 0x90)
  }

  /** `BUILD_OFFSETS`, in source order. */
  const BuildTable: seq<BuildOffsets> := [
    Placeholder(372), Placeholder(393), Placeholder(505), Placeholder(1032),
    Placeholder(1103), Placeholder(1290), Placeholder(1365), Placeholder(1493),
    Placeholder(1604), Placeholder(1737), Placeholder(1868), Placeholder(2060),
    Placeholder(2189), Placeholder(2372), Placeholder(2545), Placeholder(2612),
    Placeholder(2699), Placeholder(2802),
    BuildOffsets(2944, 0x257BEA0, 0x1F42068, 0x1FEAAC0, 0x0, 0x10A8, 0x0, 0x60, 0x280, 0x90),
    BuildOffsets(3095, 0x2593320, 0x1F58B58, 0x20019E0, 0x20025B8, 0x10A8, 0x48, 0x60, 0x280, 0x90),
    BuildOffsets(3258, 0x25B14B0, 0x1FBD4F0, 0x201DBA0, 0x201E7D0, 0x10A8, 0x48, 0x60, 0x280, 0x90),
    BuildOffsets(3323, 0x25C15B0, 0x1F85458, 0x202DC50, 0x20025B8, 0x10A8, 0x48, 0x60, 0x280, 0x90),
    BuildOffsets(3407, 0x25D7108, 0x1F9A9D8, 0x20431C0, 0x20440C8, 0x10A8, 0x48, 0x60, 0x280, 0x90)
  ]

  /** Whether the table has a row for `build`. */
  predicate HasOffsets(build: int)
  {
    exists k :: 0 <= k < |BuildTable| && BuildTable[k].build == build
  }

  /** Each row's build number is smaller than the next one's. */
  lemma TableStepsUp(k: nat)
    requires k + 1 < |BuildTable|
    ensures BuildTable[k].build < BuildTable[k + 1].build
  {
  }

  /** The build numbers ascend strictly, so at most one row matches a build. */
  lemma {:induction false} TableAscending(i: nat, j: nat)
    requires i < j < |BuildTable|
    ensures BuildTable[i].build < BuildTable[j].build
    decreases j - i
  {
    TableStepsUp(j - 1);
    if i < j - 1 {
      TableAscending(i, j - 1);
    }
  }

  /** `GetOffsetsForBuild`: the row for `build`, or none. */
  method GetOffsetsForBuild(build: int) returns (r: Option<BuildOffsets>)
    ensures r.Some? <==> HasOffsets(build)
    ensures r.Some? ==> r.value.build == build && r.value in BuildTable
    ensures r.Some? ==> forall k :: 0 <= k < |BuildTable| && BuildTable[k].build == build ==> BuildTable[k] == r.value
  {
    var k := 0;
    while k < |BuildTable|
      invariant 0 <= k <= |BuildTable|
      invariant forall m :: 0 <= m < k ==> BuildTable[m].build != build
    {
      if BuildTable[k].build == build {
        forall m | 0 <= m < |BuildTable| && BuildTable[m].build == build
          ensures BuildTable[m] == BuildTable[k]
        {
          if k < m {
            TableAscending(k, m);
          }
        }
        return Some(BuildTable[k]);
      }
      k := k + 1;
    }
    return None;
  }

  /** The builds whose offsets were checked against the game. */
  const VerifiedBuilds: seq<int> := [2802, 2944, 3095, 3258]

  /** `IsBuildSupported`, over the detected build number. */
  method IsBuildSupported(buildVersion: int) returns (supported: bool)
    ensures supported <==> buildVersion == 2802 || buildVersion == 2944 || buildVersion == 3095 || buildVersion == 3258
  {
    var k := 0;
    while k < |VerifiedBuilds|
      invariant 0 <= k <= |VerifiedBuilds|
      invariant forall m :: 0 <= m < k ==> VerifiedBuilds[m] != buildVersion
    {
      if VerifiedBuilds[k] == buildVersion {
        return true;
      }
      k := k + 1;
    }
    assert buildVersion != VerifiedBuilds[0] && buildVersion != VerifiedBuilds[1];
    assert buildVersion != VerifiedBuilds[2] && buildVersion != VerifiedBuilds[3];
    return false;
  }

  /** Every verified build has a row in the table. */
  lemma VerifiedBuildsHaveOffsets(b: int)
    requires b in VerifiedBuilds
    ensures HasOffsets(b)
  {
    if b == 2802 { assert BuildTable[17].build == b; }
    else if b == 2944 { assert BuildTable[18].build == b; }
    else if b == 3095 { assert BuildTable[19].build == b; }
    else { assert BuildTable[20].build == b; }
  }

  // ---------------------------------------------------------------------
  // Date string to build number

  /** One arm of the date chain: the date text, how many characters are
      compared, and the build it selects. */
  datatype DateRule = DateRule(date: string, length: nat, build: int)

  /** The chain of date comparisons, in source order. */
  const DateRules: seq<DateRule> := [
    DateRule("Dec  5 2024", 11, 3407), DateRule("Sep 10 2024", 11, 3323),
    DateRule("Jun 20 2024", 11, 3258), DateRule("Dec  8 2023", 11, 3095),
    DateRule("Jun  8 2023", 11, 2944), DateRule("Dec  8 2022", 11, 2802),
    DateRule("Jul 21 2022", 11, 2699), DateRule("Apr 18 2022", 11, 2612),
    DateRule("Dec 14 2021", 11, 2545), DateRule("Jul 15 2021", 11, 2372),
    DateRule("Dec 10 2020", 11, 2189), DateRule("Aug  5 2020", 11, 2060),
    DateRule("Dec 11 2019", 11, 1868), DateRule("Jul 23 2019", 11, 1737),
    DateRule("Dec  5 2018", 11, 1604), DateRule("Oct 14 2018", 11, 1493),
    DateRule("Mar 14 2018", 11, 1365), DateRule("Dec  6 2017", 11, 1290),
    DateRule("Jun  9 2017", 11, 1103), DateRule("Mar 31 2017", 11, 1032),
    DateRule("Oct 13", 6, 505), DateRule("Jun 30", 6, 393),
    DateRule("Jun  9 2015", 11, 372)
  ]

  lemma DateRulesWellFormed(k: nat)
    requires k < |DateRules|
    ensures DateRules[k].length == |DateRules[k].date| && DateRules[k].length <= 11
    ensures DateRules[k].length == 6 <==> DateRules[k].date in ["Oct 13", "Jun 30"]
  {
  }

  /** `strncmp(s, date, length) == 0` for a date text with no NUL in it: the
      first `length` bytes of `s` spell the text. */
  predicate PrefixMatches(s: seq<Byte>, r: DateRule)
    requires r.length <= |s| && r.length <= |r.date|
  {
    forall k :: 0 <= k < r.length ==> s[k] == r.date[k] as int
  }

  /** The build selected by the first matching rule from `k` on, or 0. */
  function DateToBuildFrom(s: seq<Byte>, k: nat): (b: int)
    requires |s| >= 11
    requires k <= |DateRules|
    ensures b == 0 || exists m :: k <= m < |DateRules| && DateRules[m].build == b
    decreases |DateRules| - k
  {
    if k == |DateRules| then 0
    else
      DateRulesWellFormed(k);
      if PrefixMatches(s, DateRules[k]) then DateRules[k].build else DateToBuildFrom(s, k + 1)
  }

  /** The date chain of `GetBuildVersion`. */
  function DateToBuild(s: seq<Byte>): (b: int)
    requires |s| >= 11
  {
    DateToBuildFrom(s, 0)
  }

  /** Every rule's build has a row in the table. */
  lemma RuleBuildHasOffsets(m: nat)
    requires m < |DateRules|
    ensures HasOffsets(DateRules[m].build)
  {
    var b := DateRules[m].build;
    var k :| 0 <= k < |BuildTable| && BuildTable[k].build == b by {
      if m == 0 { assert BuildTable[22].build == b; }
      else if m == 1 { assert BuildTable[21].build == b; }
      else if m == 2 { assert BuildTable[20].build == b; }
      else if m == 3 { assert BuildTable[19].build == b; }
      else if m == 4 { assert BuildTable[18].build == b; }
      else if m == 5 { assert BuildTable[17].build == b; }
      else if m == 6 { assert BuildTable[16].build == b; }
      else if m == 7 { assert BuildTable[15].build == b; }
      else if m == 8 { assert BuildTable[14].build == b; }
      else if m == 9 { assert BuildTable[13].build == b; }
      else if m == 10 { assert BuildTable[12].build == b; }
      else if m == 11 { assert BuildTable[11].build == b; }
      else if m == 12 { assert BuildTable[10].build == b; }
      else if m == 13 { assert BuildTable[9].build == b; }
      else if m == 14 { assert BuildTable[8].build == b; }
      else if m == 15 { assert BuildTable[7].build == b; }
      else if m == 16 { assert BuildTable[6].build == b; }
      else if m == 17 { assert BuildTable[5].build == b; }
      else if m == 18 { assert BuildTable[4].build == b; }
      else if m == 19 { assert BuildTable[3].build == b; }
      else if m == 20 { assert BuildTable[2].build == b; }
      else if m == 21 { assert BuildTable[1].build == b; }
      else { assert BuildTable[0].build == b; }
    }
  }

  /** A date maps to 0 or to a build the table has offsets for. */
  lemma DetectedBuildHasOffsets(s: seq<Byte>)
    requires |s| >= 11
    ensures DateToBuild(s) == 0 || HasOffsets(DateToBuild(s))
  {
    var b := DateToBuild(s);
    if b != 0 {
      var m :| 0 <= m < |DateRules| && DateRules[m].build == b;
      RuleBuildHasOffsets(m);
    }
  }

  // ---------------------------------------------------------------------
  // The code-pattern scan

  /** The 12 bytes that precede the build string's displacement. */
  const Pattern: seq<Byte> := [0x48, 0x8D, 0x8E, 0x09, 0x02, 0x00, 0x00, 0x44, 0x8B, 0xC5, 0x33, 0xD2]
  const PatternLength: nat := 12
  const SearchSize: nat := 0x500_0000
  const ChunkSize: nat := 0x10_0000
  const ChunkCount: nat := SearchSize / ChunkSize
  /** The scan's inner bound, `bytes_to_read - 12`: the last window that fits
      in a chunk, at `ChunkSize - 12`, is never tried. */
  const WindowCount: nat := ChunkSize - PatternLength

  /** Start of chunk `c`. */
  function ChunkStart(base: Addr, c: nat): Addr
  {
    base + c * ChunkSize
  }

  /** Bytes `j` to 11 of the window of `buffer` at `i` agree with the pattern,
      compared one byte at a time. */
  predicate PatternFrom(buffer: seq<Byte>, i: nat, j: nat)
    requires j <= PatternLength && i + PatternLength <= |buffer|
    decreases PatternLength - j
  {
    j == PatternLength || (buffer[i + j] == Pattern[j] && PatternFrom(buffer, i, j + 1))
  }

  /** The 12 bytes of `buffer` at `i` are the pattern. */
  predicate WindowAt(buffer: seq<Byte>, i: nat)
  {
    i + PatternLength <= |buffer| && PatternFrom(buffer, i, 0)
  }

  lemma {:induction false} PatternFromMeans(buffer: seq<Byte>, i: nat, j: nat)
    requires j <= PatternLength && i + PatternLength <= |buffer|
    ensures PatternFrom(buffer, i, j) <==> forall k :: j <= k < PatternLength ==> buffer[i + k] == Pattern[k]
    decreases PatternLength - j
  {
    if j < PatternLength {
      PatternFromMeans(buffer, i, j + 1);
    }
  }

  /** `WindowAt` is the window's bytes equal to the pattern. */
  lemma WindowAtMeans(buffer: seq<Byte>, i: nat)
    ensures WindowAt(buffer, i) <==> i + PatternLength <= |buffer| && buffer[i..i + PatternLength] == Pattern
  {
    if i + PatternLength <= |buffer| {
      PatternFromMeans(buffer, i, 0);
      if buffer[i..i + PatternLength] == Pattern {
        forall k | 0 <= k < PatternLength
          ensures buffer[i + k] == Pattern[k]
        {
          assert buffer[i..i + PatternLength][k] == buffer[i + k];
        }
      }
    }
  }

  /** The first window at or after `i` of a chunk's buffer that holds the
      pattern, among the `WindowCount` the scan tries. */
  function FirstMatchIn(buffer: seq<Byte>, i: nat): (r: Option<nat>)
    requires i <= WindowCount
    ensures r.Some? ==> i <= r.value < WindowCount && WindowAt(buffer, r.value)
    ensures r.Some? ==> forall k :: i <= k < r.value ==> !WindowAt(buffer, k)
    ensures r.None? ==> forall k :: i <= k < WindowCount ==> !WindowAt(buffer, k)
    decreases WindowCount - i
  {
    if i == WindowCount then None
    else if WindowAt(buffer, i) then Some(i)
    else FirstMatchIn(buffer, i + 1)
  }

  /** The reads of the scan, one per chunk: a chunk's bytes, or nothing when
      it cannot be read in one piece. */
  function ChunkReads(base: Addr, mem: Memory): (chunks: seq<Option<seq<Byte>>>)
    ensures |chunks| == ChunkCount
  {
    seq(ChunkCount, c requires 0 <= c < ChunkCount => mem.Block(ChunkStart(base, c), ChunkSize))
  }

  /** The pattern lies at offset `i` of chunk `c`, the chunk read in one piece. */
  predicate MatchAt(chunks: seq<Option<seq<Byte>>>, c: nat, i: nat)
  {
    c < |chunks| && chunks[c].Some? && WindowAt(chunks[c].value, i)
  }

  /** What the search of one chunk finds: nothing when the chunk could not be
      read, else the first window tried that matches. */
  function ChunkMatch(read: Option<seq<Byte>>): Option<nat>
  {
    match read
    case None => None
    case Some(buffer) => FirstMatchIn(buffer, 0)
  }

  /** A chunk's result is its first matching offset, and no result means no
      offset the scan tries matches. */
  lemma ChunkMatchIsFirst(chunks: seq<Option<seq<Byte>>>, c: nat)
    requires c < |chunks|
    ensures ChunkMatch(chunks[c]).Some? ==>
      ChunkMatch(chunks[c]).value < WindowCount && MatchAt(chunks, c, ChunkMatch(chunks[c]).value)
      && forall k: nat :: k < ChunkMatch(chunks[c]).value ==> !MatchAt(chunks, c, k)
    ensures ChunkMatch(chunks[c]).None? ==> forall k: nat :: k < WindowCount ==> !MatchAt(chunks, c, k)
  {
    if chunks[c].Some? {
      var r := FirstMatchIn(chunks[c].value, 0);
    }
  }

  /** The scan from chunk `c` on, while nothing has been found: a chunk's first
      match ends the scan unless its address is 0, which the scan cannot tell
      apart from "not found". */
  function ScanFrom(base: Addr, chunks: seq<Option<seq<Byte>>>, c: nat): (loc: nat)
    requires c <= |chunks|
    decreases |chunks| - c
  {
    if c == |chunks| then 0
    else match ChunkMatch(chunks[c])
      case Some(i) => if ChunkStart(base, c) + i != 0 then ChunkStart(base, c) + i else ScanFrom(base, chunks, c + 1)
      case None => ScanFrom(base, chunks, c + 1)
  }

  /** The first chunk from `c` on whose search finds something, if any. */
  function FirstMatchingChunk(chunks: seq<Option<seq<Byte>>>, c: nat): (r: Option<nat>)
    requires c <= |chunks|
    ensures r.Some? ==> c <= r.value < |chunks| && ChunkMatch(chunks[r.value]).Some?
    ensures r.None? ==> forall c2 :: c <= c2 < |chunks| ==> ChunkMatch(chunks[c2]).None?
    decreases |chunks| - c
  {
    if c == |chunks| then None
    else if ChunkMatch(chunks[c]).Some? then Some(c)
    else FirstMatchingChunk(chunks, c + 1)
  }

  /** No chunk before the first matching one finds anything. */
  lemma {:induction false} NoMatchBeforeFirstChunk(chunks: seq<Option<seq<Byte>>>, c: nat, c2: nat)
    requires c <= |chunks|
    requires FirstMatchingChunk(chunks, c).Some? && c <= c2 < FirstMatchingChunk(chunks, c).value
    ensures ChunkMatch(chunks[c2]).None?
    decreases |chunks| - c
  {
    if c2 > c {
      NoMatchBeforeFirstChunk(chunks, c + 1, c2);
    }
  }

  /** With a non-zero module base the scan returns the first match in scan
      order: the first matching offset of the first chunk that holds a match,
      and 0 when there is none. */
  lemma {:induction false} ScanFindsFirst(base: Addr, chunks: seq<Option<seq<Byte>>>, c: nat)
    requires base > 0 && c <= |chunks|
    ensures var r := FirstMatchingChunk(chunks, c);
      (r.None? ==> ScanFrom(base, chunks, c) == 0)
      && (r.Some? ==> ScanFrom(base, chunks, c) == ChunkStart(base, r.value) + ChunkMatch(chunks[r.value]).value)
    decreases |chunks| - c
  {
    if c < |chunks| {
      ScanFindsFirst(base, chunks, c + 1);
    }
  }

  /** With a non-zero module base the scan reports 0 exactly when no window
      it tries matches. */
  lemma ScanMissesOnlyWithoutMatch(base: Addr, chunks: seq<Option<seq<Byte>>>)
    requires base > 0
    ensures ScanFrom(base, chunks, 0) == 0 <==>
      forall c: nat, i: nat :: i < WindowCount ==> !MatchAt(chunks, c, i)
  {
    ScanFindsFirst(base, chunks, 0);
    var r := FirstMatchingChunk(chunks, 0);
    if r.Some? {
      ChunkMatchIsFirst(chunks, r.value);
    } else {
      forall c: nat, i: nat | i < WindowCount
        ensures !MatchAt(chunks, c, i)
      {
        if c < |chunks| {
          ChunkMatchIsFirst(chunks, c);
        }
      }
    }
  }

  /** The inner comparison loop: the 12 bytes of `buffer` at `i` are the pattern. */
  method WindowMatches(buffer: seq<Byte>, i: nat) returns (matched: bool)
    requires i + PatternLength <= |buffer|
    ensures matched <==> WindowAt(buffer, i)
  {
    matched := true;
    var j := 0;
    while j < PatternLength
      invariant 0 <= j <= PatternLength
      invariant WindowAt(buffer, i) <==> PatternFrom(buffer, i, j)
    {
      if buffer[i + j] != Pattern[j] {
        matched := false;
        break;
      }
      j := j + 1;
    }
  }

  /** The search of one chunk's buffer: the windows below `WindowCount` in
      order, the first match returned. */
  method SearchChunk(buffer: seq<Byte>) returns (found: Option<nat>)
    requires |buffer| == ChunkSize
    ensures found == FirstMatchIn(buffer, 0)
  {
    var i := 0;
    while i < WindowCount
      invariant 0 <= i <= WindowCount
      invariant FirstMatchIn(buffer, 0) == FirstMatchIn(buffer, i)
    {
      var m := WindowMatches(buffer, i);
      if m {
        return Some(i);
      }
      i := i + 1;
    }
    return None;
  }

  /** The chunk scan of `GetBuildVersion`: every chunk that chunks in one piece is
      searched, the first match at a non-zero address stops the scan, and an
      unreadable chunk is skipped. */
  method FindPattern(base: Addr, mem: Memory) returns (loc: nat)
    ensures loc == ScanFrom(base, ChunkReads(base, mem), 0)
  {
    loc := 0;
    var c := 0;
    ghost var chunks := ChunkReads(base, mem);
    while c < ChunkCount
      invariant 0 <= c <= ChunkCount
      invariant loc == 0 && ScanFrom(base, chunks, 0) == ScanFrom(base, chunks, c)
    {
      var chunk := mem.Block(ChunkStart(base, c), ChunkSize);
      assert chunks[c] == chunk;
      if chunk.Some? {
        var found := SearchChunk(chunk.value);
        assert ChunkMatch(chunks[c]) == found;
        if found.Some? {
          loc := ChunkStart(base, c) + found.value;
          if loc != 0 {
            assert loc == ScanFrom(base, chunks, c);
            return;
          }
        }
      }
      assert ScanFrom(base, chunks, c) == ScanFrom(base, chunks, c + 1);
      c := c + 1;
    }
  }

  // ---------------------------------------------------------------------
  // GetBuildVersion

  const DisplacementOffset: nat := 20
  const BuildStringLength: nat := 64

  /** `location + relative_offset + 4` in 64-bit unsigned arithmetic. */
  function StringAddress(location: Addr, rel: int): (a: nat)
    ensures a < 0x1_0000_0000_0000_0000
    ensures 0 <= location + rel + 4 < 0x1_0000_0000_0000_0000 ==> a == location + rel + 4
  {
    (location + rel + 4) % 0x1_0000_0000_0000_0000
  }

  /** The build number read from the image once the pattern scan has
      returned `loc`: 0 when nothing was found, when the displacement or the
      string cannot be read, or when the date is unknown. */
  function BuildAt(loc: nat, mem: Memory): int
  {
    if loc == 0 then 0
    else
      var rel := mem.Int32(loc + DisplacementOffset);
      if rel.None? then 0
      else
        var s := mem.Block(StringAddress(loc + DisplacementOffset, rel.value), BuildStringLength);
        if s.None? then 0 else DateToBuild(s.value)
  }

  /** The build number read from the game image at `base`. */
  function BuildFromImage(base: Addr, mem: Memory): int
  {
    BuildAt(ScanFrom(base, ChunkReads(base, mem), 0), mem)
  }

  /** Lines after the scan in `GetBuildVersion`: the displacement is read
      20 bytes past the match, the string address computed from it, 64 bytes
      read there, the last set to NUL, and the date chain applied. */
  method ReadBuildAt(loc: nat, mem: Memory) returns (build: int)
    ensures build == BuildAt(loc, mem)
    ensures build == 0 || HasOffsets(build)
  {
    if loc == 0 {
      return 0;
    }
    var location := loc + DisplacementOffset;
    var rel := mem.Int32(location);
    if rel.None? {
      return 0;
    }
    var s := mem.Block(StringAddress(location, rel.value), BuildStringLength);
    if s.None? {
      return 0;
    }
    build := DecodeBuildString(s.value);
    assert BuildAt(loc, mem) == DateToBuild(s.value) by {
      assert mem.Int32(loc + DisplacementOffset) == rel;
    }
  }

  /** The 64-byte string with its last byte set to NUL, mapped by the date
      chain to 0 or to a build that has offsets. */
  method DecodeBuildString(s: seq<Byte>) returns (build: int)
    requires |s| == BuildStringLength
    ensures build == DateToBuild(s)
    ensures build == 0 || HasOffsets(build)
  {
    var text := s[BuildStringLength - 1 := 0];
    build := DateToBuild(text);
    NulKeepsDate(s);
    DetectedBuildHasOffsets(s);
  }

  /** `GetBuildVersion`: 0 on any failure, otherwise the build the date selects. */
  method GetBuildVersion(base: Addr, mem: Memory) returns (build: int)
    ensures build == BuildFromImage(base, mem)
    ensures build == 0 || HasOffsets(build)
  {
    var loc := FindPattern(base, mem);
    build := ReadBuildAt(loc, mem);
  }

  /** The NUL written into the last byte leaves the date, and so the build, alone. */
  lemma NulKeepsDate(s: seq<Byte>)
    requires |s| == BuildStringLength
    ensures DateToBuild(s[BuildStringLength - 1 := 0]) == DateToBuild(s)
  {
    var text := s[BuildStringLength - 1 := 0];
    assert text[..11] == s[..11];
    SameDate(text, s, 0);
  }

  /** Two strings with the same first 11 bytes select the same build. */
  lemma {:induction false} SameDate(s: seq<Byte>, t: seq<Byte>, k: nat)
    requires |s| >= 11 && |t| >= 11 && k <= |DateRules|
    requires s[..11] == t[..11]
    ensures DateToBuildFrom(s, k) == DateToBuildFrom(t, k)
    decreases |DateRules| - k
  {
    if k < |DateRules| {
      DateRulesWellFormed(k);
      forall j | 0 <= j < 11
        ensures s[j] == t[j]
      {
        assert s[j] == s[..11][j] && t[j] == t[..11][j];
      }
      assert PrefixMatches(s, DateRules[k]) <==> PrefixMatches(t, DateRules[k]);
      SameDate(s, t, k + 1);
    }
  }
}

=== FILE: ped_cache.dfy ===
// The ped state cache (`PedCacheManager`): one record per ped address,
// refreshed every frame with positions (`fastCache`) and every 5 s with
// health, player info and network id (`slowCache`), and swept of invalid or
// stale records.

module PedCache {
  import opened Remote
  import BoneCaches

  /** Offset of the network id inside `CPlayerInfo`. */
  const PlayerNetId: nat := 0xE8

  // Intervals, in milliseconds.
  const SlowCacheIntervalMs: int := 5000
  const AbsentInvalidateMs: int := 10000
  const StaleEraseMs: int := 15000

  /** One ped's record. `lastUpdate` is the time of the last position write. */
  datatype PedData = PedData(
    health: real,
    position: Vec3,
    playerInfo: nat,
    netId: int,
    playerName: string,
    lastUpdate: nat,
    isValid: bool)

  /** A default-constructed record, stamped with its construction time. */
  function DefaultPed(now: nat): (d: PedData)
    ensures !d.isValid && d.health == 0.0 && d.playerInfo == 0 && d.netId == 0
    ensures d.position == ZeroVec && d.playerName == [] && d.lastUpdate == now
  {
    PedData(0.0, ZeroVec, 0, 0, [], now, false)
  }

  predicate Distinct(s: seq<Addr>)
  {
    forall i, j :: 0 <= i < j < |s| ==> s[i] != s[j]
  }

  // ---------------------------------------------------------------------
  // fastCache, as functions on the table

  /** The record `pedCache[p]` designates: the present one, or a fresh default. */
  function Entry(cache: map<Addr, PedData>, p: Addr, now: nat): PedData
  {
    if p in cache then cache[p] else DefaultPed(now)
  }

  /** The table after the first loop of `fastCache` has handled the first `n`
      (ped, position) pairs. */
  function FrameWrite(cache: map<Addr, PedData>, peds: seq<Addr>, positions: seq<Vec3>, n: nat, now: nat): map<Addr, PedData>
    requires n <= |peds| && n <= |positions|
  {
    if n == 0 then cache
    else
      var c := FrameWrite(cache, peds, positions, n - 1, now);
      c[peds[n - 1] := Entry(c, peds[n - 1], now).(position := positions[n - 1], lastUpdate := now, isValid := true)]
  }

  /** An entry of the frame is present, valid and stamped now; its position is
      that of its last occurrence among the first `n` pairs. */
  lemma {:induction false} FrameWriteStamps(cache: map<Addr, PedData>, peds: seq<Addr>, positions: seq<Vec3>, n: nat, now: nat, i: nat)
    requires n <= |peds| && n <= |positions| && i < n
    ensures var r := FrameWrite(cache, peds, positions, n, now);
      peds[i] in r && r[peds[i]].isValid && r[peds[i]].lastUpdate == now
      && ((forall j :: i < j < n ==> peds[j] != peds[i]) ==> r[peds[i]].position == positions[i])
  {
    if i < n - 1 {
      FrameWriteStamps(cache, peds, positions, n - 1, now, i);
    }
  }

  /** A ped outside the first `n` pairs keeps its record, and stays absent if absent. */
  lemma {:induction false} FrameWriteKeeps(cache: map<Addr, PedData>, peds: seq<Addr>, positions: seq<Vec3>, n: nat, now: nat, p: Addr)
    requires n <= |peds| && n <= |positions|
    requires forall j :: 0 <= j < n ==> peds[j] != p
    ensures var r := FrameWrite(cache, peds, positions, n, now);
      (p in r <==> p in cache) && (p in r ==> r[p] == cache[p])
  {
    if n > 0 {
      FrameWriteKeeps(cache, peds, positions, n - 1, now, p);
    }
  }

  /** The first loop only inserts: every key survives. */
  lemma {:induction false} FrameWriteGrows(cache: map<Addr, PedData>, peds: seq<Addr>, positions: seq<Vec3>, n: nat, now: nat)
    requires n <= |peds| && n <= |positions|
    ensures var r := FrameWrite(cache, peds, positions, n, now);
      forall p :: p in r <==> p in cache || p in peds[..n]
  {
    if n > 0 {
      FrameWriteGrows(cache, peds, positions, n - 1, now);
      assert peds[..n] == peds[..n - 1] + [peds[n - 1]];
    }
  }

  /** The second loop of `fastCache` for one entry: a ped missing from the frame
      whose last update is more than 10 s old is marked invalid. */
  function AgedEntry(d: PedData, p: Addr, peds: seq<Addr>, now: nat): PedData
  {
    if p !in peds && now - d.lastUpdate > AbsentInvalidateMs then d.(isValid := false) else d
  }

  function AgeOut(cache: map<Addr, PedData>, peds: seq<Addr>, now: nat): (r: map<Addr, PedData>)
    ensures r.Keys == cache.Keys
  {
    map p | p in cache :: AgedEntry(cache[p], p, peds, now)
  }

  function FastCached(cache: map<Addr, PedData>, peds: seq<Addr>, positions: seq<Vec3>, now: nat): map<Addr, PedData>
  {
    var n := if |peds| <= |positions| then |peds| else |positions|;
    AgeOut(FrameWrite(cache, peds, positions, n, now), peds, now)
  }

  /** `fastCache` never erases: the table afterwards holds the old keys and the
      frame's first min(|peds|, |positions|) peds, and nothing else. Every one of
      those peds is valid and stamped now, with its position from the frame. */
  lemma FastCacheFrame(cache: map<Addr, PedData>, peds: seq<Addr>, positions: seq<Vec3>, now: nat, i: nat)
    requires i < |peds| && i < |positions|
    ensures var r := FastCached(cache, peds, positions, now);
      var n := if |peds| <= |positions| then |peds| else |positions|;
      (forall p :: p in r <==> p in cache || p in peds[..n])
      && peds[i] in r && r[peds[i]].isValid && r[peds[i]].lastUpdate == now
      && ((forall j :: i < j < n ==> peds[j] != peds[i]) ==> r[peds[i]].position == positions[i])
  {
    var n := if |peds| <= |positions| then |peds| else |positions|;
    FrameWriteGrows(cache, peds, positions, n, now);
    FrameWriteStamps(cache, peds, positions, n, now, i);
  }

  /** A ped absent from the frame keeps its record, except that it is marked
      invalid once its last update is more than 10 s old. */
  lemma FastCacheAbsent(cache: map<Addr, PedData>, peds: seq<Addr>, positions: seq<Vec3>, now: nat, p: Addr)
    requires p in cache && p !in peds
    ensures var r := FastCached(cache, peds, positions, now);
      p in r
      && (now - cache[p].lastUpdate > AbsentInvalidateMs ==> r[p] == cache[p].(isValid := false))
      && (now - cache[p].lastUpdate <= AbsentInvalidateMs ==> r[p] == cache[p])
  {
    var n := if |peds| <= |positions| then |peds| else |positions|;
    FrameWriteKeeps(cache, peds, positions, n, now, p);
  }

  // ---------------------------------------------------------------------
  // slowCache and cleanup, as functions on the table

  /** The two reads the first batch of `slowCache` issues per ped. */
  function HealthInfoRequests(off: GameOffsets): Addr -> seq<Request>
  {
    (p: Addr) => [FloatReq(p + off.playerHealth), PtrReq(p + off.playerInfo)]
  }

  /** The second batch's read for a ped: none when its player info is null. */
  function NetIdRequest(info: nat): seq<Request>
  {
    if info != 0 then [Int32Req(info + PlayerNetId)] else []
  }

  /** The player-info pointer the first batch leaves for `p` (0 if unread). */
  function InfoOf(p: Addr, mem: Memory, off: GameOffsets): nat
  {
    mem.PtrAt(p + off.playerInfo, 0)
  }

  function InfosOf(ids: seq<Addr>, mem: Memory, off: GameOffsets): (r: seq<nat>)
    ensures |r| == |ids| && forall i :: 0 <= i < |ids| ==> r[i] == InfoOf(ids[i], mem, off)
  {
    seq(|ids|, i requires 0 <= i < |ids| => InfoOf(ids[i], mem, off))
  }

  /** The network id the second batch leaves (0 when unread or when the player
      info is null). */
  function NetIdOf(info: nat, mem: Memory): (r: int)
    ensures info == 0 ==> r == 0
    ensures -0x8000_0000 <= r < 0x8000_0000
  {
    if info == 0 then 0
    else match mem.Int32(info + PlayerNetId)
      case None => 0
      case Some(v) => v
  }

  /** The record `slowCache` writes back for ped `p`. */
  function Refreshed(d: PedData, p: Addr, mem: Memory, off: GameOffsets): (r: PedData)
    ensures r.playerInfo == 0 ==> r.netId == 0
    ensures r.position == d.position && r.lastUpdate == d.lastUpdate && r.isValid == d.isValid
    ensures r.playerName == d.playerName
  {
    var info := InfoOf(p, mem, off);
    d.(health := mem.FloatAt(p + off.playerHealth, 0.0), playerInfo := info, netId := NetIdOf(info, mem))
  }

  /** The first `n` listed peds have been refreshed in `cache`, which otherwise
      still holds `start`. */
  ghost predicate RefreshedPrefix(cache: map<Addr, PedData>, start: map<Addr, PedData>, ids: seq<Addr>, n: nat,
                                  mem: Memory, off: GameOffsets)
    requires n <= |ids|
  {
    cache.Keys == start.Keys
    && forall p :: p in start ==>
      cache[p] == if p in ids[..n] then Refreshed(start[p], p, mem, off) else start[p]
  }

  /** Refreshing the next listed ped extends the prefix by one. */
  lemma RefreshStep(cache: map<Addr, PedData>, start: map<Addr, PedData>, ids: seq<Addr>, n: nat,
                    mem: Memory, off: GameOffsets)
    requires n < |ids| && RefreshedPrefix(cache, start, ids, n, mem, off)
    ensures var next := if ids[n] in cache then cache[ids[n] := Refreshed(cache[ids[n]], ids[n], mem, off)] else cache;
      RefreshedPrefix(next, start, ids, n + 1, mem, off)
  {
    assert ids[..n + 1] == ids[..n] + [ids[n]];
  }

  /** The table after `slowCache`'s write loop: every record valid at its start
      is refreshed; the others are untouched. */
  function SlowRefresh(cache: map<Addr, PedData>, mem: Memory, off: GameOffsets): (r: map<Addr, PedData>)
    ensures r.Keys == cache.Keys
    ensures forall p :: p in cache && !cache[p].isValid ==> r[p] == cache[p]
    ensures forall p :: p in cache && cache[p].isValid ==>
      r[p].isValid && (r[p].playerInfo == 0 ==> r[p].netId == 0)
  {
    map p | p in cache :: if cache[p].isValid then Refreshed(cache[p], p, mem, off) else cache[p]
  }

  /** Refreshing exactly the valid records of `start` is the slow refresh. */
  lemma RefreshIsSlowRefresh(cache: map<Addr, PedData>, start: map<Addr, PedData>, ids: seq<Addr>,
                             mem: Memory, off: GameOffsets)
    requires RefreshedPrefix(cache, start, ids, |ids|, mem, off)
    requires forall p :: p in ids <==> p in start && start[p].isValid
    ensures cache == SlowRefresh(start, mem, off)
  {
    assert ids[..|ids|] == ids;
    var r := SlowRefresh(start, mem, off);
    assert forall p :: p in cache ==> cache[p] == r[p];
  }

  /** `cleanup`'s keep test. */
  predicate Fresh(d: PedData, now: nat)
  {
    d.isValid && now - d.lastUpdate <= StaleEraseMs
  }

  function Cleaned(cache: map<Addr, PedData>, now: nat): (r: map<Addr, PedData>)
    ensures forall p :: p in r <==> p in cache && Fresh(cache[p], now)
    ensures forall p :: p in r ==> r[p] == cache[p] && r[p].isValid
  {
    map p | p in cache && Fresh(cache[p], now) :: cache[p]
  }

  /** A second sweep at the same instant erases nothing more. */
  lemma CleanedIdempotent(cache: map<Addr, PedData>, now: nat)
    ensures Cleaned(Cleaned(cache, now), now) == Cleaned(cache, now)
  {
  }

  // ---------------------------------------------------------------------
  // The manager

  class PedCacheManager {
    var pedCache: map<Addr, PedData>
    var lastSlowUpdate: nat

    constructor (now: nat)
      ensures pedCache == map[] && lastSlowUpdate == now
    {
      pedCache := map[];
      lastSlowUpdate := now;
    }

    /** `initialize`: restarts the slow-refresh clock. */
    method Initialize(now: nat)
      modifies this`lastSlowUpdate
      ensures lastSlowUpdate == now
    {
      lastSlowUpdate := now;
    }

    /** The addresses of the valid records. */
    ghost function ValidIds(): set<Addr>
      reads this
    {
      set p | p in pedCache && pedCache[p].isValid
    }

    /** `getPedData`: the record, if present and valid. */
    function GetPedData(pedId: Addr): (r: Option<PedData>)
      reads this
      ensures r.Some? <==> pedId in pedCache && pedCache[pedId].isValid
      ensures r.Some? ==> r.value == pedCache[pedId]
    {
      if pedId in pedCache && pedCache[pedId].isValid then Some(pedCache[pedId]) else None
    }

    /** `getValidPedIds`: every valid key exactly once, in the table's own
        iteration order (left unspecified). */
    method GetValidPedIds() returns (ids: seq<Addr>)
      ensures forall p :: p in ids <==> p in pedCache && pedCache[p].isValid
      ensures Distinct(ids)
    {
      ids := [];
      var unvisited := pedCache.Keys;
      while unvisited != {}
        invariant unvisited <= pedCache.Keys
        invariant forall p :: p in ids <==> p in pedCache && pedCache[p].isValid && p !in unvisited
        invariant Distinct(ids)
        decreases unvisited
      {
        var p :| p in unvisited;
        if pedCache[p].isValid {
          ids := ids + [p];
        }
        unvisited := unvisited - {p};
      }
    }

    function GetCacheSize(): nat
      reads this
    {
      |pedCache|
    }

    /** `updatePedPosition`: creates or overwrites a valid record stamped now. */
    method UpdatePedPosition(pedId: Addr, position: Vec3, now: nat)
      modifies this`pedCache
      ensures pedCache == old(pedCache)[pedId := Entry(old(pedCache), pedId, now).(position := position, lastUpdate := now, isValid := true)]
      ensures GetPedData(pedId).Some? && pedCache[pedId].position == position && pedCache[pedId].lastUpdate == now
    {
      var d := Entry(pedCache, pedId, now);
      pedCache := pedCache[pedId := d.(position := position, lastUpdate := now, isValid := true)];
    }

    /** `updatePedHealth`: only an existing record is touched. */
    method UpdatePedHealth(pedId: Addr, health: real, now: nat)
      modifies this`pedCache
      ensures pedId !in old(pedCache) ==> pedCache == old(pedCache)
      ensures pedId in old(pedCache) ==>
        pedCache == old(pedCache)[pedId := old(pedCache)[pedId].(health := health, lastUpdate := now)]
    {
      if pedId in pedCache {
        pedCache := pedCache[pedId := pedCache[pedId].(health := health, lastUpdate := now)];
      }
    }

    method RemovePed(pedId: Addr)
      modifies this`pedCache
      ensures pedCache == old(pedCache) - {pedId}
    {
      pedCache := pedCache - {pedId};
    }

    method ClearCache()
      modifies this`pedCache
      ensures GetCacheSize() == 0 && ValidIds() == {}
    {
      pedCache := map[];
    }

    /** `manualCache`: empties the table and restarts the slow-refresh clock. */
    method ManualCache(now: nat)
      modifies this
      ensures GetCacheSize() == 0 && ValidIds() == {} && lastSlowUpdate == now
    {
      pedCache := map[];
      lastSlowUpdate := now;
    }

    /** `cleanup`: erases exactly the invalid records and those last updated more
        than 15 s ago. */
    method Cleanup(now: nat)
      modifies this`pedCache
      ensures pedCache == Cleaned(old(pedCache), now)
    {
      ghost var start := pedCache;
      var unvisited := pedCache.Keys;
      while unvisited != {}
        invariant unvisited <= start.Keys
        invariant forall p :: p in pedCache <==> p in start && (p in unvisited || Fresh(start[p], now))
        invariant forall p :: p in pedCache ==> pedCache[p] == start[p]
        decreases unvisited
      {
        var p :| p in unvisited;
        if !pedCache[p].isValid || now - pedCache[p].lastUpdate > StaleEraseMs {
          pedCache := pedCache - {p};
        }
        unvisited := unvisited - {p};
      }
    }

    /** The inner search of `fastCache`'s second loop. */
    static method FoundInFrame(peds: seq<Addr>, p: Addr) returns (found: bool)
      ensures found <==> p in peds
    {
      found := false;
      var j := 0;
      while j < |peds|
        invariant 0 <= j <= |peds|
        invariant found <==> p in peds[..j]
      {
        if peds[j] == p {
          found := true;
          break;
        }
        j := j + 1;
      }
      assert found || peds[..|peds|] == peds;
    }

    /** `fastCache`: writes the frame's positions, then ages out the records the
        frame does not mention. */
    method FastCache(validPeds: seq<Addr>, positions: seq<Vec3>, now: nat)
      modifies this`pedCache
      ensures pedCache == FastCached(old(pedCache), validPeds, positions, now)
    {
      ghost var start := pedCache;
      var i := 0;
      while i < |validPeds| && i < |positions|
        invariant 0 <= i <= |validPeds| && i <= |positions|
        invariant pedCache == FrameWrite(start, validPeds, positions, i, now)
      {
        var d := Entry(pedCache, validPeds[i], now);
        pedCache := pedCache[validPeds[i] := d.(position := positions[i], lastUpdate := now, isValid := true)];
        i := i + 1;
      }
      ghost var written := pedCache;
      assert written == FrameWrite(start, validPeds, positions, if |validPeds| <= |positions| then |validPeds| else |positions|, now);
      var unvisited := pedCache.Keys;
      while unvisited != {}
        invariant unvisited <= written.Keys && pedCache.Keys == written.Keys
        invariant forall p :: p in written ==>
          pedCache[p] == if p in unvisited then written[p] else AgedEntry(written[p], p, validPeds, now)
        decreases unvisited
      {
        var p :| p in unvisited;
        var found := FoundInFrame(validPeds, p);
        if !found && now - pedCache[p].lastUpdate > AbsentInvalidateMs {
          pedCache := pedCache[p := pedCache[p].(isValid := false)];
        }
        unvisited := unvisited - {p};
      }
    }

    /** `slowCache`'s write loop: each listed ped still in the table receives
        the values the two batches left for it. */
    method WriteRefreshed(ids: seq<Addr>, mem: Memory, off: GameOffsets)
      modifies this`pedCache
      ensures pedCache.Keys == old(pedCache).Keys
      ensures forall p :: p in old(pedCache) ==>
        pedCache[p] == if p in ids then Refreshed(old(pedCache)[p], p, mem, off) else old(pedCache)[p]
    {
      ghost var start := pedCache;
      var healths := seq(|ids|, i requires 0 <= i < |ids| => mem.FloatAt(ids[i] + off.playerHealth, 0.0));
      var infos := InfosOf(ids, mem, off);
      var netIds := seq(|ids|, i requires 0 <= i < |ids| => NetIdOf(infos[i], mem));
      var i := 0;
      while i < |ids|
        invariant 0 <= i <= |ids|
        invariant RefreshedPrefix(pedCache, start, ids, i, mem, off)
      {
        ghost var before := pedCache;
        if ids[i] in pedCache {
          pedCache := pedCache[ids[i] := pedCache[ids[i]].(health := healths[i], playerInfo := infos[i], netId := netIds[i])];
          assert pedCache == before[ids[i] := Refreshed(before[ids[i]], ids[i], mem, off)];
        }
        RefreshStep(before, start, ids, i, mem, off);
        i := i + 1;
      }
      assert ids[..|ids|] == ids;
    }

    /** `slowCache`: the valid peds' health and player info in one execution, their
        network ids in a second, dependent one, then the bone cache's batch
        refresh, then `cleanup` (which runs even when no record is valid).
        `ids` is the order in which the table listed the valid peds. */
    method SlowCache(now: nat, off: GameOffsets, gw: Gateway, stats: BoneCaches.EspStats,
                     bc: BoneCaches.BoneCache, xf: Transform)
      returns (ghost ids: seq<Addr>)
      modifies this`pedCache, gw, stats, bc`entries
      ensures Distinct(ids) && (forall p :: p in ids <==> p in old(ValidIds()))
      ensures pedCache == Cleaned(SlowRefresh(old(pedCache), gw.mem, off), now)
      ensures ids == [] ==> gw.batches == old(gw.batches) && bc.entries == old(bc.entries)
      ensures ids != [] ==>
        gw.batches == old(gw.batches)
          + [Gather(ids, HealthInfoRequests(off)), Gather(InfosOf(ids, gw.mem, off), NetIdRequest)]
          + [Gather(ids, BoneCaches.HeadRequests)]
        && bc.entries == BoneCaches.HeadWriteBack(old(bc.entries), BoneCaches.HeadRecords(ids, gw.mem), xf, now)
    ensures stats.Counters() == old(stats.Counters()).Plus(BoneCaches.Tally(0, 0, 2 * |ids|, 0))
    ensures stats.lastReset == old(stats.lastReset)
    {
      var pedIds := GetValidPedIds();
      ids := pedIds;
      if pedIds != [] {
        RefreshValid(pedIds, off, gw);
        BoneCaches.BatchUpdateBoneCache(pedIds, gw, stats, bc, xf, now);
      } else {
        RefreshIsSlowRefresh(pedCache, pedCache, [], gw.mem, off);
      }
      Cleanup(now);
    }

    /** The two reads of `slowCache` and its write loop, for the listed valid
        peds: health and player info, then the network ids behind the infos. */
    method RefreshValid(ids: seq<Addr>, off: GameOffsets, gw: Gateway)
      requires forall p :: p in ids <==> p in pedCache && pedCache[p].isValid
      modifies this`pedCache, gw
      ensures pedCache == SlowRefresh(old(pedCache), gw.mem, off)
      ensures gw.batches == old(gw.batches)
        + [Gather(ids, HealthInfoRequests(off)), Gather(InfosOf(ids, gw.mem, off), NetIdRequest)]
    {
      var reqs := BuildRequests(ids, HealthInfoRequests(off));
      gw.Execute(reqs);
      var infos := InfosOf(ids, gw.mem, off);
      var netReqs := BuildRequests(infos, NetIdRequest);
      gw.Execute(netReqs);
      ghost var start := pedCache;
      WriteRefreshed(ids, gw.mem, off);
      assert ids[..|ids|] == ids;
      RefreshIsSlowRefresh(pedCache, start, ids, gw.mem, off);
    }

    /** `update`: runs the slow refresh once at least 5 s have passed since the
        last one. */
    method Update(now: nat, off: GameOffsets, gw: Gateway, stats: BoneCaches.EspStats,
                  bc: BoneCaches.BoneCache, xf: Transform)
      returns (ghost ids: seq<Addr>)
      modifies this, gw, stats, bc`entries
      ensures now - old(lastSlowUpdate) >= SlowCacheIntervalMs ==>
        lastSlowUpdate == now && pedCache == Cleaned(SlowRefresh(old(pedCache), gw.mem, off), now)
      // When it fires, the whole of `slowCache`'s effect, over the valid peds
      // in the order the table listed them.
      ensures now - old(lastSlowUpdate) >= SlowCacheIntervalMs ==>
        Distinct(ids) && (forall p :: p in ids <==> p in old(ValidIds()))
        && (ids == [] ==> gw.batches == old(gw.batches) && bc.entries == old(bc.entries))
        && (ids != [] ==>
              gw.batches == old(gw.batches)
                + [Gather(ids, HealthInfoRequests(off)), Gather(InfosOf(ids, gw.mem, off), NetIdRequest)]
                + [Gather(ids, BoneCaches.HeadRequests)]
              && bc.entries == BoneCaches.HeadWriteBack(old(bc.entries), BoneCaches.HeadRecords(ids, gw.mem), xf, now))
        && stats.Counters() == old(stats.Counters()).Plus(BoneCaches.Tally(0, 0, 2 * |ids|, 0))
      ensures now - old(lastSlowUpdate) < SlowCacheIntervalMs ==>
        lastSlowUpdate == old(lastSlowUpdate) && pedCache == old(pedCache)
        && gw.batches == old(gw.batches) && bc.entries == old(bc.entries) && stats.Counters() == old(stats.Counters())
      ensures stats.lastReset == old(stats.lastReset)
    {
      ids := [];
      if now - lastSlowUpdate >= SlowCacheIntervalMs {
        ids := SlowCache(now, off, gw, stats, bc, xf);
        lastSlowUpdate := now;
      }
    }
  }
}

=== FILE: remote.dfy ===
// The remote-memory gateway the overlay reads the game through, reduced to
// what the cache logic depends on: a snapshot of the target's memory in which
// every typed read either succeeds or leaves its destination untouched, and a
// scatter handle whose every execution is one round trip.

module Remote {

  type Addr = nat
  type Byte = b: int | 0 <= b < 256

  datatype Option<T> = None | Some(value: T)

  /** A 3-component position (`Vec3` / SimpleMath `Vector3`); default-constructed as zero. */
  datatype Vec3 = Vec3(x: real, y: real, z: real)

  const ZeroVec: Vec3 := Vec3(0.0, 0.0, 0.0)

  /** A 4x4 transform, row-major; SimpleMath's default constructor yields the identity. */
  datatype Matrix = Matrix(cells: seq<real>)

  const Identity: Matrix := Matrix([1.0, 0.0, 0.0, 0.0,
                                     0.0, 1.0, 0.0, 0.0,
                                     0.0, 0.0, 1.0, 0.0,
                                     0.0, 0.0, 0.0, 1.0])

  /** `XMVector3Transform`: a foreign floating-point routine, kept uninterpreted by
      passing it around as a value. */
  type Transform = (Vec3, Matrix) -> Vec3

  /** The target process's memory as seen by one frame: each typed view is a
      partial map, and an address outside a view's domain is a read that fails. */
  datatype Memory = Memory(
    ptrs: map<Addr, nat>,       // 8-byte pointers
    floats: map<Addr, real>,    // 4-byte floats (health)
    vecs: map<Addr, Vec3>,      // 12-byte vectors
    mats: map<Addr, Matrix>,    // 64-byte matrices
    bytes: map<Addr, Byte>)     // raw bytes (frame counters, code, strings, ints)
  {
    /** A scatter read of a pointer into a buffer that held `prior`. */
    function PtrAt(a: Addr, prior: nat): (r: nat)
      ensures a !in ptrs ==> r == prior
    {
      if a in ptrs then ptrs[a] else prior
    }

    function FloatAt(a: Addr, prior: real): (r: real)
      ensures a !in floats ==> r == prior
    {
      if a in floats then floats[a] else prior
    }

    function VecAt(a: Addr, prior: Vec3): (r: Vec3)
      ensures a !in vecs ==> r == prior
    {
      if a in vecs then vecs[a] else prior
    }

    function MatAt(a: Addr, prior: Matrix): (r: Matrix)
      ensures a !in mats ==> r == prior
    {
      if a in mats then mats[a] else prior
    }

    function ByteAt(a: Addr, prior: Byte): (r: Byte)
      ensures a !in bytes ==> r == prior
    {
      if a in bytes then bytes[a] else prior
    }

    /** A plain `Read` of `n` consecutive bytes: all of them or a failure. */
    function Block(a: Addr, n: nat): (r: Option<seq<Byte>>)
      ensures r.Some? ==> |r.value| == n
      ensures r.Some? <==> forall k :: a <= k < a + n ==> k in bytes
    {
      if forall k :: a <= k < a + n ==> k in bytes then Some(seq(n, i requires 0 <= i < n => bytes[a + i]))
      else None
    }

    /** A signed little-endian 32-bit read of the four bytes at `a`. */
    function Int32(a: Addr): (r: Option<int>)
      ensures r.Some? ==> -0x8000_0000 <= r.value < 0x8000_0000
    {
      match Block(a, 4)
      case None => None
      case Some(b) =>
        var u: int := b[0] as int + 0x100 * (b[1] as int) + 0x1_0000 * (b[2] as int) + 0x100_0000 * (b[3] as int);
        Some(if u < 0x8000_0000 then u else u - 0x1_0000_0000)
    }
  }

  /** The `FiveM::offset` globals the core reads through: addresses resolved at
      start-up and per-build field offsets. */
  datatype GameOffsets = GameOffsets(
    replay: Addr,          // the replay interface global
    viewport: Addr,        // the viewport global
    localPlayer: Addr,     // the local player's ped
    playerInfo: nat,       // ped -> CPlayerInfo
    playerHealth: nat,     // ped -> health float
    playerPosition: nat)   // ped -> position vector

  /** One entry of a scatter handle: what is read, and from where. */
  datatype Request =
    | PtrReq(addr: Addr)
    | FloatReq(addr: Addr)
    | Int32Req(addr: Addr)
    | VecReq(addr: Addr)
    | MatReq(addr: Addr)
    | ByteReq(addr: Addr)
    | PtrArrayReq(addr: Addr, count: nat)

  /** The requests `f(s[0]) + f(s[1]) + ...`, built left to right as the source's
      request loops build them. */
  function Gather<T>(s: seq<T>, f: T -> seq<Request>): (r: seq<Request>)
    ensures s == [] ==> r == []
  {
    if s == [] then [] else Gather(s[..|s| - 1], f) + f(s[|s| - 1])
  }

  lemma GatherSnoc<T>(s: seq<T>, x: T, f: T -> seq<Request>)
    ensures Gather(s + [x], f) == Gather(s, f) + f(x)
  {
    assert (s + [x])[..|s + [x]| - 1] == s;
  }

  /** The request-building loops: `f(x)` added for each `x` of `s`, in order. */
  method BuildRequests<T>(s: seq<T>, f: T -> seq<Request>) returns (reqs: seq<Request>)
    ensures reqs == Gather(s, f)
  {
    reqs := [];
    var i := 0;
    while i < |s|
      invariant 0 <= i <= |s|
      invariant reqs == Gather(s[..i], f)
    {
      GatherSnoc(s[..i], s[i], f);
      assert s[..i + 1] == s[..i] + [s[i]];
      reqs := reqs + f(s[i]);
      i := i + 1;
    }
    assert s[..|s|] == s;
  }

  /** The scatter gateway. `batches` records, in order, the request list of every
      `ExecuteReadScatter`: each execution is one round trip to the target. The
      value a request leaves in its destination is the snapshot `mem`'s answer. */
  class Gateway {
    const mem: Memory
    ghost var batches: seq<seq<Request>>

    constructor (m: Memory)
      ensures mem == m && batches == []
    {
      mem := m;
      batches := [];
    }

    method Execute(reqs: seq<Request>)
      modifies this
      ensures batches == old(batches) + [reqs]
    {
      batches := batches + [reqs];
    }
  }
}

=== FILE: serial_port.dfy ===
// The device's serial link: command framing, command-id generation, the
// pending-command table that correlates "#id:result" responses with commands,
// the listener's byte-stream line assembly, button-mask change reporting and
// the timeout sweep. The Win32 port itself is reduced to an oracle that says
// whether the n-th write succeeds; the listener thread becomes a method that
// consumes one read's bytes.

module SerialPort {
  import opened Text

  datatype Option<T> = None | Some(value: T)

  // ---------------------------------------------------------------------
  // Constants

  /** `uint8_t`. */
  type Byte = b: int | 0 <= b < 256

  const CR: Byte := 0x0D
  const LF: Byte := 0x0A
  /** `LINE_BUFFER_SIZE - 1`: the longest line the listener keeps. */
  const LineCapacity: nat := 255
  const CleanupIntervalMs: nat := 50
  /** `sendTrackedCommand`'s default timeout. */
  const DefaultTimeoutMs: nat := 100
  const IdModulus: nat := 10000

  // ---------------------------------------------------------------------
  // Records

  datatype PendingCommand = PendingCommand(id: int, command: string, expectResponse: bool, timestamp: nat, timeout: nat)

  /** How a command's promise is completed: with a response or an exception. */
  datatype Outcome = Response(text: string) | Failed(reason: string)
  datatype Completion = Completion(id: int, outcome: Outcome)

  /** One call of the button callback: the bit (0-4) and whether it is now set. */
  datatype ButtonEvent = ButtonEvent(bit: nat, pressed: bool)

  function Failures(ids: seq<int>, reason: string): (cs: seq<Completion>)
    ensures |cs| == |ids|
    ensures forall i :: 0 <= i < |ids| ==> cs[i] == Completion(ids[i], Failed(reason))
  {
    seq(|ids|, i requires 0 <= i < |ids| => Completion(ids[i], Failed(reason)))
  }

  predicate Distinct(ids: seq<int>)
  {
    forall i, j :: 0 <= i < j < |ids| ==> ids[i] != ids[j]
  }

  /** A list of distinct ids is as long as the set of its ids. */
  lemma {:induction false} DistinctCard(ids: seq<int>, s: set<int>)
    requires Distinct(ids) && forall k :: k in ids <==> k in s
    ensures |ids| == |s|
  {
    if ids != [] {
      var n := |ids| - 1;
      var last := ids[n];
      forall k
        ensures k in ids[..n] <==> k in s - {last}
      {
        if k in ids[..n] {
          var i :| 0 <= i < n && ids[..n][i] == k;
          assert ids[i] == k;
        }
        if k in s - {last} {
          var i :| 0 <= i < |ids| && ids[i] == k;
          assert ids[..n][i] == k;
        }
      }
      DistinctCard(ids[..n], s - {last});
      assert last in s;
    } else {
      forall k | k in s
        ensures false
      {
        assert false;
      }
    }
  }

  // ---------------------------------------------------------------------
  // Command ids

  /** A 32-bit two's-complement wrap, as `std::atomic<int>::fetch_add` does. */
  function Wrap32(v: int): (w: int)
    ensures InInt32(w)
    ensures InInt32(v) ==> w == v
  {
    (v + 0x8000_0000) % 0x1_0000_0000 - 0x8000_0000
  }

  /** C++ `%` on `int`: the remainder takes the sign of the dividend. */
  function CppRem(a: int, b: nat): (r: int)
    requires b > 0
    ensures a >= 0 ==> 0 <= r < b
    ensures a < 0 ==> -(b as int) < r <= 0
  {
    if a >= 0 then a % b else -((-a) % b)
  }

  /** The id `generateCommandId` hands out for a counter value. */
  function CommandId(counter: int): int
  {
    CppRem(counter, IdModulus) + 1
  }

  /** While the counter is non-negative the ids run from 1 to 10000. */
  lemma CommandIdRange(counter: int)
    requires counter >= 0
    ensures 1 <= CommandId(counter) <= IdModulus
  {
  }

  /** Once the counter has wrapped below zero the ids fall into -9998..1. */
  lemma WrappedCommandIdRange(counter: int)
    requires counter < 0
    ensures -9998 <= CommandId(counter) <= 1
  {
  }

  /** Ten thousand consecutive non-negative counters give pairwise different ids. */
  lemma CommandIdsCycle(a: int, b: int)
    requires 0 <= a < b < a + IdModulus
    ensures CommandId(a) != CommandId(b)
  {
    assert a == (a / IdModulus) * IdModulus + a % IdModulus;
    assert b == (b / IdModulus) * IdModulus + b % IdModulus;
  }

  // ---------------------------------------------------------------------
  // Framing

  /** What `sendTrackedCommand` writes: the id is appended only when a
      response is expected. */
  function TrackedFrame(command: string, expectResponse: bool, id: int): string
  {
    if expectResponse then command + "#" + IntToString(id) + "\r\n" else command + "\r\n"
  }

  /** What `sendCommand` writes. */
  function PlainFrame(command: string): string
  {
    command + "\r\n"
  }

  // ---------------------------------------------------------------------
  // Response parsing

  /** The response with a leading ">>> " prompt removed. */
  function StripPrompt(response: string): (content: string)
    ensures |content| <= |response|
  {
    if |response| >= 4 && response[..4] == ">>> " then response[4..] else response
  }

  datatype Tagged = Tagged(id: int, result: string)

  /** "...#id:result": the text after the first '#' up to the first ':' after
      it parses as an integer; `None` when either mark is missing or the id
      does not parse. */
  function ParseTagged(content: string): Option<Tagged>
  {
    var hash := Find(content, '#');
    if hash < 0 then None
    else
      var idStr := content[hash + 1..];
      var colon := Find(idStr, ':');
      if colon < 0 then None
      else match Stoi(idStr[..colon])
        case Parsed(v) => Some(Tagged(v, idStr[colon + 1..]))
        case _ => None
  }

  /** A device echo of a tracked command, "command#id:result" behind an
      optional ">>> " prompt, is correlated with that id and yields that
      result, provided the text before the '#' holds none. */
  lemma TrackedEchoParses(echoed: string, id: int, result: string)
    requires '#' !in echoed && InInt32(id)
    ensures ParseTagged(StripPrompt(echoed + "#" + IntToString(id) + ":" + result)) == Some(Tagged(id, result))
  {
    var rest := IntToString(id) + ":" + result;
    StripBeforeTag(echoed, rest);
    assert echoed + "#" + IntToString(id) + ":" + result == echoed + "#" + rest;
    assert StripPrompt(echoed) + "#" + rest == StripPrompt(echoed) + "#" + IntToString(id) + ":" + result;
    TaggedParses(StripPrompt(echoed), id, result);
  }

  /** The prompt can only be stripped from the text before the '#'. */
  lemma StripBeforeTag(echoed: string, rest: string)
    requires '#' !in echoed
    ensures StripPrompt(echoed + "#" + rest) == StripPrompt(echoed) + "#" + rest
    ensures '#' !in StripPrompt(echoed)
  {
    var echo := echoed + "#" + rest;
    assert echo[|echoed|] == '#';
    if |echoed| < 4 {
      if |echo| >= 4 {
        assert echo[..4][|echoed|] == '#';
      }
    } else {
      assert echo[..4] == echoed[..4];
      assert echo[4..] == echoed[4..] + "#" + rest;
    }
  }

  /** Text with no '#' followed by "#id:result" parses to that id and result. */
  lemma TaggedParses(pre: string, id: int, result: string)
    requires '#' !in pre && InInt32(id)
    ensures ParseTagged(pre + "#" + IntToString(id) + ":" + result) == Some(Tagged(id, result))
  {
    var digits := IntToString(id);
    var tail := digits + [':'] + result;
    var content := pre + ['#'] + tail;
    assert pre + "#" + IntToString(id) + ":" + result == content;
    FindAfterPlain(pre, '#', tail);
    assert content[|pre| + 1..] == tail;
    IdTextHasNoColon(id);
    FindAfterPlain(digits, ':', result);
    assert tail[..|digits|] == digits;
    assert tail[|digits| + 1..] == result;
    StoiIntToString(id);
    assert ParseTagged(content) == Some(Tagged(id, result)) by {
      assert Find(content, '#') == |pre|;
      assert Find(tail, ':') == |digits|;
      assert Stoi(tail[..|digits|]) == Parsed(id);
    }
  }

  lemma FindAfterPlain(s: string, c: char, rest: string)
    requires c !in s
    ensures Find(s + [c] + rest, c) == |s|
  {
    var t := s + [c] + rest;
    assert t[|s|] == c;
    assert forall k :: 0 <= k < |s| ==> t[k] == s[k];
    var r := Find(t, c);
    assert r >= 0 && r <= |s|;
  }

  lemma IdTextHasNoColon(id: int)
    ensures ':' !in IntToString(id)
  {
    var s := IntToString(id);
    if id < 0 {
      assert forall k :: 1 <= k < |s| ==> s[k] == NatToString(-id)[k - 1];
    }
  }

  // ---------------------------------------------------------------------
  // Line assembly

  /** What the listener makes of the bytes it has read: a button mask, or a
      completed line. */
  datatype Action = Button(data: Byte) | Line(text: seq<Byte>)
  datatype Framing = Framing(line: seq<Byte>, actions: seq<Action>)

  /** One byte of the listener loop: control bytes other than CR and LF go to
      button handling, LF ends a non-empty line, CR is dropped, and any other
      byte is kept while the line has room. */
  function Step(line: seq<Byte>, b: Byte): (r: Framing)
    ensures |r.actions| <= 1
  {
    if b < 32 && b != CR && b != LF then Framing(line, [Button(b)])
    else if b == LF then (if |line| > 0 then Framing([], [Line(line)]) else Framing(line, []))
    else if b != CR then (if |line| < LineCapacity then Framing(line + [b], []) else Framing(line, []))
    else Framing(line, [])
  }

  /** The listener loop over the first `n` bytes read, from a partial line. */
  function Scan(line: seq<Byte>, bytes: seq<Byte>, n: nat): Framing
    requires n <= |bytes|
  {
    if n == 0 then Framing(line, [])
    else
      var f := Scan(line, bytes, n - 1);
      var g := Step(f.line, bytes[n - 1]);
      Framing(g.line, f.actions + g.actions)
  }

  /** A line byte is printable: at least 32, so neither CR, LF nor a button mask. */
  predicate PrintableLine(text: seq<Byte>)
  {
    forall i :: 0 <= i < |text| ==> text[i] >= 32
  }

  /** The line buffer never outgrows its capacity, every line handed on is
      non-empty, within capacity and printable, and every button action
      carries a control byte other than CR and LF. */
  lemma {:induction false} ScanShapes(line: seq<Byte>, bytes: seq<Byte>, n: nat)
    requires n <= |bytes| && |line| <= LineCapacity && PrintableLine(line)
    ensures var f := Scan(line, bytes, n);
      |f.line| <= LineCapacity && PrintableLine(f.line)
      && (forall i :: 0 <= i < |f.actions| && f.actions[i].Line? ==>
            0 < |f.actions[i].text| <= LineCapacity && PrintableLine(f.actions[i].text))
      && (forall i :: 0 <= i < |f.actions| && f.actions[i].Button? ==>
            f.actions[i].data < 32 && f.actions[i].data != CR && f.actions[i].data != LF)
  {
    if n > 0 {
      ScanShapes(line, bytes, n - 1);
    }
  }

  /** A byte stream with no line feed hands on no line. */
  lemma {:induction false} NoLineWithoutFeed(line: seq<Byte>, bytes: seq<Byte>, n: nat)
    requires n <= |bytes| && LF !in bytes
    ensures forall i :: 0 <= i < |Scan(line, bytes, n).actions| ==> Scan(line, bytes, n).actions[i].Button?
  {
    if n > 0 {
      NoLineWithoutFeed(line, bytes, n - 1);
    }
  }

  function LineText(text: seq<Byte>): (s: string)
    ensures |s| == |text|
  {
    seq(|text|, i requires 0 <= i < |text| => (text[i] as int) as char)
  }

  // ---------------------------------------------------------------------
  // Button masks

  /** The mask of one bit, `1 << bit`. */
  function BitMask(bit: nat): nat
    requires bit < 8
  {
    match bit
    case 0 => 0x01
    case 1 => 0x02
    case 2 => 0x04
    case 3 => 0x08
    case 4 => 0x10
    case 5 => 0x20
    case 6 => 0x40
    case _ => 0x80
  }

  /** `mask & (1 << bit)` is non-zero. */
  predicate BitSet(mask: Byte, bit: nat)
    requires bit < 8
  {
    (mask / BitMask(bit)) % 2 == 1
  }

  /** The bit is set in one mask and clear in the other: it is set in
      `data ^ last`. */
  predicate Differs(last: Byte, data: Byte, bit: nat)
    requires bit < 8
  {
    BitSet(last, bit) != BitSet(data, bit)
  }

  /** The callback calls for bits 0 to n-1 that differ between the two masks,
      in ascending order, each reporting the bit's new value. */
  function Changed(last: Byte, data: Byte, n: nat): seq<ButtonEvent>
    requires n <= 5
  {
    if n == 0 then []
    else
      Changed(last, data, n - 1)
      + (if Differs(last, data, n - 1) then [ButtonEvent(n - 1, BitSet(data, n - 1))] else [])
  }

  /** Exactly the changed bits among 0-4 are reported, each with its new value. */
  lemma {:induction false} ChangedExactly(last: Byte, data: Byte, n: nat)
    requires n <= 5
    ensures forall b: nat, p :: ButtonEvent(b, p) in Changed(last, data, n) <==>
      b < n && Differs(last, data, b) && p == BitSet(data, b)
  {
    if n > 0 {
      ChangedExactly(last, data, n - 1);
    }
  }

  /** The reports come in ascending bit order, so each bit is reported once. */
  lemma {:induction false} ChangedAscending(last: Byte, data: Byte, n: nat)
    requires n <= 5
    ensures forall e :: e in Changed(last, data, n) ==> e.bit < n
    ensures forall i, j :: 0 <= i < j < |Changed(last, data, n)| ==>
      Changed(last, data, n)[i].bit < Changed(last, data, n)[j].bit
  {
    if n > 0 {
      ChangedAscending(last, data, n - 1);
    }
  }

  /** Removing a present key shrinks a map by one. */
  lemma RemoveOne(m: map<int, PendingCommand>, k: int)
    requires k in m
    ensures |m - {k}| == |m| - 1
  {
    assert (m - {k}).Keys == m.Keys - {k};
  }

  /** Storing under a key grows a map by one unless the key was present. */
  lemma StoreOne(m: map<int, PendingCommand>, k: int, v: PendingCommand)
    ensures |m[k := v]| == if k in m then |m| else |m| + 1
  {
    if k in m {
      assert m[k := v].Keys == m.Keys;
    } else {
      assert m[k := v].Keys == m.Keys + {k};
    }
  }

  /** Removing a key just stored leaves the map as if it had been removed
      from the start. */
  lemma StoreThenRemove(m: map<int, PendingCommand>, k: int, v: PendingCommand)
    ensures m[k := v] - {k} == m - {k}
  {
    assert (m[k := v] - {k}).Keys == (m - {k}).Keys;
  }

  /** A non-empty set has a member. */
  lemma Inhabited(s: set<int>)
    requires s != {}
    ensures exists k :: k in s
  {
    if forall k :: k !in s {
      assert false;
    }
  }

  /** The mask after the button actions of a listener pass. */
  function MaskAfter(mask: Byte, actions: seq<Action>): Byte
  {
    if actions == [] then mask
    else match actions[|actions| - 1]
      case Button(b) => b
      case Line(_) => MaskAfter(mask, actions[..|actions| - 1])
  }

  /** The callback calls made by the button actions of a listener pass. */
  function EventsAfter(mask: Byte, actions: seq<Action>): seq<ButtonEvent>
  {
    if actions == [] then []
    else
      var prefix := actions[..|actions| - 1];
      var m := MaskAfter(mask, prefix);
      EventsAfter(mask, prefix)
      + match actions[|actions| - 1]
        case Button(b) => if b == m then [] else Changed(m, b, 5)
        case Line(_) => []
  }

  /** The completed lines of a listener pass, as text, in order. */
  function LinesOf(actions: seq<Action>): seq<string>
  {
    if actions == [] then []
    else
      LinesOf(actions[..|actions| - 1])
      + match actions[|actions| - 1]
        case Button(_) => []
        case Line(t) => [LineText(t)]
  }

  /** A listener pass split in two: the second part starts from the mask
      the first part left. */
  lemma MaskAfterAppend(mask: Byte, a: seq<Action>, c: seq<Action>)
    requires |c| <= 1
    ensures MaskAfter(mask, a + c) == MaskAfter(MaskAfter(mask, a), c)
  {
    if c != [] {
      assert (a + c)[..|a + c| - 1] == a;
      assert c[..0] == [];
    } else {
      assert a + c == a;
    }
  }

  lemma EventsAfterAppend(mask: Byte, a: seq<Action>, c: seq<Action>)
    requires |c| <= 1
    ensures EventsAfter(mask, a + c) == EventsAfter(mask, a) + EventsAfter(MaskAfter(mask, a), c)
  {
    if c != [] {
      assert (a + c)[..|a + c| - 1] == a;
      assert c[..0] == [];
    } else {
      assert a + c == a;
    }
  }

  /** The listener's event and line folds, extended by the actions of one
      more byte. */
  lemma EventsStep(mask0: Byte, events0: seq<ButtonEvent>, actions: seq<Action>, acts: seq<Action>)
    requires |acts| <= 1
    ensures (events0 + EventsAfter(mask0, actions)) + EventsAfter(MaskAfter(mask0, actions), acts)
         == events0 + EventsAfter(mask0, actions + acts)
  {
    EventsAfterAppend(mask0, actions, acts);
  }

  lemma LinesStep(responses0: seq<string>, actions: seq<Action>, acts: seq<Action>)
    requires |acts| <= 1
    ensures (responses0 + LinesOf(actions)) + LinesOf(acts) == responses0 + LinesOf(actions + acts)
  {
    LinesOfAppend(actions, acts);
  }

  lemma LinesOfAppend(a: seq<Action>, c: seq<Action>)
    requires |c| <= 1
    ensures LinesOf(a + c) == LinesOf(a) + LinesOf(c)
  {
    if c != [] {
      assert (a + c)[..|a + c| - 1] == a;
      assert c[..0] == [];
    } else {
      assert a + c == a;
    }
  }

  // ---------------------------------------------------------------------
  // Timeouts

  /** More milliseconds have passed since the command was stored than its
      own timeout allows. */
  predicate TimedOut(c: PendingCommand, now: nat)
  {
    now - c.timestamp > c.timeout
  }

  /** Part way through the timeout sweep of `table`: `rest` is still to be
      looked at, and of the keys already seen exactly the timed-out ones have
      left `pending` for `ids`. */
  ghost predicate Sweeping(table: map<int, PendingCommand>, now: nat, rest: set<int>,
                           pending: map<int, PendingCommand>, ids: seq<int>)
  {
    && rest <= table.Keys
    && (forall k :: k in pending <==> k in table && (k in rest || !TimedOut(table[k], now)))
    && (forall k :: k in pending ==> pending[k] == table[k])
    && (forall k :: k in ids <==> k in table && k !in rest && TimedOut(table[k], now))
    && Distinct(ids)
    && |ids| + |pending| == |table|
  }

  /** Looking at one more key keeps the sweep's bookkeeping. */
  lemma SweepStep(table: map<int, PendingCommand>, now: nat, rest: set<int>,
                  pending: map<int, PendingCommand>, ids: seq<int>, k: int)
    requires Sweeping(table, now, rest, pending, ids) && k in rest
    ensures k in pending && pending[k] == table[k]
    ensures TimedOut(table[k], now) ==> Sweeping(table, now, rest - {k}, pending - {k}, ids + [k])
    ensures !TimedOut(table[k], now) ==> Sweeping(table, now, rest - {k}, pending, ids)
  {
    if TimedOut(table[k], now) {
      RemoveOne(pending, k);
      assert k !in ids;
    }
  }

  // ---------------------------------------------------------------------
  // The ledger of tracked commands

  /** The listener's part of a port. */
  datatype ListenerState = ListenerState(line: seq<Byte>, mask: Byte, events: seq<ButtonEvent>,
                                         responses: seq<string>, ledger: Ledger)

  /** The listener state after the first `i` bytes of a read from `start`:
      the scan's line buffer, the button folds over its actions, its lines
      appended to the responses, and the ledger folded through them with
      the choices `taken`. */
  function ScanState(start: ListenerState, bytes: seq<Byte>, i: nat, taken: seq<Option<int>>): ListenerState
    requires i <= |bytes|
  {
    var f := Scan(start.line, bytes, i);
    var lines := LinesOf(f.actions);
    ListenerState(f.line, MaskAfter(start.mask, f.actions), start.events + EventsAfter(start.mask, f.actions),
                  start.responses + lines, if |taken| == |lines| then RespondAll(start.ledger, lines, taken) else start.ledger)
  }

  /** What a scan yields: its actions, whether the lines' choices are ones
      `processResponse` can make, and the listener state after it. */
  datatype ScanRecord = ScanRecord(actions: seq<Action>, consistent: bool, state: ListenerState)

  /** The record of the first `i` bytes of a read from `start`, the lines
      retiring the commands `taken` names. */
  function Scanned(start: ListenerState, bytes: seq<Byte>, i: nat, taken: seq<Option<int>>): ScanRecord
    requires i <= |bytes|
  {
    var f := Scan(start.line, bytes, i);
    ScanRecord(f.actions, ChoosesAll(start.ledger, LinesOf(f.actions), taken), ScanState(start, bytes, i, taken))
  }

  /** What `close` does to the ledger: `ids` lists every command pending
      before, once each, the table is emptied and each of them fails with
      "Connection closed" in that order. */
  ghost predicate ClosedLedger(pending0: map<int, PendingCommand>, completed0: seq<Completion>, ids: seq<int>,
                               pending: map<int, PendingCommand>, completed: seq<Completion>)
  {
    && Distinct(ids)
    && (forall k :: k in ids <==> k in pending0)
    && |ids| == |pending0|
    && pending == map[]
    && completed == completed0 + Failures(ids, "Connection closed")
  }

  /** The commands still waiting for an answer, and the results delivered
      so far in delivery order. */
  datatype Ledger = Ledger(pending: map<int, PendingCommand>, completed: seq<Completion>)

  /** The command `processResponse` retires for `response`: a parsable
      "#id:result" names its own id, when that id is pending; any other line
      takes some pending command, when there is one. */
  predicate Chooses(l: Ledger, response: string, taken: Option<int>)
  {
    match ParseTagged(StripPrompt(response))
    case Some(t) => taken == (if t.id in l.pending then Some(t.id) else None)
    case None => if l.pending == map[] then taken == None else taken.Some? && taken.value in l.pending
  }

  /** `processResponse`'s effect on the ledger, given the command it
      retires: that command leaves the table with the tagged result, or the
      whole stripped line when the line carries no tag. */
  function Respond(l: Ledger, response: string, taken: Option<int>): Ledger
  {
    var content := StripPrompt(response);
    match taken
    case None => l
    case Some(id) =>
      if id !in l.pending then l
      else
        var result := match ParseTagged(content) case Some(t) => t.result case None => content;
        Ledger(l.pending - {id}, l.completed + [Completion(id, Response(result))])
  }

  /** The lines of a listener pass handed to `processResponse` in turn;
      `taken[i]` is the command the i-th line retires. */
  function RespondAll(l: Ledger, lines: seq<string>, taken: seq<Option<int>>): Ledger
    requires |taken| == |lines|
  {
    if lines == [] then l
    else Respond(RespondAll(l, lines[..|lines| - 1], taken[..|lines| - 1]), lines[|lines| - 1], taken[|lines| - 1])
  }

  /** Each line retires what `processResponse` may retire at that point. */
  predicate ChoosesAll(l: Ledger, lines: seq<string>, taken: seq<Option<int>>)
  {
    && |taken| == |lines|
    && (lines != [] ==>
          && ChoosesAll(l, lines[..|lines| - 1], taken[..|lines| - 1])
          && Chooses(RespondAll(l, lines[..|lines| - 1], taken[..|lines| - 1]), lines[|lines| - 1], taken[|lines| - 1]))
  }

  /** One more line at the end of a pass. */
  lemma RespondAllSnoc(l: Ledger, lines: seq<string>, taken: seq<Option<int>>, x: seq<string>, t: seq<Option<int>>)
    requires |taken| == |lines| && |t| == |x| <= 1
    ensures RespondAll(l, lines + x, taken + t)
         == if x == [] then RespondAll(l, lines, taken) else Respond(RespondAll(l, lines, taken), x[0], t[0])
    ensures ChoosesAll(l, lines + x, taken + t)
         <==> ChoosesAll(l, lines, taken) && (x != [] ==> Chooses(RespondAll(l, lines, taken), x[0], t[0]))
  {
    if x == [] {
      assert lines + x == lines && taken + t == taken;
    } else {
      assert (lines + x)[..|lines + x| - 1] == lines;
      assert (taken + t)[..|lines + x| - 1] == taken;
    }
  }

  /** Answers only ever retire commands: whatever is still pending was
      pending before with the same record, the results delivered before are
      kept, and each command that leaves the table gets exactly one result. */
  lemma {:induction false} RespondAllRetires(l: Ledger, lines: seq<string>, taken: seq<Option<int>>)
    requires |taken| == |lines|
    ensures var r := RespondAll(l, lines, taken);
      && (forall k :: k in r.pending ==> k in l.pending && r.pending[k] == l.pending[k])
      && |l.completed| <= |r.completed| && r.completed[..|l.completed|] == l.completed
      && |r.completed| + |r.pending| == |l.completed| + |l.pending|
  {
    if lines != [] {
      var n := |lines| - 1;
      RespondAllRetires(l, lines[..n], taken[..n]);
      var q := RespondAll(l, lines[..n], taken[..n]);
      var r := RespondAll(l, lines, taken);
      if taken[n].Some? && taken[n].value in q.pending {
        RemoveOne(q.pending, taken[n].value);
        assert r.completed[..|q.completed|] == q.completed;
        assert r.completed[..|l.completed|] == q.completed[..|l.completed|];
      }
    }
  }

  /** The timeout sweep's effect on the ledger: the commands past their own
      timeout leave the table and fail with "Command timeout", in the order
      `ids`; the others stay as they were. */
  function Swept(l: Ledger, now: nat, ids: seq<int>): Ledger
  {
    Ledger(map k | k in l.pending && !TimedOut(l.pending[k], now) :: l.pending[k],
           l.completed + Failures(ids, "Command timeout"))
  }

  /** `ids` lists each timed-out command of the ledger once. */
  ghost predicate SweepOrder(l: Ledger, now: nat, ids: seq<int>)
  {
    Distinct(ids) && forall k :: k in ids <==> k in l.pending && TimedOut(l.pending[k], now)
  }

  /** After a sweep no pending command is past its timeout, and each
      command either stays or fails once. */
  lemma SweptLeavesNoTimeout(l: Ledger, now: nat, ids: seq<int>)
    requires SweepOrder(l, now, ids)
    ensures var r := Swept(l, now, ids);
      && (forall k :: k in r.pending ==> !TimedOut(r.pending[k], now))
      && |r.completed| + |r.pending| == |l.completed| + |l.pending|
  {
    var r := Swept(l, now, ids);
    var gone := set k | k in l.pending && TimedOut(l.pending[k], now);
    assert r.pending.Keys == l.pending.Keys - gone;
    DistinctCard(ids, gone);
  }

  // ---------------------------------------------------------------------
  // Port enumeration

  /** `std::string`'s `<`: lexicographic by character code. */
  predicate LexLess(a: string, b: string)
  {
    if |a| == 0 then |b| > 0
    else if |b| == 0 then false
    else if a[0] != b[0] then a[0] < b[0]
    else LexLess(a[1..], b[1..])
  }

  lemma {:induction false} LexIrreflexive(a: string)
    ensures !LexLess(a, a)
  {
    if |a| > 0 {
      LexIrreflexive(a[1..]);
    }
  }

  lemma {:induction false} LexTotal(a: string, b: string)
    requires a != b
    ensures LexLess(a, b) || LexLess(b, a)
  {
    if |a| > 0 && |b| > 0 && a[0] == b[0] {
      assert a == [a[0]] + a[1..] && b == [b[0]] + b[1..];
      LexTotal(a[1..], b[1..]);
    }
  }

  lemma {:induction false} LexTransitive(a: string, b: string, c: string)
    requires LexLess(a, b) && LexLess(b, c)
    ensures LexLess(a, c)
  {
    if |a| > 0 && |b| > 0 && |c| > 0 && a[0] == b[0] && b[0] == c[0] {
      LexTransitive(a[1..], b[1..], c[1..]);
    }
  }

  /** Strictly ascending: sorted, with no duplicates. */
  predicate StrictlySorted(s: seq<string>)
  {
    forall i, j :: 0 <= i < j < |s| ==> LexLess(s[i], s[j])
  }

  lemma StrictlySortedIsDistinct(s: seq<string>)
    requires StrictlySorted(s)
    ensures forall i, j :: 0 <= i < j < |s| ==> s[i] != s[j]
  {
    forall i, j | 0 <= i < j < |s|
      ensures s[i] != s[j]
    {
      LexIrreflexive(s[i]);
    }
  }

  /** `x` put into its place in a strictly sorted list, unless it is there already. */
  function Insert(s: seq<string>, x: string): (r: seq<string>)
    requires StrictlySorted(s)
    ensures StrictlySorted(r)
    ensures forall y :: y in r <==> y in s || y == x
    decreases |s|
  {
    if s == [] then [x]
    else if x == s[0] then s
    else if LexLess(x, s[0]) then
      assert forall j :: 0 < j < |s| ==> LexLess(x, s[j]) by {
        forall j | 0 < j < |s|
          ensures LexLess(x, s[j])
        {
          LexTransitive(x, s[0], s[j]);
        }
      }
      [x] + s
    else
      LexTotal(x, s[0]);
      var tail := Insert(s[1..], x);
      assert forall y :: y in tail ==> LexLess(s[0], y) by {
        forall y | y in tail
          ensures LexLess(s[0], y)
        {
          if y != x {
            var j :| 0 <= j < |s[1..]| && s[1..][j] == y;
            assert s[j + 1] == y;
          }
        }
      }
      [s[0]] + tail
  }

  /** A port description names one of the two adapter chips the device uses. */
  predicate IsMakcuDescription(description: string)
  {
    Contains(description, "USB-Enhanced-SERIAL CH343") || Contains(description, "USB-SERIAL CH340")
  }

  /** One enumerated port device: its description and, when the registry
      lookup succeeds, its port name. */
  datatype PortDevice = PortDevice(description: string, portName: Option<string>)

  predicate Qualifies(d: PortDevice, allPorts: seq<string>)
  {
    IsMakcuDescription(d.description) && d.portName.Some? && d.portName.value in allPorts
  }

  /** `findMakcuPorts`: the names of the enumerated devices with a matching
      description whose port is present, sorted and without duplicates. */
  method FindMakcuPorts(devices: seq<PortDevice>, allPorts: seq<string>) returns (ports: seq<string>)
    ensures StrictlySorted(ports)
    ensures forall p :: p in ports <==> exists d :: d in devices && Qualifies(d, allPorts) && d.portName.value == p
  {
    var found: seq<string> := [];
    var i := 0;
    while i < |devices|
      invariant 0 <= i <= |devices|
      invariant forall p :: p in found <==> exists d :: d in devices[..i] && Qualifies(d, allPorts) && d.portName.value == p
    {
      var d := devices[i];
      assert devices[..i + 1] == devices[..i] + [d];
      if IsMakcuDescription(d.description) && d.portName.Some? && d.portName.value in allPorts {
        found := found + [d.portName.value];
      }
      i := i + 1;
    }
    assert devices[..i] == devices;
    ports := [];
    var k := 0;
    while k < |found|
      invariant 0 <= k <= |found|
      invariant StrictlySorted(ports)
      invariant forall p :: p in ports <==> p in found[..k]
    {
      assert found[..k + 1] == found[..k] + [found[k]];
      ports := Insert(ports, found[k]);
      k := k + 1;
    }
    assert found[..k] == found;
  }

  // ---------------------------------------------------------------------
  // The port

  class Port {
    var isOpen: bool
    /** `m_commandCounter`, a 32-bit atomic. */
    var commandCounter: int
    var pending: map<int, PendingCommand>
    var lastButtonMask: Byte
    /** The listener's partial line. */
    var line: seq<Byte>
    /** When the listener last swept timed-out commands. */
    var lastCleanup: nat
    /** Every frame handed to `WriteFile`, in order. */
    var writes: seq<string>
    /** Every promise completed, in order. */
    var completed: seq<Completion>
    /** Every call of the button callback, in order. */
    var events: seq<ButtonEvent>
    /** Every line handed to `processResponse`, in order. */
    var responses: seq<string>
    /** Whether the n-th `WriteFile` writes the whole frame. */
    const writeOk: nat -> bool

    constructor (writeOk: nat -> bool)
      ensures !isOpen && commandCounter == 0 && pending == map[] && lastButtonMask == 0 && line == []
      ensures writes == [] && completed == [] && events == [] && responses == []
      ensures this.writeOk == writeOk
    {
      this.writeOk := writeOk;
      isOpen := false;
      commandCounter := 0;
      pending := map[];
      lastButtonMask := 0;
      line := [];
      lastCleanup := 0;
      writes := [];
      completed := [];
      events := [];
      responses := [];
    }

    /** The pending table and the delivered results, as one ledger. */
    function Tracked(): Ledger
      reads this
    {
      Ledger(pending, completed)
    }

    /** `open` on a closed port: `portOk` says whether the handle was created
        and configured. A successful open starts a listener with an empty line. */
    method Open(portOk: bool, now: nat) returns (ok: bool)
      requires !isOpen
      modifies this
      ensures ok == portOk && isOpen == portOk
      ensures ok ==> line == [] && lastCleanup == now
      ensures !ok ==> line == old(line) && lastCleanup == old(lastCleanup)
      ensures commandCounter == old(commandCounter) && pending == old(pending) && lastButtonMask == old(lastButtonMask)
      ensures writes == old(writes) && completed == old(completed) && events == old(events) && responses == old(responses)
    {
      ok := portOk;
      if portOk {
        isOpen := true;
        line := [];
        lastCleanup := now;
      }
    }

    /** Fails every pending command with `reason` and empties the table;
        `ids` is the order the table was walked in. */
    method FailAll(reason: string) returns (ghost ids: seq<int>)
      modifies this`pending, this`completed
      ensures Distinct(ids) && forall k :: k in ids <==> k in old(pending)
      ensures pending == map[]
      ensures completed == old(completed) + Failures(ids, reason)
    {
      ids := [];
      var rest := pending.Keys;
      while rest != {}
        invariant rest <= old(pending).Keys
        invariant forall k :: k in ids <==> k in old(pending) && k !in rest
        invariant Distinct(ids)
        invariant completed == old(completed) + Failures(ids, reason)
        decreases |rest|
      {
        Inhabited(rest);
        var k :| k in rest;
        completed := completed + [Completion(k, Failed(reason))];
        ids := ids + [k];
        rest := rest - {k};
      }
      pending := map[];
    }

    /** `close`: on an open port every pending command fails with "Connection
        closed" and the port is closed; on a closed port nothing happens. */
    method Close() returns (ghost ids: seq<int>)
      modifies this
      ensures !isOpen
      ensures !old(isOpen) ==> ids == [] && pending == old(pending) && completed == old(completed)
      ensures old(isOpen) ==> ClosedLedger(old(pending), old(completed), ids, pending, completed)
      ensures commandCounter == old(commandCounter) && lastButtonMask == old(lastButtonMask) && line == old(line)
      ensures lastCleanup == old(lastCleanup) && writes == old(writes) && events == old(events) && responses == old(responses)
    {
      ids := [];
      if !isOpen {
        return;
      }
      ids := FailAll("Connection closed");
      DistinctCard(ids, old(pending).Keys);
      isOpen := false;
    }

    /** `generateCommandId`: the id for the current counter, and the counter
        advanced with a 32-bit wrap. */
    method GenerateCommandId() returns (id: int)
      modifies this`commandCounter
      ensures id == CommandId(old(commandCounter))
      ensures commandCounter == Wrap32(old(commandCounter) + 1)
    {
      id := CommandId(commandCounter);
      commandCounter := Wrap32(commandCounter + 1);
    }

    /** `sendTrackedCommand`: `None` on a closed port (its future holds "Port
        not open"); otherwise the command is stored under a fresh id, framed
        and written, and a failed write fails and removes it again. A command
        still pending under the same id is displaced, and its promise is
        broken. Either way the command enters the ledger of pending and
        completed commands exactly once. */
    method SendTrackedCommand(command: string, expectResponse: bool, timeout: nat, now: nat) returns (id: Option<int>)
      modifies this
      ensures !old(isOpen) ==> id == None && commandCounter == old(commandCounter) && pending == old(pending)
                               && writes == old(writes) && completed == old(completed)
      ensures old(isOpen) ==>
        var cmdId := CommandId(old(commandCounter));
        var displaced := if cmdId in old(pending) then [Completion(cmdId, Failed("broken promise"))] else [];
        id == Some(cmdId)
        && commandCounter == Wrap32(old(commandCounter) + 1)
        && writes == old(writes) + [TrackedFrame(command, expectResponse, cmdId)]
        && (writeOk(|old(writes)|) ==>
              pending == old(pending)[cmdId := PendingCommand(cmdId, command, expectResponse, now, timeout)]
              && completed == old(completed) + displaced)
        && (!writeOk(|old(writes)|) ==>
              pending == old(pending) - {cmdId}
              && completed == old(completed) + displaced + [Completion(cmdId, Failed("Write failed"))])
        && |completed| + |pending| == |old(completed)| + |old(pending)| + 1
      ensures isOpen == old(isOpen) && lastButtonMask == old(lastButtonMask) && line == old(line)
      ensures lastCleanup == old(lastCleanup) && events == old(events) && responses == old(responses)
    {
      if !isOpen {
        return None;
      }
      var cmdId := GenerateCommandId();
      Submit(PendingCommand(cmdId, command, expectResponse, now, timeout), TrackedFrame(command, expectResponse, cmdId));
      id := Some(cmdId);
    }

    /** The part of `sendTrackedCommand` after the id is drawn: store the
        command, write its frame, and undo the store if the write fails. */
    method Submit(c: PendingCommand, frame: string)
      modifies this`pending, this`completed, this`writes
      ensures var displaced := if c.id in old(pending) then [Completion(c.id, Failed("broken promise"))] else [];
        writes == old(writes) + [frame]
        && (writeOk(|old(writes)|) ==> pending == old(pending)[c.id := c] && completed == old(completed) + displaced)
        && (!writeOk(|old(writes)|) ==>
              pending == old(pending) - {c.id}
              && completed == old(completed) + displaced + [Completion(c.id, Failed("Write failed"))])
      ensures |completed| + |pending| == |old(completed)| + |old(pending)| + 1
    {
      ghost var before := pending;
      Register(c);
      var ok := writeOk(|writes|);
      writes := writes + [frame];
      if !ok {
        Withdraw(c.id);
        StoreThenRemove(before, c.id, c);
      }
    }

    /** The store under the lock: a command already waiting under the same id
        is completed as a broken promise and replaced. */
    method Register(c: PendingCommand)
      modifies this`pending, this`completed
      ensures pending == old(pending)[c.id := c]
      ensures completed == old(completed) + if c.id in old(pending) then [Completion(c.id, Failed("broken promise"))] else []
      ensures |completed| + |pending| == |old(completed)| + |old(pending)| + 1
    {
      if c.id in pending {
        completed := completed + [Completion(c.id, Failed("broken promise"))];
      }
      StoreOne(pending, c.id, c);
      pending := pending[c.id := c];
    }

    /** The undo after a failed write: the command fails and leaves the table. */
    method Withdraw(id: int)
      requires id in pending
      modifies this`pending, this`completed
      ensures pending == old(pending) - {id}
      ensures completed == old(completed) + [Completion(id, Failed("Write failed"))]
      ensures |completed| + |pending| == |old(completed)| + |old(pending)|
    {
      completed := completed + [Completion(id, Failed("Write failed"))];
      RemoveOne(pending, id);
      pending := pending - {id};
    }

    /** `sendCommand`: false on a closed port; otherwise the framed command is
        written and the result is whether the write went through. */
    method SendCommand(command: string) returns (ok: bool)
      modifies this`writes
      ensures !isOpen ==> !ok && writes == old(writes)
      ensures isOpen ==> writes == old(writes) + [PlainFrame(command)] && ok == writeOk(|old(writes)|)
    {
      if !isOpen {
        return false;
      }
      ok := writeOk(|writes|);
      writes := writes + [PlainFrame(command)];
    }

    /** `handleButtonData`: an unchanged mask is ignored; a new one is stored
        and the callback hears about each changed bit among 0-4. */
    method HandleButtonData(data: Byte)
      modifies this`lastButtonMask, this`events
      ensures data == old(lastButtonMask) ==> lastButtonMask == old(lastButtonMask) && events == old(events)
      ensures data != old(lastButtonMask) ==>
        lastButtonMask == data && events == old(events) + Changed(old(lastButtonMask), data, 5)
    {
      var last := lastButtonMask;
      if data == last {
        return;
      }
      lastButtonMask := data;
      for bit := 0 to 5
        invariant lastButtonMask == data
        invariant events == old(events) + Changed(last, data, bit)
      {
        if Differs(last, data, bit) {
          var isPressed := BitSet(data, bit);
          events := events + [ButtonEvent(bit, isPressed)];
        }
      }
    }

    /** `processResponse`: after the prompt is stripped, a parsable "#id:result"
        completes and removes pending command `id`, if there is one; any other
        line completes and removes whichever pending command the table yields
        first, if any. `taken` names the command completed. */
    method ProcessResponse(response: string) returns (ghost taken: Option<int>)
      modifies this`pending, this`completed, this`responses
      ensures responses == old(responses) + [response]
      ensures |completed| + |pending| == |old(completed)| + |old(pending)|
      ensures var content := StripPrompt(response);
        match ParseTagged(content)
        case Some(t) =>
          pending == old(pending) - {t.id}
          && (t.id in old(pending) ==> taken == Some(t.id) && completed == old(completed) + [Completion(t.id, Response(t.result))])
          && (t.id !in old(pending) ==> taken == None && completed == old(completed))
        case None =>
          (old(pending) == map[] ==> taken == None && pending == old(pending) && completed == old(completed))
          && (old(pending) != map[] ==>
                taken.Some? && taken.value in old(pending) && pending == old(pending) - {taken.value}
                && completed == old(completed) + [Completion(taken.value, Response(content))])
      ensures Chooses(old(Tracked()), response, taken) && Tracked() == Respond(old(Tracked()), response, taken)
    {
      responses := responses + [response];
      var content := StripPrompt(response);
      var tagged := ParseTagged(content);
      if tagged.Some? {
        var cmdId := tagged.value.id;
        if cmdId in pending {
          completed := completed + [Completion(cmdId, Response(tagged.value.result))];
          RemoveOne(pending, cmdId);
          pending := pending - {cmdId};
          taken := Some(cmdId);
        } else {
          taken := None;
        }
        return;
      }
      taken := None;
      if pending != map[] {
        Inhabited(pending.Keys);
        var k :| k in pending;
        completed := completed + [Completion(k, Response(content))];
        RemoveOne(pending, k);
        pending := pending - {k};
        taken := Some(k);
      }
    }

    /** `cleanupTimedOutCommands`: exactly the commands past their own timeout
        fail with "Command timeout" and leave the table; `ids` is the order
        they were met in. */
    method CleanupTimedOutCommands(now: nat) returns (ghost ids: seq<int>)
      modifies this`pending, this`completed
      ensures forall k :: k in pending <==> k in old(pending) && !TimedOut(old(pending)[k], now)
      ensures forall k :: k in pending ==> pending[k] == old(pending)[k]
      ensures Distinct(ids) && forall k :: k in ids <==> k in old(pending) && TimedOut(old(pending)[k], now)
      ensures completed == old(completed) + Failures(ids, "Command timeout")
      ensures |completed| + |pending| == |old(completed)| + |old(pending)|
      ensures SweepOrder(old(Tracked()), now, ids) && Tracked() == Swept(old(Tracked()), now, ids)
    {
      ids := [];
      var rest := pending.Keys;
      while rest != {}
        invariant Sweeping(old(pending), now, rest, pending, ids)
        invariant completed == old(completed) + Failures(ids, "Command timeout")
        decreases |rest|
      {
        Inhabited(rest);
        var k :| k in rest;
        SweepStep(old(pending), now, rest, pending, ids, k);
        if TimedOut(pending[k], now) {
          completed := completed + [Completion(k, Failed("Command timeout"))];
          ids := ids + [k];
          pending := pending - {k};
        }
        rest := rest - {k};
      }
    }

    /** The listener's handling of one byte, as `Step` describes it: a
        button mask goes to `HandleButtonData`, a completed line to
        `ProcessResponse`. */
    method Feed(b: Byte) returns (ghost acts: seq<Action>, ghost taken: seq<Option<int>>)
      modifies this
      ensures acts == Step(old(line), b).actions && line == Step(old(line), b).line
      // A byte completes at most one line; that line retires what
      // `processResponse` retires for it, and nothing else touches the ledger.
      ensures |taken| == |LinesOf(acts)| <= 1
      ensures LinesOf(acts) == [] ==> Tracked() == old(Tracked())
      ensures LinesOf(acts) != [] ==>
        Chooses(old(Tracked()), LinesOf(acts)[0], taken[0]) && Tracked() == Respond(old(Tracked()), LinesOf(acts)[0], taken[0])
      ensures lastButtonMask == MaskAfter(old(lastButtonMask), acts)
      ensures events == old(events) + EventsAfter(old(lastButtonMask), acts)
      ensures forall k :: k in pending ==> k in old(pending) && pending[k] == old(pending)[k]
      ensures |completed| + |pending| == |old(completed)| + |old(pending)|
      ensures responses == old(responses) + LinesOf(acts)
      ensures isOpen == old(isOpen) && commandCounter == old(commandCounter) && writes == old(writes)
      ensures lastCleanup == old(lastCleanup)
    {
      if b == LF && |line| > 0 {
        acts, taken := FeedLine();
      } else {
        acts := FeedOther(b);
        taken := [];
      }
    }

    /** A line feed ending a line: the buffer restarts and the line goes to
        `processResponse`, which retires `taken[0]`. */
    method FeedLine() returns (ghost acts: seq<Action>, ghost taken: seq<Option<int>>)
      requires |line| > 0
      modifies this`line, this`pending, this`completed, this`responses
      ensures acts == Step(old(line), LF).actions && line == Step(old(line), LF).line
      ensures |taken| == |LinesOf(acts)| == 1
      ensures Chooses(old(Tracked()), LinesOf(acts)[0], taken[0]) && Tracked() == Respond(old(Tracked()), LinesOf(acts)[0], taken[0])
      ensures MaskAfter(old(lastButtonMask), acts) == lastButtonMask
      ensures EventsAfter(old(lastButtonMask), acts) == []
      ensures forall k :: k in pending ==> k in old(pending) && pending[k] == old(pending)[k]
      ensures |completed| + |pending| == |old(completed)| + |old(pending)|
      ensures responses == old(responses) + LinesOf(acts)
    {
      var text := line;
      ghost var t := CompleteLine();
      acts := [Line(text)];
      taken := [t];
      assert acts[..0] == [];
      assert LinesOf(acts) == [LineText(text)];
    }

    /** Every byte but a line feed that ends a line: a control byte is a
        button mask for `HandleButtonData`, CR is dropped, anything else joins
        the line while it has room. */
    method FeedOther(b: Byte) returns (ghost acts: seq<Action>)
      requires !(b == LF && |line| > 0)
      modifies this`line, this`lastButtonMask, this`events
      ensures acts == Step(old(line), b).actions && line == Step(old(line), b).line
      ensures LinesOf(acts) == []
      ensures lastButtonMask == MaskAfter(old(lastButtonMask), acts)
      ensures events == old(events) + EventsAfter(old(lastButtonMask), acts)
    {
      acts := [];
      if b < 32 && b != CR && b != LF {
        HandleButtonData(b);
        acts := [Button(b)];
        assert acts[..0] == [];
      } else if b != CR && b != LF {
        if |line| < LineCapacity {
          line := line + [b];
        }
      }
    }

    /** A line feed ending a line: the buffer restarts and the line goes to
        `processResponse`, which retires `taken`. */
    method CompleteLine() returns (ghost taken: Option<int>)
      modifies this`line, this`pending, this`completed, this`responses
      ensures line == []
      ensures responses == old(responses) + [LineText(old(line))]
      ensures Chooses(old(Tracked()), LineText(old(line)), taken)
      ensures Tracked() == Respond(old(Tracked()), LineText(old(line)), taken)
      ensures forall k :: k in pending ==> k in old(pending) && pending[k] == old(pending)[k]
      ensures |completed| + |pending| == |old(completed)| + |old(pending)|
    {
      var text := line;
      line := [];
      taken := ProcessResponse(LineText(text));
    }

    /** The listener's part of the port: line buffer, button mask and
        events, responses and the ledger. */
    function Listener(): ListenerState
      reads this
    {
      ListenerState(line, lastButtonMask, events, responses, Tracked())
    }

    /** After the first `i` bytes of a read that began in `start`: the
        framing scan's actions, lines whose choices `taken` are consistent,
        and the listener state `ScanState` predicts. */
    ghost predicate ScannedTo(start: ListenerState, bytes: seq<Byte>, i: nat, actions: seq<Action>, taken: seq<Option<int>>)
      requires i <= |bytes|
      reads this
    {
      Scanned(start, bytes, i, taken) == ScanRecord(actions, true, Listener())
    }

    /** Byte `i` fed after the first `i`: the scanned state moves one byte on. */
    method FeedNext(ghost start: ListenerState, bytes: seq<Byte>, i: nat,
                    ghost actions: seq<Action>, ghost taken: seq<Option<int>>)
      returns (ghost actions': seq<Action>, ghost taken': seq<Option<int>>)
      requires i < |bytes|
      requires ScannedTo(start, bytes, i, actions, taken)
      modifies this
      ensures ScannedTo(start, bytes, i + 1, actions', taken')
      ensures isOpen == old(isOpen) && commandCounter == old(commandCounter) && writes == old(writes)
      ensures lastCleanup == old(lastCleanup)
    {
      ghost var acts, tk := Feed(bytes[i]);
      actions' := actions + acts;
      taken' := taken + tk;
      LinesOfAppend(actions, acts);
      RespondAllSnoc(start.ledger, LinesOf(actions), taken, LinesOf(acts), tk);
      MaskAfterAppend(start.mask, actions, acts);
      EventsStep(start.mask, start.events, actions, acts);
      LinesStep(start.responses, actions, acts);
    }

    /** The listener loop over the bytes of one read. The line buffer and
        the button reports are exactly those of `Scan`, the lines handed to
        `processResponse` are its completed lines, and every completion
        retires exactly one pending command. */
    method ReadBytes(bytes: seq<Byte>) returns (ghost actions: seq<Action>, ghost taken: seq<Option<int>>)
      modifies this
      ensures actions == Scan(old(line), bytes, |bytes|).actions
      ensures ChoosesAll(old(Tracked()), LinesOf(actions), taken)
      ensures Tracked() == RespondAll(old(Tracked()), LinesOf(actions), taken)
      ensures line == Scan(old(line), bytes, |bytes|).line
      ensures lastButtonMask == MaskAfter(old(lastButtonMask), actions)
      ensures events == old(events) + EventsAfter(old(lastButtonMask), actions)
      ensures responses == old(responses) + LinesOf(actions)
      ensures forall k :: k in pending ==> k in old(pending) && pending[k] == old(pending)[k]
      ensures |completed| + |pending| == |old(completed)| + |old(pending)|
      ensures isOpen == old(isOpen) && commandCounter == old(commandCounter) && writes == old(writes)
      ensures lastCleanup == old(lastCleanup)
    {
      actions, taken := ScanRead(bytes);
      RespondAllRetires(old(Tracked()), LinesOf(actions), taken);
    }

    /** The loop of `ReadBytes`: every byte read goes through `FeedNext`. */
    method ScanRead(bytes: seq<Byte>) returns (ghost actions: seq<Action>, ghost taken: seq<Option<int>>)
      modifies this
      ensures ScannedTo(old(Listener()), bytes, |bytes|, actions, taken)
      ensures isOpen == old(isOpen) && commandCounter == old(commandCounter) && writes == old(writes)
      ensures lastCleanup == old(lastCleanup)
    {
      actions := [];
      taken := [];
      var i := 0;
      while i < |bytes|
        invariant 0 <= i <= |bytes|
        invariant ScannedTo(old(Listener()), bytes, i, actions, taken)
        invariant isOpen == old(isOpen) && commandCounter == old(commandCounter) && writes == old(writes)
        invariant lastCleanup == old(lastCleanup)
      {
        actions, taken := FeedNext(old(Listener()), bytes, i, actions, taken);
        i := i + 1;
      }
    }

    /** One pass of the listener. `read` is None when the pass goes back to
        sleep before reading (a failed `ClearCommError`, nothing queued, or a
        failed `ReadFile`): then nothing changes, and in particular no command
        is timed out. Otherwise the bytes read are processed, then the sweep of
        timed-out commands runs when more than 50 ms have passed since the last. */
    method Listen(read: Option<seq<Byte>>, now: nat)
      returns (ghost actions: seq<Action>, ghost taken: seq<Option<int>>, ghost timedOut: seq<int>)
      modifies this
      ensures read.None? ==>
        actions == [] && taken == [] && timedOut == [] && line == old(line) && lastButtonMask == old(lastButtonMask) && events == old(events)
        && responses == old(responses) && pending == old(pending) && completed == old(completed)
        && lastCleanup == old(lastCleanup)
      ensures read.Some? ==>
        var bytes := read.value;
        actions == Scan(old(line), bytes, |bytes|).actions
        && line == Scan(old(line), bytes, |bytes|).line
        && lastButtonMask == MaskAfter(old(lastButtonMask), actions)
        && events == old(events) + EventsAfter(old(lastButtonMask), actions)
        && responses == old(responses) + LinesOf(actions)
        && (forall k :: k in pending ==> k in old(pending) && pending[k] == old(pending)[k])
        && |completed| + |pending| == |old(completed)| + |old(pending)|
        && (now - old(lastCleanup) > CleanupIntervalMs ==>
              lastCleanup == now && forall k :: k in pending ==> !TimedOut(pending[k], now))
        && (now - old(lastCleanup) <= CleanupIntervalMs ==> lastCleanup == old(lastCleanup))
      // The lines retire commands as `processResponse` does, then the sweep
      // fails the commands past their timeout and keeps the rest as they were.
      ensures read.Some? ==> ChoosesAll(old(Tracked()), LinesOf(actions), taken)
      ensures read.Some? ==>
        var mid := RespondAll(old(Tracked()), LinesOf(actions), taken);
        && (now - old(lastCleanup) > CleanupIntervalMs ==>
              SweepOrder(mid, now, timedOut) && Tracked() == Swept(mid, now, timedOut))
        && (now - old(lastCleanup) <= CleanupIntervalMs ==> timedOut == [] && Tracked() == mid)
      ensures isOpen == old(isOpen) && commandCounter == old(commandCounter) && writes == old(writes)
    {
      timedOut := [];
      if read.None? {
        return [], [], [];
      }
      actions, taken := ReadBytes(read.value);
      if now - lastCleanup > CleanupIntervalMs {
        timedOut := CleanupTimedOutCommands(now);
        lastCleanup := now;
      }
    }
  }
}

=== FILE: text.dfy ===
// The string helpers the device code leans on: `std::to_string` for integers,
// `std::stoi` as the serial port's response parser uses it, and the ASCII
// upper-casing of `std::toupper` in the "C" locale.

module Text {

  predicate IsDigit(c: char)
  {
    '0' <= c <= '9'
  }

  predicate AllDigits(s: string)
  {
    forall i :: 0 <= i < |s| ==> IsDigit(s[i])
  }

  function DigitChar(d: nat): (c: char)
    requires d < 10
    ensures IsDigit(c)
  {
    ('0' as int + d) as char
  }

  function DigitValue(c: char): (d: nat)
    requires IsDigit(c)
    ensures d < 10 && DigitChar(d) == c
  {
    c as int - '0' as int
  }

  /** `std::to_string` of a non-negative value: decimal, most significant digit
      first, no leading zeros. */
  function NatToString(n: nat): (s: string)
    ensures |s| >= 1 && AllDigits(s)
    ensures |s| > 1 ==> s[0] != '0'
    decreases n
  {
    if n < 10 then [DigitChar(n)] else NatToString(n / 10) + [DigitChar(n % 10)]
  }

  /** `std::to_string` of any integer: a minus sign before the magnitude. */
  function IntToString(i: int): string
  {
    if i < 0 then "-" + NatToString(-i) else NatToString(i)
  }

  /** The value of a run of decimal digits. */
  function DigitsValue(s: string): nat
    requires AllDigits(s)
  {
    if s == [] then 0 else DigitsValue(s[..|s| - 1]) * 10 + DigitValue(s[|s| - 1])
  }

  /** Printing a value and reading its digits back gives the value. */
  lemma {:induction false} NatToStringRoundTrip(n: nat)
    ensures DigitsValue(NatToString(n)) == n
    decreases n
  {
    var s := NatToString(n);
    if n >= 10 {
      NatToStringRoundTrip(n / 10);
      assert s[..|s| - 1] == NatToString(n / 10);
    }
  }

  /** The white space `isspace` accepts in the "C" locale. */
  predicate IsSpace(c: char)
  {
    c == ' ' || c == '\t' || c == '\n' || c == '\r' || c == '\U{B}' || c == '\U{C}'
  }

  /** The first position at or after `i` that is not white space. */
  function SkipSpaces(s: string, i: nat): (j: nat)
    requires i <= |s|
    ensures i <= j <= |s|
    ensures j < |s| ==> !IsSpace(s[j])
    ensures forall k :: i <= k < j ==> IsSpace(s[k])
    decreases |s| - i
  {
    if i < |s| && IsSpace(s[i]) then SkipSpaces(s, i + 1) else i
  }

  /** The end of the run of digits that starts at `i`. */
  function DigitRunEnd(s: string, i: nat): (j: nat)
    requires i <= |s|
    ensures i <= j <= |s|
    ensures j < |s| ==> !IsDigit(s[j])
    ensures AllDigits(s[i..j])
    decreases |s| - i
  {
    if i < |s| && IsDigit(s[i]) then
      var j := DigitRunEnd(s, i + 1);
      assert forall k :: 0 <= k < j - i ==> s[i..j][k] == s[k + i];
      j
    else i
  }

  /** The outcomes of `std::stoi`: a value, or one of its two exceptions. */
  datatype ParseResult = Parsed(value: int) | InvalidArgument | OutOfRange

  predicate InInt32(v: int)
  {
    -0x8000_0000 <= v < 0x8000_0000
  }

  /** `std::stoi(s)` in base 10: leading white space is skipped, one sign is
      accepted, at least one digit must follow, anything after the digits is
      ignored, and a value outside the 32-bit range is refused. */
  function Stoi(s: string): (r: ParseResult)
    ensures r.Parsed? ==> InInt32(r.value)
  {
    var i := SkipSpaces(s, 0);
    var negative := i < |s| && s[i] == '-';
    var j := if i < |s| && (s[i] == '-' || s[i] == '+') then i + 1 else i;
    var k := DigitRunEnd(s, j);
    if k == j then InvalidArgument
    else
      var magnitude := DigitsValue(s[j..k]);
      var v: int := if negative then 0 - (magnitude as int) else magnitude;
      if InInt32(v) then Parsed(v) else OutOfRange
  }

  /** The digits run to the end of a string made of digits. */
  lemma DigitRunToEnd(s: string, i: nat)
    requires i <= |s| && forall k :: i <= k < |s| ==> IsDigit(s[k])
    ensures DigitRunEnd(s, i) == |s|
  {
  }

  /** `std::stoi` reads back what `std::to_string` wrote, for every 32-bit value. */
  lemma StoiIntToString(v: int)
    requires InInt32(v)
    ensures Stoi(IntToString(v)) == Parsed(v)
  {
    var s := IntToString(v);
    var digits := NatToString(if v < 0 then -v else v);
    NatToStringRoundTrip(if v < 0 then -v else v);
    assert !IsSpace(s[0]);
    assert SkipSpaces(s, 0) == 0;
    var j := if v < 0 then 1 else 0;
    assert s[j..] == digits;
    DigitRunToEnd(s, j);
    assert s[j..|s|] == digits;
  }

  /** `std::toupper` of one character. */
  function ToUpperChar(c: char): (u: char)
    ensures !('a' <= u <= 'z')
  {
    if 'a' <= c <= 'z' then (c as int - 32) as char else c
  }

  /** `std::transform(..., std::toupper)` in the "C" locale: only the 26 ASCII
      lower-case letters change. */
  function ToUpper(s: string): (u: string)
    ensures |u| == |s|
    ensures forall i :: 0 <= i < |s| ==> u[i] == ToUpperChar(s[i])
  {
    seq(|s|, i requires 0 <= i < |s| => ToUpperChar(s[i]))
  }

  /** Upper-casing twice is upper-casing once. */
  lemma ToUpperIdempotent(s: string)
    ensures ToUpper(ToUpper(s)) == ToUpper(s)
  {
  }

  /** The first index of `c` in `s`, if any (`std::string::find`). */
  function Find(s: string, c: char): (r: int)
    ensures -1 <= r < |s|
    ensures r >= 0 ==> s[r] == c && forall k :: 0 <= k < r ==> s[k] != c
    ensures r == -1 ==> forall k :: 0 <= k < |s| ==> s[k] != c
  {
    if |s| == 0 then -1
    else if s[0] == c then 0
    else
      var r := Find(s[1..], c);
      if r == -1 then -1 else r + 1
  }

  /** `sub` occurs in `s` at position `i`. */
  predicate OccursAt(s: string, sub: string, i: nat)
  {
    i + |sub| <= |s| && s[i..i + |sub|] == sub
  }

  /** `s` contains `sub` as a contiguous piece (`std::string::find != npos`). */
  predicate Contains(s: string, sub: string)
  {
    exists i: nat | i <= |s| :: OccursAt(s, sub, i)
  }
}

=== FILE: visibility.dfy ===
// The visibility test: a ped is visible when the frame counter it last
// rendered in equals the game's global frame counter (both one byte wide).
// The counter's global address and the ped field offset are not part of the
// offset table, so they are parameters; a global address of 0 means unknown.

module Visibility {
  import opened Remote

  /** `IsPedVisible`: visible by default when the global address is unknown or
      either byte cannot be read; otherwise the two counters must match. */
  function IsPedVisible(ped: Addr, frameCountAddr: Addr, pedOffset: nat, mem: Memory): (visible: bool)
    ensures frameCountAddr == 0 ==> visible
    ensures frameCountAddr !in mem.bytes || ped + pedOffset !in mem.bytes ==> visible
    ensures frameCountAddr != 0 && frameCountAddr in mem.bytes && ped + pedOffset in mem.bytes ==>
      (visible <==> mem.bytes[frameCountAddr] == mem.bytes[ped + pedOffset])
  {
    if frameCountAddr == 0 then true
    else if frameCountAddr !in mem.bytes then true
    else if ped + pedOffset !in mem.bytes then true
    else mem.bytes[frameCountAddr] == mem.bytes[ped + pedOffset]
  }

  function CounterRequest(pedOffset: nat): Addr -> seq<Request>
  {
    (p: Addr) => [ByteReq(p + pedOffset)]
  }

  /** `BatchCheckVisibility`: one result per ped, all `true` unless the global
      counter is known and readable; then every ped's counter is read in one
      execution into a zero-initialised buffer and compared. */
  method BatchCheckVisibility(peds: seq<Addr>, frameCountAddr: Addr, pedOffset: nat, gw: Gateway)
    returns (results: seq<bool>)
    modifies gw
    ensures |results| == |peds|
    ensures frameCountAddr == 0 || frameCountAddr !in gw.mem.bytes ==>
      (forall i :: 0 <= i < |peds| ==> results[i]) && gw.batches == old(gw.batches)
    ensures frameCountAddr != 0 && frameCountAddr in gw.mem.bytes ==>
      (forall i :: 0 <= i < |peds| ==>
         (results[i] <==> gw.mem.bytes[frameCountAddr] == gw.mem.ByteAt(peds[i] + pedOffset, 0)))
      && gw.batches == old(gw.batches) + [Gather(peds, CounterRequest(pedOffset))]
  {
    results := seq(|peds|, _ => true);
    if frameCountAddr == 0 {
      return;
    }
    if frameCountAddr !in gw.mem.bytes {
      return;
    }
    var globalCount := gw.mem.bytes[frameCountAddr];
    var reqs := BuildRequests(peds, CounterRequest(pedOffset));
    gw.Execute(reqs);
    var counts := seq(|peds|, i requires 0 <= i < |peds| => gw.mem.ByteAt(peds[i] + pedOffset, 0));
    var i := 0;
    while i < |peds|
      invariant 0 <= i <= |peds| && |results| == |peds|
      invariant forall k :: 0 <= k < i ==> (results[k] <==> globalCount == counts[k])
    {
      results := results[i := globalCount == counts[i]];
      i := i + 1;
    }
  }

  /** The batch and the single test agree on every ped whose counter is readable. */
  lemma BatchAgreesWhenReadable(ped: Addr, frameCountAddr: Addr, pedOffset: nat, mem: Memory)
    requires frameCountAddr != 0 && frameCountAddr in mem.bytes && ped + pedOffset in mem.bytes
    ensures IsPedVisible(ped, frameCountAddr, pedOffset, mem) <==> mem.bytes[frameCountAddr] == mem.ByteAt(ped + pedOffset, 0)
  {
  }

  /** They disagree on a ped whose counter cannot be read while the global
      counter is non-zero: the single test says visible, the batch compares the
      counter against the buffer's 0 and says hidden. */
  lemma BatchDiffersWhenUnreadable(ped: Addr, pedOffset: nat)
    ensures var mem := Memory(map[], map[], map[], map[], map[1 := 7]);
      ped + pedOffset != 1 ==>
        IsPedVisible(ped, 1, pedOffset, mem) && !(mem.bytes[1] == mem.ByteAt(ped + pedOffset, 0))
  {
  }
}
